=== FILE: README.md ===
# Police data cleaning and matching, modelled in Dafny

The repository turns raw rosters, complaint records and POST (Peace Officer
Standards and Training) histories from Louisiana law-enforcement agencies
into uniform tables, and links the officers of one table to those of
another. This project models its core:

- the column helpers of `lib/columns.py`: snake-case column names,
  constant columns, and the final shaping of each output table (projection
  on the canonical columns, de-duplication, rendering of numbers, sort);
- the behaviour of `remove_future_dates`, `float_to_int_str` and
  `canonicalize_officers` that the unit tests of `lib/clean_test.py` fix;
- the glue of the five matching scripts under `match/`: block keys built
  from name initials, the index each side gives the record matcher, the
  matcher's lower bound, and the rewrite of a table's `uid` column through
  `dict(matches).get(x, x)`;
- the cleaning scripts for Plaquemines SO, the New Orleans DA Brady list,
  the New Orleans Civil Service rosters, the IPM personnel roster,
  Madisonville PD and the five university police rosters.

A pandas frame is a `Table`: an ordered list of column names and a
sequence of rows, each row a map from column name to `Cell` (`Missing` for
NaN, `Str`, `Int`, and `IntegralFloat` for a float64 holding an integer).
Helpers that assign columns with `df.loc[:, c] = …` update the caller's
frame, so they are methods on the class `Tables.Frame` whose contracts tie
the new frame to a function of the old one; the properties are lemmas about
those functions. Helpers that build a new frame are functions, or methods
returning a `Table` when the script works by a loop. Where pandas raises
on a missing column (`df.uid`, `df[col]`, `df.loc[0, c]`, a sort key) the
member requires the column; where it raises on a length mismatch or a
failing lookup the model returns `None` or states the case as a
precondition. The cases it does not cover are listed under "Left out".

The modules follow the source files: `Columns` (`lib/columns.py`),
`CleanLib` (`lib/clean_test.py`), `Matching` and one `Match…` module per
file under `match/`, one `Clean…` module per file under `clean/`, and
`Rosters` for the shape the five university scripts share. `Tables`,
`Ordering`, `Text` and `Sequences` hold the frame, the sort, string
operations and the bookkeeping of in-place row splitting.

## Model

| member | source | states |
|---|---|---|
| Columns.SnakeCaseIsSnake | lib/columns.py:19-21 | every cleaned column name holds only lowercase letters, digits and `_`, and neither starts nor ends with `_` |
| Columns.SnakeCaseOfSnake | lib/columns.py:19-21 | a name already in snake case is its own cleaned form |
| Columns.SnakeCaseIdempotent | lib/columns.py:19-21 | cleaning a name twice gives what cleaning it once gives |
| Columns.Relabel | lib/columns.py:19-21 | a row's keys after renaming are exactly the cleaned names of the kept columns |
| Columns.CleanColumnNames | lib/columns.py:8-22 | the number of rows is kept |
| Columns.CleanColumnNamesSpec | lib/columns.py:18-21 | exactly the columns not starting with `Unnamed:` are kept; column `j` of the result is the snake-case name of the `j`-th kept column; every row keeps its length, and under each new name holds the cell of the column it came from (of the later one when two names clean alike) |
| Columns.CleanedNamesStable | lib/columns.py:18-21 | no cleaned name starts with `Unnamed:` and each is its own cleaned form |
| Columns.CleanColumnNamesIdempotent | lib/columns.py:8-22 | a second `clean_column_names` changes neither names, order nor cells |
| Columns.SetValues | lib/columns.py:25-48 | every listed column holds its value on every row; unlisted columns keep their cells; no column and no row is lost |
| Columns.RearrangeSpec | lib/columns.py:51-206 | given a `uid` column when the uid filter is on and sort keys among the kept columns, a `rearrange_*` output has exactly the canonical columns the input has, in canonical order, the sort keys among them; its rows are the selected rows, no two reading alike (NaN equal to NaN) on every column, rendered and sorted by the fixed keys; with the uid filter no row lacks a uid |
| Columns.SelectedSpec | lib/columns.py:68-71 | every row the uid filter keeps has its projection selected, every selected row is such a projection, and no two selected rows read alike on every kept column, NaN counting equal to NaN, as `drop_duplicates` compares |
| Tables.ProjectAlike | lib/columns.py:70-71 | two rows project to the same row exactly when they read alike, an absent cell like a NaN one, on every listed column |
| Columns.SelectedHaveUid | lib/columns.py:69 | after the uid filter and the projection every row has a non-empty uid |
| Columns.RearrangedHaveUid | lib/columns.py:69-75 | rendering names and numbers and sorting keep every row's uid |
| CleanLib.RemoveFutureDates | lib/clean_test.py:15-40 | columns and row count are kept |
| CleanLib.DateOwner | lib/clean_test.py:15-40 | a column belongs to the date of at most one prefix |
| CleanLib.BlankFutureSpec | lib/clean_test.py:15-40 | exactly the parts of listed dates that lie after the cutoff become `""`; every other cell is unchanged |
| CleanLib.RemoveFutureDatesTest | lib/clean_test.py:15-40 | the unit test's frame comes out as its expected frame |
| CleanLib.FloatToIntStr | lib/clean_test.py:44-74 | columns and row count are kept |
| CleanLib.FloatToIntStrSpec | lib/clean_test.py:44-74 | in a listed column an integral float becomes a string without `.0` that parses back to the same integer, NaN becomes `""`, integers and strings stay; other columns are unchanged |
| CleanLib.FloatToIntStrIdempotent | lib/clean_test.py:44-74 | a second application changes nothing |
| CleanLib.FloatToIntStrTest | lib/clean_test.py:56-73 | the unit test's frame comes out as its expected frame |
| CleanLib.ClusterOf | lib/clean_test.py:117-130 | the cluster found lists the uid, and none is found exactly when no cluster lists it |
| CleanLib.Canonicalize | lib/clean_test.py:78-168 | columns and row count are kept |
| CleanLib.CanonicalizeSpec | lib/clean_test.py:78-168 | a clustered uid becomes its cluster's first uid; names are kept on the row that already had it and blanked on the others; unclustered rows are unchanged |
| CleanLib.CanonicalRowIdempotent | lib/clean_test.py:78-168 | with disjoint clusters a canonical row is its own canonical form |
| CleanLib.CanonicalizeIdempotent | lib/clean_test.py:78-168 | with disjoint clusters canonicalisation is idempotent |
| CleanLib.TestClusterOf | lib/clean_test.py:117-130 | each uid of the test finds the cluster that lists it |
| CleanLib.CanonicalTestRow | lib/clean_test.py:132-167 | each test row, filled with `""`, comes out as the expected row |
| Matching.BlockInitial | match/kenner_pd.py:19 | the block key is at most one character, a prefix of the name, and empty exactly when the name is missing or empty |
| Matching.Entry | match/kenner_pd.py:19-20 | an index entry keeps the selected columns and carries the initial of each name as its block key |
| Matching.Side | match/kenner_pd.py:20-26 | an index side keeps the set of uids of its table; de-duplicated by uid it has one entry per uid |
| Matching.LastMatch | match/kenner_pd.py:58 | no match exactly when no pair starts with the uid; otherwise the result is paired with it |
| Matching.LastMatchAt | match/kenner_pd.py:58 | the match found is the last pair starting with the uid |
| Matching.Lookup | match/kenner_pd.py:58-60 | a uid no pair starts with is kept; a changed uid is paired with its replacement |
| Matching.LookupLastWins | match/kenner_pd.py:58-60 | on a uid heading several pairs the last pair wins |
| Matching.LookupIsDictGet | match/kenner_pd.py:58-60 | the lookup equals `get` on the dictionary Python builds from the pairs left to right |
| Matching.DictFromFind | match/kenner_pd.py:58 | the dictionary built from the pairs holds the last match of each key |
| Matching.RemapUids | match/kenner_pd.py:60 | every row's uid is replaced by its lookup and no other cell changes |
| Matching.RemapUid | match/kenner_pd.py:60 | the caller's frame becomes its remapped form |
| MatchKennerPd.PostEventsQuery | match/kenner_pd.py:13-38 | with POST's `agency` and both frames' selected columns present, both sides keep the uids of their tables, POST restricted to Kenner PD; compared pairs share the first-name initial; lower bound 0.89 |
| MatchKennerPd.OtherAgenciesIgnored | match/kenner_pd.py:14 | adding POST rows of other agencies leaves the query unchanged |
| MatchKennerPd.UofQuery | match/kenner_pd.py:41-56 | with the four selected columns present in both frames, the intended query: one entry per uid of the use-of-force table and of the roster passed in, blocked on the first-name initial, lower bound 0.98 |
| MatchKennerPd.UofQueryAsWritten | match/kenner_pd.py:41-56 | with the selected columns present in the use-of-force frame and the module-level roster, the right side carries the uids of the module-level roster, whatever roster is passed |
| MatchKennerPd.UofArgumentIgnored | match/kenner_pd.py:41-46 | a roster passed in that differs from the module-level one yields a different query from the intended one |
| MatchKennerPd.MatchUofPprr | match/kenner_pd.py:41-61 | the uids of the use-of-force frame are remapped through the matcher's pairs for the intended query |
| MatchNewOrleansPd.PprrPostQuery | match/new_orleans_pd.py:12-37 | with the selected columns present, one entry per uid on both sides; compared pairs share both initials; lower bound 0.803 |
| MatchNewOrleansPd.AwardQuery | match/new_orleans_pd.py:40-57 | with the selected columns present, whole-row de-duplication keeps every uid; compared pairs share both initials; lower bound 0.93 |
| MatchNewOrleansPd.MatchAwardToPprrIpm | match/new_orleans_pd.py:40-62 | the award frame's uids are remapped through the matcher's pairs |
| MatchNewOrleansPd.LprrQuery | match/new_orleans_pd.py:65-84 | with the selected columns (and `middle_initial`) present, one entry per uid on both sides; compared pairs share both initials; lower bound 0.80; clusters requested |
| MatchNewOrleansPd.MatchLprrToPprrIpm | match/new_orleans_pd.py:65-88 | the LPRR frame's uids are remapped through the matcher's pairs |
| MatchNewOrleansPd.CsdQuery | match/new_orleans_pd.py:91-111 | with the selected columns (and `agency`) present, one entry per uid on both sides; compared pairs share agency and both initials; lower bound 1.0 |
| MatchNewOrleansPd.MatchPprrCsdToPprrIpm | match/new_orleans_pd.py:91-118 | the CSD frame's uids are remapped through the matcher's pairs |
| MatchRaynePd.CprrQuery | match/rayne_pd.py:8-32 | with the selected columns present, the left side has one entry per present uid of the complaints; POST rows de-duplicated whole; compared pairs share the first-name initial; lower bound 1.0 |
| MatchRaynePd.MissingUidStays | match/rayne_pd.py:9-13 | a complaint row without a uid keeps it missing after the remap |
| MatchRaynePd.AssignUidFromPost | match/rayne_pd.py:8-41 | the complaint frame's uids are remapped through the matcher's pairs |
| MatchRaynePd.PostEventsQuery | match/rayne_pd.py:44-68 | with the selected columns present, personnel de-duplicated whole, POST by uid; compared pairs share the first-name initial; lower bound 0.981 |
| MatchTangipahoaDa.CprrQuery | match/tangipahoa_da.py:8-23 | with the selected columns present, one entry per uid on both sides; compared pairs share both initials; lower bound 0.96 |
| MatchTangipahoaDa.MatchCprrWithPost | match/tangipahoa_da.py:8-30 | the complaint frame's uids are remapped through the matcher's pairs |
| MatchPostOfficerHistory.PersonnelQuery | match/post_officer_history.py:11-30 | with the selected columns present, one entry per uid on both sides; compared pairs share agency and first-name initial; lower bound 0.9 |
| MatchPostOfficerHistory.MatchPostToPersonnel | match/post_officer_history.py:11-35 | the POST frame's uids are remapped through the matcher's pairs |
| MatchPostOfficerHistory.Agencies | match/post_officer_history.py:39-40 | the agency column of the rows, one per row |
| MatchPostOfficerHistory.MissingAgencies | match/post_officer_history.py:38-43 | with both `agency` columns present, each non-missing POST agency with no personnel row, once; every such agency is listed |
| MatchPostOfficerHistory.AgencySubsetCheck | match/post_officer_history.py:38-46 | with both `agency` columns present, POST is returned unchanged, and a warning listing the missing agencies is raised exactly when some non-missing POST agency has no personnel |
| CleanPlaqueminesSo.MiddleInitialsGenerated | clean/plaquemines_so_cprr.py:12-17 | for middle names that, once filled, are strings or NaN (all `x[:1]` needs; the initial is read only where the name is NaN), a missing middle name is taken from the middle initial; the initial becomes the first character of the middle name, `''` when there is none; other columns are unchanged |
| CleanPlaqueminesSo.GenMiddleInitial | clean/plaquemines_so_cprr.py:12-17 | the caller's frame becomes the frame above |
| CleanPlaqueminesSo.Pieces | clean/plaquemines_so_cprr.py:39-46 | one row per piece of the column, none holding the separator, every other column copied |
| CleanPlaqueminesSo.ExpandLength | clean/plaquemines_so_cprr.py:39-46 | the split frame has one row per piece over all rows |
| CleanPlaqueminesSo.ExpandSpec | clean/plaquemines_so_cprr.py:39-46 | no output row keeps the separator, and each agrees with an input row outside the split column |
| CleanPlaqueminesSo.Hits | clean/plaquemines_so_cprr.py:39 | the positions found are increasing and each holds the separator |
| CleanPlaqueminesSo.HitsExact | clean/plaquemines_so_cprr.py:39 | a position is found exactly when its row holds the separator |
| CleanPlaqueminesSo.DuplicateRow | clean/plaquemines_so_cprr.py:42 | duplicating a row `n` times adds `n - 1` rows |
| CleanPlaqueminesSo.SplitOneRow | clean/plaquemines_so_cprr.py:40-45 | the row at the position is replaced by its pieces and nothing else changes |
| CleanPlaqueminesSo.SplitRows | clean/plaquemines_so_cprr.py:39-46 | the loop, finding each row at its original position shifted by the rows added so far, yields every row replaced by its pieces in order |
| CleanPlaqueminesSo.SplitRowWithMultipleNames | clean/plaquemines_so_cprr.py:26-47 | one row per `/`-separated officer, in order |
| CleanPlaqueminesSo.WordLengthSpec | clean/plaquemines_so_cprr.py:54 | the first group is a maximal run of word characters |
| CleanPlaqueminesSo.ExtractNameSpec | clean/plaquemines_so_cprr.py:54 | there is a match exactly when the text has a word character; first and second groups are non-empty words and the third a non-empty part of one line |
| CleanPlaqueminesSo.ExtractNameSkips | clean/plaquemines_so_cprr.py:54 | leading non-word characters do not change the match |
| CleanPlaqueminesSo.ExtractThree | clean/plaquemines_so_cprr.py:54 | `a b rest` gives the three groups `a`, `b`, `rest` |
| CleanPlaqueminesSo.ExtractTwo | clean/plaquemines_so_cprr.py:54 | `a b` gives `a`, `b` and no third group |
| CleanPlaqueminesSo.ExtractOne | clean/plaquemines_so_cprr.py:54 | a single word gives only the first group |
| CleanPlaqueminesSo.MiddleNameFrom | clean/plaquemines_so_cprr.py:58-59 | the remainder is kept exactly when it has two characters or more |
| CleanPlaqueminesSo.MiddleInitialFrom | clean/plaquemines_so_cprr.py:60-61 | the remainder is kept exactly when it has one or two characters |
| CleanPlaqueminesSo.MiddleByLength | clean/plaquemines_so_cprr.py:58-61 | a remainder always lands in one of the two columns, and in both exactly when it has two characters |
| CleanPlaqueminesSo.NamesSplitRow | clean/plaquemines_so_cprr.py:51-61 | `against` carries the fixes; the four name columns come from its extracted parts, `ppso` expanded; nothing else changes |
| CleanPlaqueminesSo.CleanAndSplitNames | clean/plaquemines_so_cprr.py:50-62 | the caller's frame gets the name columns; the returned frame is filled and lacks `against` |
| CleanPlaqueminesSo.CleanedNamesRow | clean/plaquemines_so_cprr.py:50-62 | in the returned frame every name column holds a string, `''` for a missing part, and `against` is gone |
| CleanPlaqueminesSo.DanielScottLott | clean/plaquemines_so_cprr.py:51-52 | the first fix gives first `daniel`, last `lott`, middle `scott` |
| CleanPlaqueminesSo.NatalieFitzgerald | clean/plaquemines_so_cprr.py:51-53 | the second fix gives first `natalie`, last `fitzgerald`, middle `d` |
| CleanPlaqueminesSo.FixedMiddles | clean/plaquemines_so_cprr.py:58-61 | `scott` lands in the middle name and `d` in the middle initial |
| CleanPlaqueminesSo.PpsoExpanded | clean/plaquemines_so_cprr.py:55-56 | `ppso` alone becomes the sheriff's office as the first name |
| CleanPlaqueminesSo.DropRowsMissingNames | clean/plaquemines_so_cprr.py:65-66 | with both name columns present, exactly the rows with a first or last name stay, in their order (`Keep`) and each as often as it occurs in the input |
| CleanPlaqueminesSo.CleanReceiveDates | clean/plaquemines_so_cprr.py:69-72 | the caller's frame gets `receive_date`; the returned frame lacks `date` |
| CleanPlaqueminesSo.ReceiveDateSpec | clean/plaquemines_so_cprr.py:70 | the broken date becomes the fixed one, none is left, other values and NaN are unchanged |
| CleanPlaqueminesSo.FixSeparated | clean/plaquemines_so_cprr.py:70 | the fixed date cannot combine with its neighbours into the broken one |
| CleanPlaqueminesSo.ChargesOf | clean/plaquemines_so_cprr.py:76-79 | the charges are always a string |
| CleanPlaqueminesSo.ChargeRulesInTurn | clean/plaquemines_so_cprr.py:76-79 | the three fixes are applied as replace-alls one after the other: `ppdc`, then `info`, then `domestic issue-off duty` |
| CleanPlaqueminesSo.ChargesPlain | clean/plaquemines_so_cprr.py:76-79 | a policy holding none of the three patterns is only lower-cased and stripped; a missing policy becomes `''` |
| CleanPlaqueminesSo.ChargesExpanded | clean/plaquemines_so_cprr.py:76-79 | `ppdc` alone becomes `plaquemines parish detention center` and `info` alone becomes `information` |
| CleanPlaqueminesSo.InformationExpandedTwice | clean/plaquemines_so_cprr.py:78 | a policy already reading `information` becomes `informationrmation`, since the `info` fix is a plain replace-all |
| CleanPlaqueminesSo.CleanAndSplitRowsWithMultipleCharges | clean/plaquemines_so_cprr.py:75-90 | the caller's frame gets `charges`; the result has one row per comma-separated charge, in order |
| CleanNewOrleansDaBrady.SplitPib | clean/new_orleans_da_cprr_2021_brady.py:13 | with a `-`, the parts before and after the first one, which rejoin to the value; without, the value and NaN |
| CleanNewOrleansDaBrady.PibRowSpec | clean/new_orleans_da_cprr_2021_brady.py:13-16 | a control number with a `-` comes back whole as the tracking number, its head as the receive date; one without gets a trailing `-`; a missing one gives `"-"`; nothing else changes |
| CleanNewOrleansDaBrady.PibExtractedSpec | clean/new_orleans_da_cprr_2021_brady.py:12-18 | the returned rows lack the control number and the partial number and otherwise match the row above |
| CleanNewOrleansDaBrady.ExtractDateFromPib | clean/new_orleans_da_cprr_2021_brady.py:12-18 | no result when no value has a `-`, after the first assignment; otherwise the three assignments and the returned frame |
| CleanNewOrleansDaBrady.TrimJoined | clean/new_orleans_da_cprr_2021_brady.py:22-23 | trimming one leading and one trailing `;` touches only the outer ends of rule and paragraph |
| CleanNewOrleansDaBrady.ChargesOf | clean/new_orleans_da_cprr_2021_brady.py:22-23 | the charges join rule and paragraph with `; `, trimmed, and are NaN when either is missing |
| CleanNewOrleansDaBrady.CombineRuleAndParagraph | clean/new_orleans_da_cprr_2021_brady.py:21-25 | the caller's frame gets `charges`; the returned frame lacks rule and paragraph |
| CleanNewOrleansDaBrady.SeparatorsGone | clean/new_orleans_da_cprr_2021_brady.py:52-54 | a rule list that first turns `-` and `/` into ` \| ` and never brings either back leaves neither |
| CleanNewOrleansDaBrady.DispositionSeparatorsGone | clean/new_orleans_da_cprr_2021_brady.py:53-98 | a cleaned disposition holds no `-` and no `/` |
| CleanNewOrleansDaBrady.FindingSeparatorsGone | clean/new_orleans_da_cprr_2021_brady.py:103-126 | a cleaned finding holds no `-` and no `/` |
| CleanNewOrleansDaBrady.CleanDisposition | clean/new_orleans_da_cprr_2021_brady.py:52-99 | the caller's frame gets its dispositions lower-cased, stripped and rewritten by the rules in order |
| CleanNewOrleansDaBrady.CleanFinding | clean/new_orleans_da_cprr_2021_brady.py:102-127 | the caller's frame gets its findings lower-cased, stripped and rewritten by the rules in order |
| CleanNewOrleansDaBrady.HearingSeparated | clean/new_orleans_da_cprr_2021_brady.py:56 | `rui \| awaiting hearing` cannot combine with its neighbours into `rui awaiting hearing` |
| CleanNewOrleansDaBrady.HearingRuleDead | clean/new_orleans_da_cprr_2021_brady.py:56-58 | the rule for `rui awaiting hearing (2 po rui)` changes no disposition |
| CleanNewOrleansDaBrady.AnchoredRuleDead | clean/new_orleans_da_cprr_2021_brady.py:71-72 | for a disposition without `^` the literal `^sustained dismissed$` rule changes nothing |
| CleanNewOrleansDaBrady.DropRowsWithoutLastName | clean/new_orleans_da_cprr_2021_brady.py:209-211 | exactly the rows whose last name is present and not `test` stay, in their order (`Keep`) and each as often as it occurs in the input |
| CleanNewOrleansCsdPprr.Renamed | clean/new_orleans_csd_pprr.py:14-22 | each kept column's cell moves to its new name and no other name is present |
| CleanNewOrleansCsdPprr.MatchSchema | clean/new_orleans_csd_pprr.py:12-23 | a result exactly when every selected column exists after `clean_column_names`; then the new columns in order, cells following their column |
| CleanNewOrleansCsdPprr.Schema2014Renaming | clean/new_orleans_csd_pprr.py:17-22 | the 2014 new names are distinct |
| CleanNewOrleansCsdPprr.Schema2014Shape | clean/new_orleans_csd_pprr.py:14-22 | the 2014 schema's ten columns, in order |
| CleanNewOrleansCsdPprr.Schema2009Renaming | clean/new_orleans_csd_pprr.py:70-74 | the 2009 new names are distinct |
| CleanNewOrleansCsdPprr.Schema2009Shape | clean/new_orleans_csd_pprr.py:68-74 | the 2009 schema's eight columns, in order |
| CleanNewOrleansCsdPprr.StandardizeRank2014 | clean/new_orleans_csd_pprr.py:32-43 | the caller's frame gets each rank description from the rank map |
| CleanNewOrleansCsdPprr.DefaultFilterInert | clean/new_orleans_csd_pprr.py:35-40 | the `DEFAULT` filter compares tidied, lower-case descriptions with an upper-case literal and drops nothing |
| CleanNewOrleansCsdPprr.RankCodesMapped | clean/new_orleans_csd_pprr.py:41-42 | every code of the frame is a key of the rank map, so the lookup never fails |
| CleanNewOrleansCsdPprr.StandardizeRank2014Spec | clean/new_orleans_csd_pprr.py:32-43 | rows with the same code get the same description, the tidied description of some row with that code; nothing else changes |
| CleanNewOrleansCsdPprr.StandardizeRank2009 | clean/new_orleans_csd_pprr.py:84-93 | the caller's frame gets missing codes filled and descriptions tidied |
| CleanNewOrleansCsdPprr.DescMapGreatest | clean/new_orleans_csd_pprr.py:85-87 | the code the description map gives is at least every code seen with that description |
| CleanNewOrleansCsdPprr.FilledCode | clean/new_orleans_csd_pprr.py:88-91 | a missing code takes the greatest code seen with the same description, and stays missing exactly when none was seen |
| CleanNewOrleansCsdPprr.StandardizeRank2009Spec | clean/new_orleans_csd_pprr.py:84-93 | present codes kept; missing codes filled as above, from the untidied description; description tidied; nothing else changes |
| CleanNewOrleansCsdPprr.AssignCols2014 | clean/new_orleans_csd_pprr.py:46-49 | the caller's frame is stamped with 2014 and the agency |
| CleanNewOrleansCsdPprr.AssignCols2009 | clean/new_orleans_csd_pprr.py:96-99 | the caller's frame is stamped with 2009 and the agency |
| CleanIpmNewOrleansIaproPprr.NoLeadingZerosSpec | clean/ipm_new_orleans_iapro_pprr.py:13 | exactly the leading zeros go; the rest does not start with `0`, is empty just for an all-zero badge, and a second pass changes nothing |
| CleanIpmNewOrleansIaproPprr.RemoveBadgeNumberZeroesPrefix | clean/ipm_new_orleans_iapro_pprr.py:12-14 | the caller's frame gets its badges without leading zeros |
| CleanIpmNewOrleansIaproPprr.EmployeeTypeSpec | clean/ipm_new_orleans_iapro_pprr.py:18-19 | no misspelling is left, and a type without it is only lower-cased |
| CleanIpmNewOrleansIaproPprr.CleanEmployeeType | clean/ipm_new_orleans_iapro_pprr.py:17-20 | the caller's frame gets its employee types lower-cased and corrected |
| CleanIpmNewOrleansIaproPprr.StripTimeFound | clean/ipm_new_orleans_iapro_pprr.py:24 | a value ending in ` digits:digits` loses exactly that suffix |
| CleanIpmNewOrleansIaproPprr.StripTimeShape | clean/ipm_new_orleans_iapro_pprr.py:24 | a value is kept or loses a time suffix at its end |
| CleanIpmNewOrleansIaproPprr.StripTimeFromDates | clean/ipm_new_orleans_iapro_pprr.py:22-25 | the caller's frame has each listed column stripped in turn |
| CleanIpmNewOrleansIaproPprr.StripTimesSpec | clean/ipm_new_orleans_iapro_pprr.py:22-25 | with distinct columns, each listed column loses its time once and other columns are untouched |
| CleanIpmNewOrleansIaproPprr.GenerateMiddleInitial | clean/ipm_new_orleans_iapro_pprr.py:28-30 | the caller's frame gets the middle initials |
| CleanIpmNewOrleansIaproPprr.MiddleInitialSpec | clean/ipm_new_orleans_iapro_pprr.py:29 | the initial is the first character of the middle name, `''` exactly for an empty name |
| CleanIpmNewOrleansIaproPprr.AssignAgency | clean/ipm_new_orleans_iapro_pprr.py:33-36 | the caller's frame is stamped with 2018 and New Orleans PD |
| CleanIpmNewOrleansIaproPprr.CleanCurrentSupervisor | clean/ipm_new_orleans_iapro_pprr.py:39-44 | the caller's frame gets stringified employee numbers and supervisors looked up |
| CleanIpmNewOrleansIaproPprr.CurrentSupervisorSpec | clean/ipm_new_orleans_iapro_pprr.py:40-43 | employee numbers become strings and nothing but the two columns changes |
| CleanIpmNewOrleansIaproPprr.SupervisorSpec | clean/ipm_new_orleans_iapro_pprr.py:41-43 | a supervisor number becomes the uid of the last officer with that stringified number, or `''` when there is none |
| CleanIpmNewOrleansIaproPprr.SupervisorKeys | clean/ipm_new_orleans_iapro_pprr.py:40-43 | a rendered float `n` matches the officer numbered `n` as an integer, never one whose number was read as a float |
| CleanIpmNewOrleansIaproPprr.RemoveUnnamedOfficers | clean/ipm_new_orleans_iapro_pprr.py:47-50 | the caller's frame gets its last names rewritten; the result drops the rows left with an empty one |
| CleanIpmNewOrleansIaproPprr.UnnamedTextSpec | clean/ipm_new_orleans_iapro_pprr.py:48 | `none` and a one-line name starting with `unknown` are emptied; a name with none of the patterns is kept |
| CleanIpmNewOrleansIaproPprr.UnnamedRemovedSpec | clean/ipm_new_orleans_iapro_pprr.py:47-50 | the returned rows are exactly the rewritten rows whose last name is not `''`, in their order (`Keep`) and each as often as it occurs |
| CleanMadisonvillePdCprr.NamedColumns | clean/madisonville_pd_cprr.py:36-37 | a result exactly when the frame has six columns; then the six new names and the same rows |
| CleanMadisonvillePdCprr.NamedColumnsSpec | clean/madisonville_pd_cprr.py:36-37 | the k-th column's cells move under the k-th name and no other column is left |
| CleanMadisonvillePdCprr.SwapNames | clean/madisonville_pd_cprr.py:9-14 | the caller's frame has row 0's names exchanged |
| CleanMadisonvillePdCprr.SwapNamesSpec | clean/madisonville_pd_cprr.py:9-14 | only the two names of row 0 change, and they change places |
| CleanMadisonvillePdCprr.SwapTwice | clean/madisonville_pd_cprr.py:9-14 | swapping twice gives back every cell |
| CleanMadisonvillePdCprr.NoMisterSpec | clean/madisonville_pd_cprr.py:21-22 | a name starting with `Mr.` and whitespace loses exactly those; any other name is unchanged |
| CleanMadisonvillePdCprr.MahonStripped | clean/madisonville_pd_cprr.py:21-22 | the one titled complainant keeps the rest of the name |
| CleanMadisonvillePdCprr.ExtractComplainantGender | clean/madisonville_pd_cprr.py:17-23 | the caller's frame gets the sex column and the stripped names |
| CleanMadisonvillePdCprr.ComplainantGenderSpec | clean/madisonville_pd_cprr.py:17-23 | the sex is male exactly for the one named complainant and female otherwise; the name loses its title; nothing else changes |
| CleanMadisonvillePdCprr.AssignAgency | clean/madisonville_pd_cprr.py:26-29 | the caller's frame is stamped with 2020 and Madisonville PD |
| Rosters.ExtractRoster | clean/uno_university_pd.py:7-8 | with an `agency` column, columns kept, no rows added |
| Rosters.ExtractRosterSpec | clean/uno_university_pd.py:7-8 | with an `agency` column, exactly the rows with the agency stay, in order |
| Rosters.CleanAgency | clean/uno_university_pd.py:11-15 | the caller's frame gets the agency rewritten |
| Rosters.CleanAgencySpec | clean/uno_university_pd.py:12-14 | only the agency changes, only where it holds the pattern; an agency equal to the pattern becomes the name |
| Rosters.RosterSpec | clean/uno_university_pd.py:18-23 | one row per roster row of the agency, each with the rewritten agency and every other cell of its roster row |
| Rosters.ReplacedPrefix | clean/louisiana_state_university_hsc_no.py:13-14 | a pattern at the start of the agency with a shorter tail is replaced once, the tail kept |
| CleanUnoUniversityPd.CleanSpec | clean/uno_university_pd.py:18-23 | one row per roster row of the agency, each naming it in full |
| CleanNunezCommunityCollegePd.CleanSpec | clean/nunez_community_college_pd.py:17-22 | one row per roster row of the agency, each naming it in full |
| CleanSouthernUniversityPdPprr.CleanSpec | clean/southern_university_pd_pprr.py:17-22 | one row per roster row of the agency, each naming it in full |
| CleanUniversityOfSouthwesternLouisianaPdPprr.CleanSpec | clean/university_of_southwestern_louisiana_pd_pprr.py:18-23 | one row per roster row of the agency, each naming it in full |
| CleanLouisianaStateUniversityHscNo.CleanSpec | clean/louisiana_state_university_hsc_no.py:7-23 | as written: one row per roster row of the agency, each agency the new name followed by the leftover `hsc - no` |
| CleanLouisianaStateUniversityHscNo.CleanedAgency | clean/louisiana_state_university_hsc_no.py:13-14 | the written result spelled out |
| CleanLouisianaStateUniversityHscNo.CleanIntendedSpec | clean/louisiana_state_university_hsc_no.py:9-14 | with the whole filtered value rewritten, every agency is the name alone, on the same rows |
| Ordering.Sort | lib/columns.py:75 | the rows are a permutation sorted by the keys, columns kept |
| Ordering.RowLeTotal | lib/columns.py:75 | any two rows are comparable by the sort keys |
| Ordering.RowLeTrans | lib/columns.py:75 | the row order is transitive |
| Tables.DedupByUnique | match/kenner_pd.py:20 | after `drop_duplicates(subset=[c])` no two rows share a value of `c` |
| Tables.DedupByFirst | match/kenner_pd.py:20 | every row kept is the first of its value |
| Tables.StampedSpec | clean/madisonville_pd_cprr.py:26-29 | every row carries the year and the agency, and nothing else changes |

## Left out

- The record matcher (`datamatch`), its scorers and scores: the matcher is a parameter from the query to the pairs it returns; only the query and the use of the pairs are modelled.
- `extract_events_from_post`, `gen_uid`, `combine_date_columns`, title-casing and the canonical column lists come from modules that are not part of this model; they are parameters or not modelled.
- The hire-date columns `combine_date_columns` reads in the Kenner and New Orleans matching scripts are not required, since that helper is a parameter here; the matching members require only the columns the scripts select themselves (`Matching.HasColumns`).
- `save_pairs_to_excel`, reading and writing CSV files, `ensure_data_dir` and every other file operation: I/O.
- LSU `extract_roster` reads the statewide roster from a file; that roster is a parameter of `CleanLouisianaStateUniversityHscNo.Clean`.
- `warnings.warn` in `post_agency_is_per_agency_subset`: the warning is the `Option` value the function returns.
- Character classes `\w` and `\s`, `str.lower` and `str.strip` are modelled on ASCII only; no Unicode case folding.
- A regular-expression `$` is modelled as the end of the string; Python also matches it before a final newline. This affects `StripTime` and the `^none$` rule of `UnnamedText`.
- `sort_values` is modelled as a stable sort by a total order on cells (numbers before strings, NaN last); pandas' default sort is not stable, so equal keys may come out in another order.
- Index labels are positions: `swap_names`' `df.loc[0]` is row 0, and `reset_index` is not modelled apart from that.
- Duplicate column names cannot be represented; a frame's columns are a sequence and each row a map.
- Columns.CleanColumnNamesSpec: when two kept names clean to the same name, pandas keeps two columns of that name; the model keeps one, holding the later column's cells.
- Ordering.Sort: a sort column mixing strings and numbers makes `sort_values` raise TypeError; the model orders numbers before strings instead.
- Columns.Rearrangeable: whether `float_to_int_str` and `names_to_title_case` accept a listed column the frame lacks is decided in `lib/clean`, which is not part of this model; the model skips such a column.
- NaN is an ordinary dictionary key in the CSD rank maps and in the uid lookup, where pandas may treat NaN keys differently.
- Salary parsing (`parse_salary_2014`, `parse_salary_2009`): floating point.
- `clean_charges` and `clean_allegation_class` of the Brady script, `extract_actions` and the normalisation at lines 27-37 of `split_row_with_multiple_names` in the Plaquemines script: regular expressions beyond the literal replacements modelled here.
- `assign_agency` of the Plaquemines script and the `clean()` pipelines of the larger scripts are not modelled as functions; each step they call is.
- `clean_names`, `clean_dates`, `standardize_desc_cols` and the other `lib/clean` helpers without unit tests are not part of this model.
- The scripts under `fuse/`, `scripts/`, `ocr/` and `lib/explore.py` are not part of this model.
- `lib.rows.duplicate_row` is not part of this model; `CleanPlaqueminesSo.DuplicateRow` assumes it inserts `n` consecutive copies in place of the row.
- CleanIpmNewOrleansIaproPprr.GenerateMiddleInitial requires every middle name to be a string, since `x[:1]` fails on NaN.
- CleanIpmNewOrleansIaproPprr.StripTimesSpec requires the listed columns to be distinct; a repeated column would be stripped twice.
- CleanIpmNewOrleansIaproPprr.SupervisorKeys: `astype(str)` of an integral float is modelled as `n.0`; other float renderings are not.
- MatchTangipahoaDa.CprrQuery requires every first name to be a string, since the script takes `x[:1]` without `fillna` and fails on NaN.

## Findings

| source | as written | input that shows it | evidently intended | confidence | as-written member | corrected member |
|---|---|---|---|---|---|---|
| match/kenner_pd.py:41-46 | `match_uof_pprr(uof, ppprr)` reads the module-level `pprr`, never its parameter `ppprr` | a use-of-force table and a roster argument with one officer while the module-level roster is empty | the roster passed in is the right side of the match | high (not executed) | MatchKennerPd.UofArgumentIgnored | MatchKennerPd.UofQuery |
| clean/louisiana_state_university_hsc_no.py:9-14 | the roster is filtered on `univ. pd - lsuhsc - no` but the rewrite replaces only `univ. pd - lsu`, leaving `hsc - no` glued to the new name | any row of the statewide roster with agency `univ. pd - lsuhsc - no` | the agency becomes `louisiana state university hsc no police department` | medium (not executed) | CleanLouisianaStateUniversityHscNo.CleanedAgency | CleanLouisianaStateUniversityHscNo.CleanIntendedSpec |

=== FILE: clean_brady.dfy ===
/** `clean/new_orleans_da_cprr_2021_brady.py`: the New Orleans DA Brady list.
    The tracking number is split out of the PIB control number, the rule
    and paragraph are joined into the charges, and dispositions and findings
    go through ordered lists of literal replacements. */
module CleanNewOrleansDaBrady {
  import opened Text
  import opened Tables

  // ---------------------------------------------------------------------
  // extract_date_from_pib

  const Pib := "pib control#"

  /** `str.split("-", 1)` of one cell, as the two columns `expand=True`
      gives: the text before the first `-` and the text after it, which is
      NaN when there is no `-`; a non-string cell gives NaN in both. */
  function SplitPib(c: Cell): (r: (Cell, Cell))
    ensures c.Str? && '-' in c.s ==>
      r.0.Str? && r.1.Str? && r.0.s + "-" + r.1.s == c.s && '-' !in r.0.s
    ensures c.Str? && '-' !in c.s ==> r == (c, Missing)
    ensures !c.Str? ==> r == (Missing, Missing)
  {
    if c.Str? && '-' in c.s then
      var i := IndexOf(c.s, '-');
      assert c.s == c.s[..i] + "-" + c.s[i + 1..];
      (Str(c.s[..i]), Str(c.s[i + 1..]))
    else if c.Str? then (c, Missing)
    else (Missing, Missing)
  }

  /** `a.str.cat(b, sep=sep)`: NaN when either side is NaN. */
  function Cat(a: Cell, b: Cell, sep: string): Cell {
    if a.Str? && b.Str? then Str(a.s + sep + b.s) else Missing
  }

  function ReceiveDate(x: Row): Cell {
    FillNa(SplitPib(Get(x, Pib)).0, Str(""))
  }

  function PartialNumber(x: Row): Cell {
    FillNa(SplitPib(Get(x, Pib)).1, Str(""))
  }

  function TrackingNumber(x: Row): Cell {
    Cat(Get(x, "receive_date"), Get(x, "partial_tracking_number"), "-")
  }

  /** The expanded split has a second column only when some value has a
      `-`; otherwise `tracking.loc[:, 1]` fails. */
  predicate HasDash(t: Table) {
    exists x | x in t.rows :: SplitPib(Get(x, Pib)).1.Str?
  }

  /** The frame after the three column assignments. */
  function PibColumns(t: Table): Table {
    WithColumn(WithColumn(WithColumn(t, "receive_date", ReceiveDate),
                          "partial_tracking_number", PartialNumber),
               "tracking_number", TrackingNumber)
  }

  /** What `extract_date_from_pib` returns; `None` for the failing lookup. */
  function PibExtracted(t: Table): Option<Table> {
    if HasDash(t) then Some(DropColumns(PibColumns(t), {Pib, "partial_tracking_number"})) else None
  }

  /** One row after the three assignments. */
  function PibRow(x: Row): Row {
    var a := x["receive_date" := ReceiveDate(x)];
    var b := a["partial_tracking_number" := PartialNumber(a)];
    b["tracking_number" := TrackingNumber(b)]
  }

  /** A control number with a `-` comes back whole as the tracking number
      and its part before the first `-` is the receive date; one without a
      `-` gets a trailing `-`; a missing one gives `"-"`. No other column
      changes. */
  lemma PibRowSpec(x: Row)
    ensures var c, y := Get(x, Pib), PibRow(x);
      && (c.Str? && '-' in c.s ==>
            Get(y, "tracking_number") == c
            && Get(y, "receive_date") == Str(c.s[..IndexOf(c.s, '-')]))
      && (c.Str? && '-' !in c.s ==>
            Get(y, "tracking_number") == Str(c.s + "-") && Get(y, "receive_date") == c)
      && (!c.Str? ==> Get(y, "tracking_number") == Str("-") && Get(y, "receive_date") == Str(""))
      && forall col | col !in {"partial_tracking_number", "receive_date", "tracking_number"} ::
           Get(y, col) == Get(x, col)
  {
    var c := Get(x, Pib);
    var a := x["receive_date" := ReceiveDate(x)];
    assert PartialNumber(a) == PartialNumber(x);
    if c.Str? && '-' in c.s {
      var k := IndexOf(c.s, '-');
      assert c.s == c.s[..k] + "-" + c.s[k + 1..];
    }
  }

  lemma PibColumnsRows(t: Table, i: nat)
    requires i < |t.rows|
    ensures |PibColumns(t).rows| == |t.rows| && PibColumns(t).rows[i] == PibRow(t.rows[i])
  {
  }

  /** Row by row, what `extract_date_from_pib` returns: the row of
      `PibRowSpec` without the control number and the partial number. */
  lemma PibExtractedSpec(t: Table, i: nat)
    requires HasDash(t) && i < |t.rows|
    ensures |PibExtracted(t).value.rows| == |t.rows|
    ensures var x := PibExtracted(t).value.rows[i];
      && Get(x, Pib) == Missing && Get(x, "partial_tracking_number") == Missing
      && forall col | col !in {Pib, "partial_tracking_number"} :: Get(x, col) == Get(PibRow(t.rows[i]), col)
  {
    PibColumnsRows(t, i);
    DroppedRow(PibColumns(t), {Pib, "partial_tracking_number"}, i, PibRow(t.rows[i]));
  }

  /** `extract_date_from_pib(df)`: the three assignments go to the caller's
      frame; the lookup of the second split column fails after the first. */
  method ExtractDateFromPib(df: Frame) returns (r: Option<Table>)
    requires Pib in df.columns
    modifies df
    ensures r == PibExtracted(old(df.Value()))
    ensures df.Value() == if r.Some? then PibColumns(old(df.Value()))
                          else WithColumn(old(df.Value()), "receive_date", ReceiveDate)
  {
    var dash := HasDash(df.Value());
    df.SetColumn("receive_date", ReceiveDate);
    if !dash {
      return None;
    }
    df.SetColumn("partial_tracking_number", PartialNumber);
    df.SetColumn("tracking_number", TrackingNumber);
    r := Some(DropColumns(df.Value(), {Pib, "partial_tracking_number"}));
  }

  // ---------------------------------------------------------------------
  // combine_rule_and_paragraph

  /** `.str.replace(r'^;', '')` */
  function DropLeadingSemicolon(s: string): string {
    if |s| > 0 && s[0] == ';' then s[1..] else s
  }

  /** `.str.replace(r';$', '')` */
  function DropTrailingSemicolon(s: string): string {
    if |s| > 0 && s[|s| - 1] == ';' then s[..|s| - 1] else s
  }

  /** Trimming the joined text only touches the outer ends of the two
      fields; an empty rule loses the separator's `;` instead. */
  lemma TrimJoined(a: string, b: string)
    ensures DropTrailingSemicolon(DropLeadingSemicolon(a + "; " + b))
         == (if a == "" then " " else DropLeadingSemicolon(a) + "; ") + DropTrailingSemicolon(b)
  {
    var head := if a == "" then " " else DropLeadingSemicolon(a) + "; ";
    var s := a + "; " + b;
    if a == "" {
      assert s == "; " + b;
      assert s[1..] == " " + b;
    } else {
      assert s[0] == a[0];
      if a[0] == ';' {
        assert s[1..] == a[1..] + "; " + b;
      }
    }
    assert DropLeadingSemicolon(s) == head + b;
    assert head[|head| - 1] == ' ';
    if b == "" {
      assert head + b == head;
    } else {
      assert (head + b)[|head + b| - 1] == b[|b| - 1];
      if b[|b| - 1] == ';' {
        assert (head + b)[..|head + b| - 1] == head + b[..|b| - 1];
      }
    }
  }

  /** The charges of a row: rule and paragraph joined by `"; "`, with one
      leading and one trailing `;` removed; NaN when either is missing. */
  function ChargesOf(x: Row): (c: Cell)
    ensures var a, b := Get(x, "allegation classification"), Get(x, "allegation");
      && (a.Str? && b.Str? ==>
            c == Str((if a.s == "" then " " else DropLeadingSemicolon(a.s) + "; ") + DropTrailingSemicolon(b.s)))
      && (!a.Str? || !b.Str? ==> c.Missing?)
  {
    var a, b := Get(x, "allegation classification"), Get(x, "allegation");
    if a.Str? && b.Str? then
      TrimJoined(a.s, b.s);
      Str(DropTrailingSemicolon(DropLeadingSemicolon(a.s + "; " + b.s)))
    else Missing
  }

  /** `combine_rule_and_paragraph(df)`: `charges` is written to the caller's
      frame, and the returned frame lacks the two source columns. */
  method CombineRuleAndParagraph(df: Frame) returns (r: Table)
    requires "allegation classification" in df.columns && "allegation" in df.columns
    modifies df
    ensures df.Value() == WithColumn(old(df.Value()), "charges", ChargesOf)
    ensures r == DropColumns(df.Value(), {"allegation classification", "allegation"})
  {
    df.SetColumn("charges", ChargesOf);
    r := DropColumns(df.Value(), {"allegation classification", "allegation"});
  }

  // ---------------------------------------------------------------------
  // clean_disposition and clean_finding

  const HearingPattern := "rui awaiting hearing"
  const HearingReplacement := "rui | awaiting hearing"

  /** The literal replacements of `clean_disposition`, in order: five
      opening ones, five about sustained complaints, the one written as an
      anchored pattern, and the closing ones. */
  const DispositionRules: seq<(string, string)> :=
    OpeningRules + SustainedRules + [AnchoredRule] + ClosingRules

  const OpeningRules: seq<(string, string)> := [
    ("-", " | "),
    ("/", " | "),
    (HearingPattern, HearingReplacement),
    ("rui awaiting hearing (2 po rui)", "rui | awaiting hearing (2 po rui)"),
    ("rui resigned under investigation", "rui | resigned under investigation")
  ]

  const SustainedRules: seq<(string, string)> := [
    ("sustained |  dismissed", "sustained | dismissed"),
    ("sustained | dismissa", "sustained | dismissed"),
    ("sustained | dismissal", "sustained | dismissed"),
    ("sustained awaiting panel hearing", "sustained | awaiting panel hearing"),
    ("sustained dismissal overturned by 4th circuit", "sustained | dismissed | " + OverturnedBy)
  ]

  const OverturnedBy := "overturned by 4th circuit"

  const AnotherInvestigation := "under another investigation"

  const AnchoredRule := ("^sustained dismissed$", "sustained | dismissed")

  // The longer replacement texts of the closing and finding rules.
  const DismissedUnderAnother := "sustained | dismissed " + AnotherInvestigation
  const PendingApproval := "sustained | pending superintendent approval"
  const PendingSuspension := "sustained | pending suspension served"
  const DismissedOnePo := "sustained | dismissed (1 po dismissed)"
  const RuiResigned := "rui | resigned under investigation"
  const SustainedResigned := "sustained | resigned under investigation"
  const SustainedRetired := "sustained | retired under investigation"
  const ResignedRetired := "sustained | resigned | retired (2 po rui)"

  const ClosingRules: seq<(string, string)> := PendingRules + DismissedRules + ResignedRules

  const PendingRules: seq<(string, string)> := [
    ("sustained dismissed under another investigation", DismissedUnderAnother),
    ("sustained pending superintendent approval", PendingApproval),
    ("sustained pending suspension served", PendingSuspension),
    ("sustained | dismissedl", "sustained | dismissed"),
    ("sustained | dismissedl (1 po dismissed)", DismissedOnePo)
  ]

  const DismissedRules: seq<(string, string)> := [
    ("sustained dismissed", "sustained | dismissed"),
    ("sustalned", "sustained"),
    ("sustalned | dismissal", "sustained | dismissed"),
    ("rui  | resigned under investigation", RuiResigned),
    ("sustained | dismissal", "sustained | dismissed")
  ]

  const ResignedRules: seq<(string, string)> := [
    ("sustained rui | resigned under investigation", SustainedResigned),
    ("sustained rui | retired under investigation", SustainedRetired),
    ("rui | resigned under investigation", "resigned under investigation"),
    ("sustained resign | retired (2 po rui)", ResignedRetired)
  ]

  /** The literal replacements of `clean_finding`, in order. */
  const FindingRules: seq<(string, string)> := FindingOpeningRules + FindingResignRules + FindingRetireRules

  const FindingOpeningRules: seq<(string, string)> := [
    ("-", " | "),
    ("/", " | "),
    ("rui | resigned under inves", "resigned under investigation"),
    ("sustained  | dismissed", "sustained | dismissed"),
    ("sustained | rui | resign", SustainedResigned)
  ]

  const FindingResignRules: seq<(string, string)> := [
    ("sustained | rui | retire", SustainedRetired),
    ("sustained | rui resign", SustainedResigned),
    ("sustained dismissed", "sustained | dismissed"),
    ("sustained rui resign", SustainedResigned),
    ("ustained | rui | resign'", SustainedResigned)
  ]

  const FindingRetireRules: seq<(string, string)> := [
    ("sustained rui", "sustained | rui"),
    ("sustained rui retire", SustainedRetired),
    ("sustained | rui retire", SustainedRetired),
    ("sustained | rui retire", SustainedRetired),
    ("sustained |  rui", "sustained | rui")
  ]

  /** No replacement text brings back a `-` or a `/`. */
  predicate CleanReplacements(rules: seq<(string, string)>) {
    forall k | 0 <= k < |rules| :: Plain(rules[k].1)
  }

  predicate Plain(s: string) { '-' !in s && '/' !in s }


  /** A rule list that starts by turning `-` and `/` into `" | "` and never
      brings either back leaves neither. */
  lemma SeparatorsGone(s: string, rules: seq<(string, string)>)
    requires |rules| >= 2 && rules[0] == ("-", " | ") && rules[1] == ("/", " | ")
    requires CleanReplacements(rules)
    ensures '-' !in ApplyRules(s, rules) && '/' !in ApplyRules(s, rules)
  {
    var y := ReplaceAll(s, "-", " | ");
    var z := ReplaceAll(y, "/", " | ");
    ReplaceAllRemovesChar(s, '-', " | ");
    ReplaceAllKeepsOut(y, "/", " | ", '-');
    ReplaceAllRemovesChar(y, '/', " | ");
    assert ApplyRules(s, rules) == ApplyRules(z, rules[2..]) by {
      assert rules[1..][1..] == rules[2..];
    }
    ApplyRulesKeepsOut(z, rules[2..], '-');
    ApplyRulesKeepsOut(z, rules[2..], '/');
  }

  lemma CleanReplacementsJoin(a: seq<(string, string)>, b: seq<(string, string)>)
    requires CleanReplacements(a) && CleanReplacements(b)
    ensures CleanReplacements(a + b)
  {
    forall k | 0 <= k < |a + b| ensures '-' !in (a + b)[k].1 && '/' !in (a + b)[k].1 {
      if k >= |a| { assert (a + b)[k] == b[k - |a|]; }
    }
  }

  lemma DismissedUnderAnotherPlain()
    ensures Plain(DismissedUnderAnother)
  {
  }

  lemma PendingApprovalPlain()
    ensures Plain(PendingApproval)
  {
  }

  lemma PendingSuspensionPlain()
    ensures Plain(PendingSuspension)
  {
  }

  lemma DismissedOnePoPlain()
    ensures Plain(DismissedOnePo)
  {
  }

  lemma RuiResignedPlain()
    ensures Plain(RuiResigned)
  {
  }

  lemma SustainedResignedPlain()
    ensures Plain(SustainedResigned)
  {
  }

  lemma SustainedRetiredPlain()
    ensures Plain(SustainedRetired)
  {
  }

  lemma ResignedRetiredPlain()
    ensures Plain(ResignedRetired)
  {
  }

  lemma OpeningRulesClean()
    ensures CleanReplacements(OpeningRules)
  {
  }

  lemma SustainedRulesClean()
    ensures CleanReplacements(SustainedRules)
  {
  }

  lemma PendingRulesClean()
    ensures CleanReplacements(PendingRules)
  {
    DismissedUnderAnotherPlain();
    PendingApprovalPlain();
    PendingSuspensionPlain();
    DismissedOnePoPlain();
  }

  lemma DismissedRulesClean()
    ensures CleanReplacements(DismissedRules)
  {
    RuiResignedPlain();
  }

  lemma ResignedRulesClean()
    ensures CleanReplacements(ResignedRules)
  {
    SustainedResignedPlain();
    SustainedRetiredPlain();
    ResignedRetiredPlain();
  }

  lemma FindingOpeningRulesClean()
    ensures CleanReplacements(FindingOpeningRules)
  {
    SustainedResignedPlain();
  }

  lemma FindingResignRulesClean()
    ensures CleanReplacements(FindingResignRules)
  {
    SustainedResignedPlain();
    SustainedRetiredPlain();
  }

  lemma FindingRetireRulesClean()
    ensures CleanReplacements(FindingRetireRules)
  {
    SustainedRetiredPlain();
  }

  lemma ClosingRulesClean()
    ensures CleanReplacements(ClosingRules)
  {
    PendingRulesClean();
    DismissedRulesClean();
    ResignedRulesClean();
    CleanReplacementsJoin(PendingRules, DismissedRules);
    CleanReplacementsJoin(PendingRules + DismissedRules, ResignedRules);
  }

  lemma DispositionReplacementsClean()
    ensures CleanReplacements(DispositionRules)
  {
    OpeningRulesClean();
    SustainedRulesClean();
    ClosingRulesClean();
    assert CleanReplacements([AnchoredRule]);
    CleanReplacementsJoin(OpeningRules, SustainedRules);
    CleanReplacementsJoin(OpeningRules + SustainedRules, [AnchoredRule]);
    CleanReplacementsJoin(OpeningRules + SustainedRules + [AnchoredRule], ClosingRules);
  }

  lemma FindingReplacementsClean()
    ensures CleanReplacements(FindingRules)
  {
    FindingOpeningRulesClean();
    FindingResignRulesClean();
    FindingRetireRulesClean();
    CleanReplacementsJoin(FindingOpeningRules, FindingResignRules);
    CleanReplacementsJoin(FindingOpeningRules + FindingResignRules, FindingRetireRules);
  }

  /** `disposition.str.lower().str.strip()` and the replacements. */
  function DispositionText(s: string): string {
    ApplyRules(Strip(Lower(s)), DispositionRules)
  }

  /** The same for `finding`. */
  function FindingText(s: string): string {
    ApplyRules(Strip(Lower(s)), FindingRules)
  }

  /** A cleaned disposition holds no `-` and no `/`. */
  lemma DispositionSeparatorsGone(s: string)
    ensures '-' !in DispositionText(s) && '/' !in DispositionText(s)
  {
    DispositionReplacementsClean();
    SeparatorsGone(Strip(Lower(s)), DispositionRules);
  }

  /** A cleaned finding holds no `-` and no `/`. */
  lemma FindingSeparatorsGone(s: string)
    ensures '-' !in FindingText(s) && '/' !in FindingText(s)
  {
    FindingReplacementsClean();
    SeparatorsGone(Strip(Lower(s)), FindingRules);
  }

  function DispositionOf(x: Row): Cell {
    OnStr(Get(x, "disposition"), DispositionText)
  }

  function FindingOf(x: Row): Cell {
    OnStr(Get(x, "finding"), FindingText)
  }

  /** `clean_disposition(df)` */
  method CleanDisposition(df: Frame)
    requires "disposition" in df.columns
    modifies df
    ensures df.Value() == WithColumn(old(df.Value()), "disposition", DispositionOf)
  {
    df.SetColumn("disposition", DispositionOf);
  }

  /** `clean_finding(df)` */
  method CleanFinding(df: Frame)
    requires "finding" in df.columns
    modifies df
    ensures df.Value() == WithColumn(old(df.Value()), "finding", FindingOf)
  {
    df.SetColumn("finding", FindingOf);
  }

  // The rule after "rui awaiting hearing" can never fire: its pattern
  // starts with that text, and no occurrence of it survives the rule
  // before, whose replacement cannot form a new one.

  lemma HearingFacts()
    ensures '|' !in HearingPattern && HearingReplacement[4] == '|'
    ensures |HearingPattern| == 20 && |HearingReplacement| == 22
  {
  }

  lemma HearingNotInside(i: nat)
    requires i <= 2
    ensures !StartsWith(HearingReplacement[i..], HearingPattern)
  {
    HearingFacts();
    assert HearingReplacement[i..][4 - i] == '|';
  }

  lemma HearingNoTail(k: nat)
    requires 0 < k < 20
    ensures !EndsWith(HearingReplacement, HearingPattern[..k])
  {
    HearingFacts();
    if k >= 18 {
      assert HearingReplacement[22 - k..][k - 18] == '|';
    } else if k == 4 {
      assert HearingReplacement[18..][1] != HearingPattern[1];
    } else {
      assert HearingReplacement[22 - k..][0] != HearingPattern[0];
    }
  }

  lemma HearingNoHead(j: nat)
    requires 0 < j < 20
    ensures !StartsWith(HearingReplacement, HearingPattern[j..])
    ensures !StartsWith(HearingPattern[j..], HearingReplacement)
  {
    HearingFacts();
    if j == 16 {
      assert HearingPattern[j..][1] != HearingReplacement[1];
    } else {
      assert HearingPattern[j..][0] != HearingReplacement[0];
    }
  }

  lemma HearingSeparated()
    ensures Separated(HearingPattern, HearingReplacement)
  {
    HearingFacts();
    forall i | 0 <= i <= |HearingReplacement| ensures !StartsWith(HearingReplacement[i..], HearingPattern) {
      if i <= 2 { HearingNotInside(i); }
    }
    forall k | 0 < k < |HearingPattern| && k <= |HearingReplacement|
      ensures !EndsWith(HearingReplacement, HearingPattern[..k])
    {
      HearingNoTail(k);
    }
    forall j | 0 < j < |HearingPattern|
      ensures !StartsWith(HearingReplacement, HearingPattern[j..]) && !StartsWith(HearingPattern[j..], HearingReplacement)
    {
      HearingNoHead(j);
    }
  }

  /** The rule at position 3 (`"rui awaiting hearing (2 po rui)"`) changes
      nothing for any input. */
  lemma HearingRuleDead(s: string)
    ensures ApplyRules(s, DispositionRules) == ApplyRules(s, DispositionRules[..3] + DispositionRules[4..])
  {
    var rules := DispositionRules;
    var u := ApplyRules(s, rules[..2]);
    assert rules[..3] == rules[..2] + [rules[2]];
    ApplyRulesAppend(s, rules[..2], [rules[2]]);
    var t := ReplaceAll(u, HearingPattern, HearingReplacement);
    assert ApplyRules(s, rules[..3]) == t;
    HearingSeparated();
    ReplaceAllClears(u, HearingPattern, HearingReplacement);
    assert StartsWith(rules[3].0, HearingPattern);
    ExtensionAbsent(t, rules[3].0, HearingPattern);
    DeadRule(s, rules, 3);
  }

  /** None of the replacements before the anchored rule has a `^`. */
  lemma CaretFree()
    ensures forall k | 0 <= k < |OpeningRules + SustainedRules| :: '^' !in (OpeningRules + SustainedRules)[k].1
  {
    CaretFreeOpening();
    CaretFreeSustained();
    var early := OpeningRules + SustainedRules;
    forall k | 0 <= k < |early| ensures '^' !in early[k].1 {
      if k < 5 {
        assert early[k] == OpeningRules[k];
      } else {
        assert early[k] == SustainedRules[k - 5];
      }
    }
  }

  lemma CaretFreeOpening()
    ensures forall k | 0 <= k < |OpeningRules| :: '^' !in OpeningRules[k].1
  {
    forall k | 0 <= k < |OpeningRules| ensures '^' !in OpeningRules[k].1 {
      assert k == 0 || k == 1 || k == 2 || k == 3 || k == 4;
    }
  }

  lemma CaretFreeSustained()
    ensures forall k | 0 <= k < |SustainedRules| :: '^' !in SustainedRules[k].1
  {
    CaretFreeOverturned();
    forall k | 0 <= k < 4 ensures '^' !in SustainedRules[k].1 {
      assert k == 0 || k == 1 || k == 2 || k == 3;
    }
  }

  lemma CaretFreeOverturned()
    ensures '^' !in SustainedRules[4].1
  {
    assert '^' !in "sustained | dismissed | " && '^' !in OverturnedBy;
  }

  /** The rule at position 10 is literal, so `^` and `$` are ordinary
      characters: for a disposition without `^` it changes nothing. */
  lemma AnchoredRuleDead(s: string)
    requires '^' !in s
    ensures DispositionText(s) == ApplyRules(Strip(Lower(s)), DispositionRules[..10] + DispositionRules[11..])
  {
    var x := Strip(Lower(s));
    var rules := DispositionRules;
    LowerKeepsOut(s, '^');
    StripKeepsOut(Lower(s), '^');
    CaretFree();
    assert rules[..10] == OpeningRules + SustainedRules;
    ApplyRulesKeepsOut(x, rules[..10], '^');
    assert rules[10] == AnchoredRule && AnchoredRule.0[0] == '^';
    CharNotContains(ApplyRules(x, rules[..10]), rules[10].0, 0);
    DeadRule(x, rules, 10);
  }

  // ---------------------------------------------------------------------
  // drop_rows_without_last_name

  predicate NotTest(x: Row) { Get(x, "last_name") != Str("test") }

  predicate HasLastName(x: Row) { Get(x, "last_name") != Missing }

  /** `df[df.last_name != 'test'].dropna(subset=['last_name'])`: exactly the
      rows whose last name is present and not `test`, in order and each as
      often as it occurs. */
  function DropRowsWithoutLastName(t: Table): (r: Table)
    requires "last_name" in t.columns
    ensures r.columns == t.columns && |r.rows| <= |t.rows|
    ensures r.rows == Keep(Keep(t.rows, NotTest), HasLastName)
    ensures forall x | x in r.rows :: x in t.rows && NotTest(x) && HasLastName(x)
    ensures forall x | x in t.rows && NotTest(x) && HasLastName(x) :: x in r.rows
    ensures forall x :: multiset(r.rows)[x] == if NotTest(x) && HasLastName(x) then multiset(t.rows)[x] else 0
  {
    var kept := Keep(t.rows, NotTest);
    forall x | x in t.rows && NotTest(x) && HasLastName(x) ensures x in Keep(kept, HasLastName) {
      KeepHas(t.rows, NotTest, x);
      KeepHas(kept, HasLastName, x);
    }
    forall x ensures multiset(Keep(kept, HasLastName))[x] == if NotTest(x) && HasLastName(x) then multiset(t.rows)[x] else 0 {
      KeepCount(t.rows, NotTest, x);
      KeepCount(kept, HasLastName, x);
    }
    Table(t.columns, Keep(kept, HasLastName))
  }
}

=== FILE: clean_ipm_new_orleans.dfy ===
/** `clean/ipm_new_orleans_iapro_pprr.py`: the New Orleans PD personnel
    roster kept by the Independent Police Monitor. The helpers rewrite one
    or two columns of the frame in place; `remove_unnamed_officers` also
    returns a filtered copy. */
module CleanIpmNewOrleansIaproPprr {
  import opened Text
  import opened Tables
  import opened Matching
  import CleanLib

  // ---------------------------------------------------------------------
  // remove_badge_number_zeroes_prefix

  /** `re.sub(r'^0+', '', s)` */
  function NoLeadingZeros(s: string): string {
    LStrip(s, {'0'})
  }

  /** Exactly the leading zeros go: the result is the rest of the badge,
      does not start with `0`, is empty just when the badge is all zeros,
      and a second pass changes nothing. */
  lemma NoLeadingZerosSpec(s: string)
    ensures var r := NoLeadingZeros(s);
      && (exists k | 0 <= k <= |s| :: r == s[k..] && forall j | 0 <= j < k :: s[j] == '0')
      && (r != "" ==> r[0] != '0')
      && (r == "" <==> forall j | 0 <= j < |s| :: s[j] == '0')
      && NoLeadingZeros(r) == r
  {
    var r := NoLeadingZeros(s);
    LStripShape(s, {'0'});
    var k :| 0 <= k <= |s| && r == s[k..] && forall j | 0 <= j < k :: s[j] in {'0'};
    if r != "" {
      assert s[k] == r[0] != '0';
    }
  }

  function BadgeOf(x: Row): Cell {
    OnStr(Get(x, "badge_no"), NoLeadingZeros)
  }

  /** `remove_badge_number_zeroes_prefix(df)` */
  method RemoveBadgeNumberZeroesPrefix(df: Frame)
    requires "badge_no" in df.columns
    modifies df
    ensures df.Value() == WithColumn(old(df.Value()), "badge_no", BadgeOf)
  {
    df.SetColumn("badge_no", BadgeOf);
  }

  // ---------------------------------------------------------------------
  // clean_employee_type

  const Misspelt := "commisioned"
  const Spelt := "commissioned"

  /** `s.lower().replace('commisioned', 'commissioned')` */
  function EmployeeTypeText(s: string): string {
    ReplaceAll(Lower(s), Misspelt, Spelt)
  }

  function EmployeeTypeOf(x: Row): Cell {
    OnStr(Get(x, "employee_type"), EmployeeTypeText)
  }

  /** `clean_employee_type(df)` */
  method CleanEmployeeType(df: Frame)
    requires "employee_type" in df.columns
    modifies df
    ensures df.Value() == WithColumn(old(df.Value()), "employee_type", EmployeeTypeOf)
  {
    df.SetColumn("employee_type", EmployeeTypeOf);
  }

  /** The correct spelling cannot combine with its neighbours into the
      misspelling. */
  lemma SpellingSeparated()
    ensures Separated(Misspelt, Spelt)
  {
    assert !Contains(Spelt, Misspelt) by {
      forall i | 0 <= i <= |Spelt| ensures !StartsWith(Spelt[i..], Misspelt) {
        if i == 0 {
          assert Spelt[..|Misspelt|][6] != Misspelt[6];
        } else if i == 1 {
          assert Spelt[1..][0] != Misspelt[0];
        }
      }
    }
    forall k | 0 < k < |Misspelt| && k <= |Spelt| ensures !EndsWith(Spelt, Misspelt[..k]) {
      assert Spelt[|Spelt| - k..][0] != 'c';
    }
    forall j | 0 < j < |Misspelt|
      ensures !StartsWith(Spelt, Misspelt[j..]) && !StartsWith(Misspelt[j..], Spelt)
    {
      assert Misspelt[j..][0] != Spelt[0];
    }
  }

  /** No misspelling is left, and a type written without it is only
      lower-cased. */
  lemma EmployeeTypeSpec(s: string)
    ensures !Contains(EmployeeTypeText(s), Misspelt)
    ensures !Contains(Lower(s), Misspelt) ==> EmployeeTypeText(s) == Lower(s)
  {
    SpellingSeparated();
    ReplaceAllClears(Lower(s), Misspelt, Spelt);
    if !Contains(Lower(s), Misspelt) {
      ReplaceAllAbsent(Lower(s), Misspelt, Spelt);
    }
  }

  // ---------------------------------------------------------------------
  // strip_time_from_dates

  /** How many digits end `s`. */
  function TrailingDigits(s: string): (n: nat)
    ensures n <= |s|
    decreases |s|
  {
    if s != [] && IsDigit(s[|s| - 1]) then 1 + TrailingDigits(s[..|s| - 1]) else 0
  }

  lemma {:induction false} TrailingDigitsExact(s: string, n: nat)
    requires n <= |s| && forall i | |s| - n <= i < |s| :: IsDigit(s[i])
    requires n < |s| ==> !IsDigit(s[|s| - n - 1])
    ensures TrailingDigits(s) == n
    decreases |s|
  {
    if n > 0 {
      var front := s[..|s| - 1];
      assert forall i | |front| - (n - 1) <= i < |front| :: front[i] == s[i];
      TrailingDigitsExact(front, n - 1);
    }
  }

  lemma {:induction false} TrailingDigitsSpec(s: string)
    ensures forall i | |s| - TrailingDigits(s) <= i < |s| :: IsDigit(s[i])
    ensures TrailingDigits(s) < |s| ==> !IsDigit(s[|s| - TrailingDigits(s) - 1])
    decreases |s|
  {
    if s != [] && IsDigit(s[|s| - 1]) {
      var front := s[..|s| - 1];
      TrailingDigitsSpec(front);
      assert forall i | 0 <= i < |front| :: front[i] == s[i];
    }
  }

  /** `t` matches `' \d+:\d+'` in full. */
  predicate TimeSuffix(t: string) {
    && |t| >= 4 && t[0] == ' '
    && exists p | 1 < p < |t| - 1 :: t[p] == ':' && forall i | 1 <= i < |t| && i != p :: IsDigit(t[i])
  }

  /** `re.sub(r' \d+:\d+$', '', s)` */
  function StripTime(s: string): string {
    var a := TrailingDigits(s);
    if a == 0 || a == |s| || s[|s| - a - 1] != ':' then s
    else
      var p := s[..|s| - a - 1];
      var b := TrailingDigits(p);
      if b == 0 || b == |p| || p[|p| - b - 1] != ' ' then s
      else p[..|p| - b - 1]
  }

  /** A value ending in a time has exactly that time removed. */
  lemma StripTimeFound(s: string, k: nat)
    requires k <= |s| && TimeSuffix(s[k..])
    ensures StripTime(s) == s[..k]
  {
    var t := s[k..];
    var p :| 1 < p < |t| - 1 && t[p] == ':' && forall i | 1 <= i < |t| && i != p :: IsDigit(t[i]);
    assert forall i | 0 <= i < |t| :: t[i] == s[k + i];
    TrailingDigitsExact(s, |t| - p - 1);
    var front := s[..k + p];
    assert forall i | 0 <= i < |front| :: front[i] == s[i];
    TrailingDigitsExact(front, p - 1);
  }

  /** Otherwise the value is left as it is: whatever is removed is a time
      at the end. */
  lemma StripTimeShape(s: string)
    ensures StripTime(s) == s || exists k | 0 <= k <= |s| :: StripTime(s) == s[..k] && TimeSuffix(s[k..])
  {
    var a := TrailingDigits(s);
    TrailingDigitsSpec(s);
    if !(a == 0 || a == |s| || s[|s| - a - 1] != ':') {
      var front := s[..|s| - a - 1];
      var b := TrailingDigits(front);
      TrailingDigitsSpec(front);
      if !(b == 0 || b == |front| || front[|front| - b - 1] != ' ') {
        var k := |front| - b - 1;
        var t := s[k..];
        var p := b + 1;
        assert t[p] == ':';
        forall i | 1 <= i < |t| && i != p ensures IsDigit(t[i]) {
          if i < p {
            assert t[i] == front[k + i];
          } else {
            assert t[i] == s[k + i];
          }
        }
        assert TimeSuffix(t);
        assert StripTime(s) == s[..k];
      }
    }
  }

  function TimeStripped(c: string): Row -> Cell {
    x => OnStr(Get(x, c), StripTime)
  }

  /** The frame after the loop has stripped the columns of `cols`, in turn. */
  function StripTimes(t: Table, cols: seq<string>): (r: Table)
    ensures |r.rows| == |t.rows|
    decreases |cols|
  {
    if cols == [] then t
    else
      var c := cols[|cols| - 1];
      WithColumn(StripTimes(t, cols[..|cols| - 1]), c, TimeStripped(c))
  }

  /** `strip_time_from_dates(df, cols)` */
  method StripTimeFromDates(df: Frame, cols: seq<string>)
    requires forall c | c in cols :: c in df.columns
    modifies df
    ensures df.Value() == StripTimes(old(df.Value()), cols)
  {
    for n := 0 to |cols|
      invariant df.Value() == StripTimes(old(df.Value()), cols[..n])
    {
      assert cols[..n + 1][..n] == cols[..n];
      df.SetColumn(cols[n], TimeStripped(cols[n]));
    }
    assert cols[..|cols|] == cols;
  }

  /** With distinct columns, each listed column loses its time once and the
      other columns are untouched. */
  lemma {:induction false} StripTimesSpec(t: Table, cols: seq<string>, i: nat, c: string)
    requires forall j, k | 0 <= j < k < |cols| :: cols[j] != cols[k]
    requires i < |t.rows|
    ensures Get(StripTimes(t, cols).rows[i], c) ==
      if c in cols then OnStr(Get(t.rows[i], c), StripTime) else Get(t.rows[i], c)
    decreases |cols|
  {
    if cols != [] {
      var front := cols[..|cols| - 1];
      StripTimesSpec(t, front, i, c);
      assert c in cols <==> c in front || c == cols[|cols| - 1];
      if c == cols[|cols| - 1] {
        assert c !in front;
      }
    }
  }

  // ---------------------------------------------------------------------
  // generate_middle_initial

  function MiddleInitialOf(x: Row): Cell {
    OnStr(Get(x, "middle_name"), Initial)
  }

  /** `generate_middle_initial(df)`: `x[:1]` fails on a missing name, so
      every middle name must be a string. */
  method GenerateMiddleInitial(df: Frame)
    requires "middle_name" in df.columns
    requires forall i | 0 <= i < |df.rows| :: Get(df.rows[i], "middle_name").Str?
    modifies df
    ensures df.Value() == WithColumn(old(df.Value()), "middle_initial", MiddleInitialOf)
  {
    df.SetColumn("middle_initial", MiddleInitialOf);
  }

  /** The initial is the first character of the middle name, `''` for an
      empty name. */
  lemma MiddleInitialSpec(x: Row)
    requires Get(x, "middle_name").Str?
    ensures var n, m := Get(x, "middle_name").s, MiddleInitialOf(x);
      && m.Str? && |m.s| <= 1 && StartsWith(n, m.s) && (m.s == "" <==> n == "")
  {
  }

  // ---------------------------------------------------------------------
  // assign_agency

  /** `assign_agency(df)` */
  method AssignAgency(df: Frame)
    modifies df
    ensures df.Value() == Stamped(old(df.Value()), "2018", "New Orleans PD")
  {
    df.SetColumn("data_production_year", _ => Str("2018"));
    df.SetColumn("agency", _ => Str("New Orleans PD"));
  }

  // ---------------------------------------------------------------------
  // clean_current_supervisor

  /** `str(v)` of a cell as `astype(str)` writes it. */
  function StrForm(c: Cell): string {
    match c
    case Str(s) => s
    case Int(i) => IntToDecimal(i)
    case IntegralFloat(f) => IntToDecimal(f) + ".0"
    case Missing => "nan"
  }

  function EmployeeIdText(x: Row): Cell {
    Str(StrForm(Get(x, "employee_id")))
  }

  /** `df.set_index('employee_id').uid` as the pairs `to_dict` reads. */
  function OfficerNumbers(rows: seq<Row>): (r: seq<(Cell, Cell)>)
    ensures |r| == |rows|
    ensures forall i | 0 <= i < |rows| :: r[i] == (Get(rows[i], "employee_id"), Get(rows[i], "uid"))
  {
    seq(|rows|, i requires 0 <= i < |rows| => (Get(rows[i], "employee_id"), Get(rows[i], "uid")))
  }

  /** `officer_number_dict.get(x, '')` */
  function SupervisorFor(pairs: seq<(Cell, Cell)>): Row -> Cell {
    x => match LastMatch(pairs, Get(x, "current_supervisor")) case Some(u) => u case None => Str("")
  }

  function SupervisorsCleaned(t: Table): Table {
    var ids := WithColumn(t, "employee_id", EmployeeIdText);
    WithColumn(ids, "current_supervisor", SupervisorFor(OfficerNumbers(ids.rows)))
  }

  /** `clean_current_supervisor(df)` */
  method CleanCurrentSupervisor(df: Frame)
    requires "employee_id" in df.columns && "uid" in df.columns && "current_supervisor" in df.columns
    modifies df
    ensures df.Value() == SupervisorsCleaned(old(df.Value()))
  {
    df.SetColumn("employee_id", EmployeeIdText);
    var numbers := OfficerNumbers(df.rows);
    df.SetColumn("current_supervisor", SupervisorFor(numbers));
  }

  /** Employee numbers become strings and nothing but the two columns
      changes. */
  lemma CurrentSupervisorSpec(t: Table, i: nat)
    requires i < |t.rows|
    ensures |SupervisorsCleaned(t).rows| == |t.rows|
    ensures Get(SupervisorsCleaned(t).rows[i], "employee_id") == Str(StrForm(Get(t.rows[i], "employee_id")))
    ensures forall c | c != "employee_id" && c != "current_supervisor" ::
      Get(SupervisorsCleaned(t).rows[i], c) == Get(t.rows[i], c)
  {
  }

  /** Each supervisor number becomes the uid of the last officer whose
      stringified number it is, or `''` when there is none. */
  lemma SupervisorSpec(t: Table, i: nat)
    requires i < |t.rows|
    ensures var v, s := Get(SupervisorsCleaned(t).rows[i], "current_supervisor"), Get(t.rows[i], "current_supervisor");
      && ((forall j | 0 <= j < |t.rows| :: EmployeeIdText(t.rows[j]) != s) ==> v == Str(""))
      && ((exists j | 0 <= j < |t.rows| :: EmployeeIdText(t.rows[j]) == s) ==>
            exists j | 0 <= j < |t.rows| :: EmployeeIdText(t.rows[j]) == s
              && v == Get(t.rows[j], "uid")
              && forall k | j < k < |t.rows| :: EmployeeIdText(t.rows[k]) != s)
  {
    var pairs := OfficerNumbers(WithColumn(t, "employee_id", EmployeeIdText).rows);
    var s := Get(t.rows[i], "current_supervisor");
    IdsRow(t, i);
    NumbersOfIds(t);
    if LastMatch(pairs, s).Some? {
      var j := LastMatchAt(pairs, s);
    } else {
      forall j | 0 <= j < |t.rows| ensures EmployeeIdText(t.rows[j]) != s {
        assert pairs[j] in pairs;
      }
    }
  }

  /** The frame after its employee numbers are rewritten, row by row. */
  lemma IdsRow(t: Table, j: nat)
    requires j < |t.rows|
    ensures var y := WithColumn(t, "employee_id", EmployeeIdText).rows[j];
      && Get(y, "current_supervisor") == Get(t.rows[j], "current_supervisor")
      && Get(SupervisorsCleaned(t).rows[j], "current_supervisor")
         == SupervisorFor(OfficerNumbers(WithColumn(t, "employee_id", EmployeeIdText).rows))(y)
  {
  }

  /** The pairs the lookup is built from, in terms of the original rows. */
  lemma NumbersOfIds(t: Table)
    ensures var pairs := OfficerNumbers(WithColumn(t, "employee_id", EmployeeIdText).rows);
      && |pairs| == |t.rows|
      && forall j | 0 <= j < |t.rows| :: pairs[j] == (EmployeeIdText(t.rows[j]), Get(t.rows[j], "uid"))
  {
  }

  /** A supervisor number that `float_to_int_str` rendered from the float
      `n.0` matches the officer whose integer number is `n`, but never one
      whose number was itself read as a float. */
  lemma SupervisorKeys(n: int, m: int)
    ensures CleanLib.IntStr(IntegralFloat(n)) == Str(StrForm(Int(n)))
    ensures CleanLib.IntStr(IntegralFloat(n)) != Str(StrForm(IntegralFloat(m)))
  {
    DecimalRoundTrip(n);
    var a, b := IntToDecimal(n), IntToDecimal(m) + ".0";
    assert b[|b| - 2] == '.';
    assert b[|b| - 2] !in a;
  }

  // ---------------------------------------------------------------------
  // remove_unnamed_officers

  const NotOfficer := "not an nopd officer"

  /** `s.replace(r'^unknown.*', '').replace(r'^none$', '')
      .replace(r'not an nopd officer', '')` */
  function UnnamedText(s: string): string {
    var a := if StartsWith(s, "unknown") then s[LineLength(s)..] else s;
    var b := if a == "none" then "" else a;
    ReplaceAll(b, NotOfficer, "")
  }

  function LastNameOf(x: Row): Cell {
    OnStr(Get(x, "last_name"), UnnamedText)
  }

  /** `df.last_name != ''`: a missing last name passes. */
  predicate Named(x: Row) {
    Get(x, "last_name") != Str("")
  }

  function UnnamedRemoved(t: Table): Table {
    Filter(WithColumn(t, "last_name", LastNameOf), Named)
  }

  /** `remove_unnamed_officers(df)`: the last names are rewritten in the
      caller's frame, and the rows left with an empty one are dropped from
      the returned copy. */
  method RemoveUnnamedOfficers(df: Frame) returns (r: Table)
    requires "last_name" in df.columns
    modifies df
    ensures df.Value() == WithColumn(old(df.Value()), "last_name", LastNameOf)
    ensures r == UnnamedRemoved(old(df.Value()))
  {
    df.SetColumn("last_name", LastNameOf);
    r := Filter(df.Value(), Named);
  }

  /** `none`, and a one-line name starting with `unknown`, are emptied; a
      name with none of the three patterns is kept as it is. */
  lemma UnnamedTextSpec(s: string)
    ensures s == "none" ==> UnnamedText(s) == ""
    ensures StartsWith(s, "unknown") && '\n' !in s ==> UnnamedText(s) == ""
    ensures !StartsWith(s, "unknown") && s != "none" && !Contains(s, NotOfficer) ==> UnnamedText(s) == s
  {
    if StartsWith(s, "unknown") && '\n' !in s {
      LineLengthSpec(s);
      assert LineLength(s) == |s|;
    }
    if !StartsWith(s, "unknown") && s != "none" && !Contains(s, NotOfficer) {
      ReplaceAllAbsent(s, NotOfficer, "");
    }
  }

  /** The returned rows are exactly the rewritten rows that still have a
      last name (or a missing one), in their order and each as often as it
      occurs. */
  lemma UnnamedRemovedSpec(t: Table)
    ensures var u, r := WithColumn(t, "last_name", LastNameOf), UnnamedRemoved(t);
      && r.columns == u.columns && |r.rows| <= |t.rows|
      && (forall x | x in r.rows :: Get(x, "last_name") != Str(""))
      && (forall i | 0 <= i < |t.rows| :: u.rows[i] in r.rows <==> Named(u.rows[i]))
      && r.rows == Keep(u.rows, Named)
      && (forall x :: multiset(r.rows)[x] == if Named(x) then multiset(u.rows)[x] else 0)
  {
    var u := WithColumn(t, "last_name", LastNameOf);
    forall x ensures x in Keep(u.rows, Named) <==> x in u.rows && Named(x) {
      KeepHas(u.rows, Named, x);
    }
    forall x ensures multiset(Keep(u.rows, Named))[x] == if Named(x) then multiset(u.rows)[x] else 0 {
      KeepCount(u.rows, Named, x);
    }
  }
}

=== FILE: clean_lib.dfy ===
/** The three helpers of `lib/clean` whose behaviour the unit tests in
    `lib/clean_test.py` fix: `remove_future_dates`, `float_to_int_str` and
    `canonicalize_officers`. Each is defined here as the simplest function
    meeting its test, and the test itself is a lemma. */
module CleanLib {
  import opened Text
  import opened Tables

  // ---------------------------------------------------------------------
  // remove_future_dates

  datatype Date = Date(year: int, month: int, day: int)

  function YearColumn(prefix: string): string { prefix + "_year" }
  function MonthColumn(prefix: string): string { prefix + "_month" }
  function DayColumn(prefix: string): string { prefix + "_day" }

  /** One part of a partial date: a number, or nothing (`""`, NaN, text). */
  function DatePart(c: Cell): Option<int> {
    match c
    case Str(s) => ParseInt(s)
    case Int(i) => Some(i)
    case IntegralFloat(f) => Some(f)
    case Missing => None
  }

  /** A partial date lies after the cutoff when the parts it has already
      place it there: a later year, or the same year and a later month, or
      the same month and a later day. */
  predicate IsAfter(y: Option<int>, m: Option<int>, d: Option<int>, cutoff: Date) {
    y.Some? &&
    (y.value > cutoff.year
     || (y.value == cutoff.year && m.Some? &&
         (m.value > cutoff.month || (m.value == cutoff.month && d.Some? && d.value > cutoff.day))))
  }

  predicate DateIsAfter(r: Row, prefix: string, cutoff: Date) {
    IsAfter(DatePart(Get(r, YearColumn(prefix))), DatePart(Get(r, MonthColumn(prefix))),
            DatePart(Get(r, DayColumn(prefix))), cutoff)
  }

  function BlankDate(r: Row, prefix: string): Row {
    r[YearColumn(prefix) := Str("")][MonthColumn(prefix) := Str("")][DayColumn(prefix) := Str("")]
  }

  function BlankFuture(r: Row, cutoff: Date, prefixes: seq<string>): Row
    decreases |prefixes|
  {
    if prefixes == [] then r
    else
      var p := prefixes[0];
      BlankFuture(if DateIsAfter(r, p, cutoff) then BlankDate(r, p) else r, cutoff, prefixes[1..])
  }

  /** `remove_future_dates(df, cutoff, prefixes)` */
  function RemoveFutureDates(t: Table, cutoff: Date, prefixes: seq<string>): (r: Table)
    ensures r.columns == t.columns && |r.rows| == |t.rows|
  {
    Table(t.columns, seq(|t.rows|, i requires 0 <= i < |t.rows| => BlankFuture(t.rows[i], cutoff, prefixes)))
  }

  predicate InDate(c: string, prefix: string) {
    c == YearColumn(prefix) || c == MonthColumn(prefix) || c == DayColumn(prefix)
  }

  lemma SuffixCancel(p: string, q: string, s: string)
    requires p + s == q + s
    ensures p == q
  {
    assert |p| == |q|;
    assert p == (p + s)[..|p|];
  }

  /** A column belongs to the date of at most one prefix: the suffixes
      `_year`, `_month` and `_day` end in different letters. */
  lemma DateOwner(c: string, p: string, q: string)
    requires InDate(c, p) && InDate(c, q)
    ensures p == q
  {
    assert YearColumn(p)[|YearColumn(p)| - 1] == 'r' && YearColumn(q)[|YearColumn(q)| - 1] == 'r';
    assert MonthColumn(p)[|MonthColumn(p)| - 1] == 'h' && MonthColumn(q)[|MonthColumn(q)| - 1] == 'h';
    assert DayColumn(p)[|DayColumn(p)| - 1] == 'y' && DayColumn(q)[|DayColumn(q)| - 1] == 'y';
    if c == YearColumn(p) && c == YearColumn(q) { SuffixCancel(p, q, "_year"); }
    if c == MonthColumn(p) && c == MonthColumn(q) { SuffixCancel(p, q, "_month"); }
    if c == DayColumn(p) && c == DayColumn(q) { SuffixCancel(p, q, "_day"); }
  }

  /** Column `c` holds part of a listed date that lies after the cutoff. */
  ghost predicate Blanked(r: Row, cutoff: Date, prefixes: seq<string>, c: string) {
    exists q | q in prefixes :: InDate(c, q) && DateIsAfter(r, q, cutoff)
  }

  /** The row after the first listed date is handled. */
  function BlankFirst(r: Row, cutoff: Date, prefixes: seq<string>): Row
    requires prefixes != []
  {
    if DateIsAfter(r, prefixes[0], cutoff) then BlankDate(r, prefixes[0]) else r
  }

  /** What `c` holds once the remaining dates are handled. */
  ghost function Outcome(r: Row, cutoff: Date, prefixes: seq<string>, c: string): Cell {
    if Blanked(r, cutoff, prefixes, c) then Str("") else Get(r, c)
  }

  lemma BlankDateOther(r: Row, p: string, c: string)
    requires !InDate(c, p)
    ensures Get(BlankDate(r, p), c) == Get(r, c)
  {
  }

  /** Blanking one date leaves whether another lies after the cutoff. */
  lemma BlankDateOtherDate(r: Row, p: string, q: string, cutoff: Date)
    requires q != p
    ensures DateIsAfter(BlankDate(r, p), q, cutoff) == DateIsAfter(r, q, cutoff)
  {
    if InDate(YearColumn(q), p) { DateOwner(YearColumn(q), p, q); }
    if InDate(MonthColumn(q), p) { DateOwner(MonthColumn(q), p, q); }
    if InDate(DayColumn(q), p) { DateOwner(DayColumn(q), p, q); }
    BlankDateOther(r, p, YearColumn(q));
    BlankDateOther(r, p, MonthColumn(q));
    BlankDateOther(r, p, DayColumn(q));
  }

  /** A blanked date no longer lies after any cutoff. */
  lemma BlankDateOwn(r: Row, p: string, cutoff: Date)
    ensures !DateIsAfter(BlankDate(r, p), p, cutoff)
  {
    assert Get(BlankDate(r, p), YearColumn(p)) == Str("");
    assert ParseInt("") == None;
  }

  /** A column of the first date: it is blanked now or never. */
  lemma BlankStepOwn(r: Row, cutoff: Date, prefixes: seq<string>, c: string)
    requires prefixes != [] && InDate(c, prefixes[0])
    ensures Outcome(BlankFirst(r, cutoff, prefixes), cutoff, prefixes[1..], c) == Outcome(r, cutoff, prefixes, c)
  {
    var p, rest, r1 := prefixes[0], prefixes[1..], BlankFirst(r, cutoff, prefixes);
    assert forall q | q in prefixes :: q == p || q in rest;
    forall q | q in rest && InDate(c, q) ensures q == p { DateOwner(c, p, q); }
    if DateIsAfter(r, p, cutoff) {
      BlankDateOwn(r, p, cutoff);
      assert Blanked(r, cutoff, prefixes, c);
    } else {
      assert !Blanked(r, cutoff, prefixes, c);
    }
  }

  /** Any other column: the first date changes neither it nor the dates it
      belongs to. */
  lemma BlankStepOther(r: Row, cutoff: Date, prefixes: seq<string>, c: string)
    requires prefixes != [] && !InDate(c, prefixes[0])
    ensures Outcome(BlankFirst(r, cutoff, prefixes), cutoff, prefixes[1..], c) == Outcome(r, cutoff, prefixes, c)
  {
    var p, rest, r1 := prefixes[0], prefixes[1..], BlankFirst(r, cutoff, prefixes);
    assert forall q | q in prefixes :: q == p || q in rest;
    BlankDateOther(r, p, c);
    forall q | q in rest && InDate(c, q) ensures DateIsAfter(r1, q, cutoff) == DateIsAfter(r, q, cutoff) {
      if q != p { BlankDateOtherDate(r, p, q, cutoff); }
    }
    assert Blanked(r, cutoff, prefixes, c) == Blanked(r1, cutoff, rest, c);
  }

  /** `remove_future_dates` blanks exactly the columns of the listed dates
      that lie after the cutoff (`""`); every other column of the row,
      including the parts of dates on or before the cutoff, is unchanged. */
  lemma {:induction false} BlankFutureSpec(r: Row, cutoff: Date, prefixes: seq<string>, c: string)
    ensures Get(BlankFuture(r, cutoff, prefixes), c) == if Blanked(r, cutoff, prefixes, c) then Str("") else Get(r, c)
    decreases |prefixes|
  {
    if prefixes != [] {
      var r1 := BlankFirst(r, cutoff, prefixes);
      assert BlankFuture(r, cutoff, prefixes) == BlankFuture(r1, cutoff, prefixes[1..]);
      BlankFutureSpec(r1, cutoff, prefixes[1..], c);
      if InDate(c, prefixes[0]) {
        BlankStepOwn(r, cutoff, prefixes, c);
      } else {
        BlankStepOther(r, cutoff, prefixes, c);
      }
    }
  }

  // ---------------------------------------------------------------------
  // float_to_int_str

  /** An integral float becomes its integer string, NaN becomes `""`;
      integers and strings are left alone. */
  function IntStr(c: Cell): Cell {
    match c
    case IntegralFloat(f) => Str(IntToDecimal(f))
    case Missing => Str("")
    case _ => c
  }

  function IntStrRow(r: Row, cs: set<string>): Row {
    map k | k in r.Keys + cs :: if k in cs then IntStr(Get(r, k)) else r[k]
  }

  /** `float_to_int_str(df, cols)`: listed columns the frame lacks are skipped. */
  function FloatToIntStr(t: Table, cols: seq<string>): (r: Table)
    ensures r.columns == t.columns && |r.rows| == |t.rows|
  {
    var cs := set c | c in cols && c in t.columns;
    Table(t.columns, seq(|t.rows|, i requires 0 <= i < |t.rows| => IntStrRow(t.rows[i], cs)))
  }

  /** In a listed column of the frame an integral float becomes a string
      without `.0` that reads back as the same integer, NaN becomes `""`, and
      integers and strings stay; all other columns are unchanged. */
  lemma FloatToIntStrSpec(t: Table, cols: seq<string>, i: nat, c: string)
    requires i < |t.rows|
    ensures var v, w := Get(t.rows[i], c), Get(FloatToIntStr(t, cols).rows[i], c);
      && (c !in cols || c !in t.columns ==> w == v)
      && (c in cols && c in t.columns ==>
            && (v.IntegralFloat? ==> w.Str? && ParseInt(w.s) == Some(v.f) && '.' !in w.s)
            && (v.Missing? ==> w == Str(""))
            && (v.Int? || v.Str? ==> w == v))
  {
    var v := Get(t.rows[i], c);
    if v.IntegralFloat? {
      DecimalRoundTrip(v.f);
    }
  }

  /** Applying `float_to_int_str` twice changes nothing more. */
  lemma FloatToIntStrIdempotent(t: Table, cols: seq<string>)
    ensures FloatToIntStr(FloatToIntStr(t, cols), cols) == FloatToIntStr(t, cols)
  {
    var once := FloatToIntStr(t, cols);
    var cs := set c | c in cols && c in t.columns;
    forall i | 0 <= i < |t.rows| ensures IntStrRow(once.rows[i], cs) == once.rows[i] {
      var r := once.rows[i];
      forall k | k in r.Keys + cs ensures k in r && (if k in cs then IntStr(Get(r, k)) else r[k]) == r[k] {
      }
    }
  }

  // ---------------------------------------------------------------------
  // canonicalize_officers

  /** The first cluster that lists `u`. */
  function ClusterOf(clusters: seq<seq<string>>, u: string): (r: Option<seq<string>>)
    ensures r.Some? ==> r.value in clusters && u in r.value
    ensures r.None? <==> forall k | 0 <= k < |clusters| :: u !in clusters[k]
  {
    if clusters == [] then None
    else if u in clusters[0] then Some(clusters[0])
    else ClusterOf(clusters[1..], u)
  }

  /** A clustered row takes its cluster's first uid; unless it already had
      that uid, its names are blanked. */
  function CanonicalRow(r: Row, clusters: seq<seq<string>>): Row {
    match Get(r, "uid")
    case Str(u) =>
      (match ClusterOf(clusters, u)
       case Some(cl) =>
         var named := r["uid" := Str(cl[0])];
         if u == cl[0] then named
         else named["first_name" := Str("")]["middle_name" := Str("")]["last_name" := Str("")]
       case None => r)
    case _ => r
  }

  /** `canonicalize_officers(df, clusters)` */
  function Canonicalize(t: Table, clusters: seq<seq<string>>): (r: Table)
    ensures r.columns == t.columns && |r.rows| == |t.rows|
  {
    Table(t.columns, seq(|t.rows|, i requires 0 <= i < |t.rows| => CanonicalRow(t.rows[i], clusters)))
  }

  predicate IsName(c: string) {
    c == "first_name" || c == "middle_name" || c == "last_name"
  }

  /** Row by row: a uid in a cluster becomes the cluster's first uid; names
      are kept exactly on the row whose uid already was that first uid and
      blanked on the others; every other column, and every row whose uid is
      in no cluster, is unchanged. */
  lemma CanonicalizeSpec(t: Table, clusters: seq<seq<string>>, i: nat)
    requires i < |t.rows|
    ensures var r, x := t.rows[i], Canonicalize(t, clusters).rows[i];
      && (forall c | c != "uid" && !IsName(c) :: Get(x, c) == Get(r, c))
      && (Get(r, "uid").Str? && ClusterOf(clusters, Get(r, "uid").s).Some? ==>
            var cl := ClusterOf(clusters, Get(r, "uid").s).value;
            && Get(x, "uid") == Str(cl[0])
            && (forall c | IsName(c) :: Get(x, c) == if Get(r, "uid").s == cl[0] then Get(r, c) else Str("")))
      && (!Get(r, "uid").Str? || ClusterOf(clusters, Get(r, "uid").s).None? ==> x == r)
  {
  }

  /** No uid belongs to two clusters. */
  predicate Disjoint(clusters: seq<seq<string>>) {
    forall i, j, u | 0 <= i < j < |clusters| && u in clusters[i] :: u !in clusters[j]
  }

  lemma {:induction false} ClusterOfMember(clusters: seq<seq<string>>, k: nat, u: string)
    requires Disjoint(clusters) && k < |clusters| && u in clusters[k]
    ensures ClusterOf(clusters, u) == Some(clusters[k])
  {
    if k > 0 {
      assert u !in clusters[0];
      ClusterOfMember(clusters[1..], k - 1, u);
    }
  }

  lemma {:induction false} ClusterOfIndex(clusters: seq<seq<string>>, u: string)
    requires ClusterOf(clusters, u).Some?
    ensures exists k | 0 <= k < |clusters| :: ClusterOf(clusters, u) == Some(clusters[k]) && u in clusters[k]
  {
    if u !in clusters[0] {
      ClusterOfIndex(clusters[1..], u);
      var k :| 0 <= k < |clusters[1..]| && ClusterOf(clusters[1..], u) == Some(clusters[1..][k]) && u in clusters[1..][k];
      assert clusters[k + 1] == clusters[1..][k];
    }
  }

  /** With disjoint clusters a canonical row is its own canonical form. */
  lemma CanonicalRowIdempotent(r: Row, clusters: seq<seq<string>>)
    requires Disjoint(clusters)
    ensures CanonicalRow(CanonicalRow(r, clusters), clusters) == CanonicalRow(r, clusters)
  {
    if Get(r, "uid").Str? && ClusterOf(clusters, Get(r, "uid").s).Some? {
      var cl := ClusterOf(clusters, Get(r, "uid").s).value;
      ClusterOfIndex(clusters, Get(r, "uid").s);
      var k :| 0 <= k < |clusters| && ClusterOf(clusters, Get(r, "uid").s) == Some(clusters[k]);
      ClusterOfMember(clusters, k, cl[0]);
      var x := CanonicalRow(r, clusters);
      assert Get(x, "uid") == Str(cl[0]);
      assert x["uid" := Str(cl[0])] == x;
    }
  }

  /** With disjoint clusters canonicalisation is idempotent: every uid is
      already its cluster's first uid and keeps the names it has. */
  lemma CanonicalizeIdempotent(t: Table, clusters: seq<seq<string>>)
    requires Disjoint(clusters)
    ensures Canonicalize(Canonicalize(t, clusters), clusters) == Canonicalize(t, clusters)
  {
    var once := Canonicalize(t, clusters);
    forall i | 0 <= i < |t.rows| ensures CanonicalRow(once.rows[i], clusters) == once.rows[i] {
      CanonicalRowIdempotent(t.rows[i], clusters);
    }
  }

  // ---------------------------------------------------------------------
  // The unit tests

  function Person(year: string, month: string, day: string, name: string): Row {
    map["name" := Str(name), "birth_year" := Str(year), "birth_month" := Str(month), "birth_day" := Str(day)]
  }

  lemma SmallDecimals()
    ensures ParseInt("2000") == Some(2000) && ParseInt("2001") == Some(2001) && ParseInt("2002") == Some(2002)
    ensures ParseInt("10") == Some(10) && ParseInt("1") == Some(1) && ParseInt("2") == Some(2)
    ensures ParseInt("3") == Some(3) && ParseInt("4") == Some(4) && ParseInt("") == None
  {
    assert IntToDecimal(2000) == "2000" && IntToDecimal(2001) == "2001" && IntToDecimal(2002) == "2002";
    assert IntToDecimal(10) == "10" && IntToDecimal(1) == "1" && IntToDecimal(2) == "2";
    assert IntToDecimal(3) == "3" && IntToDecimal(4) == "4";
    DecimalRoundTrip(2000); DecimalRoundTrip(2001); DecimalRoundTrip(2002); DecimalRoundTrip(10);
    DecimalRoundTrip(1); DecimalRoundTrip(2); DecimalRoundTrip(3); DecimalRoundTrip(4);
  }

  lemma BirthColumns()
    ensures YearColumn("birth") == "birth_year" && MonthColumn("birth") == "birth_month" && DayColumn("birth") == "birth_day"
  {
  }

  lemma PersonFuture(year: string, month: string, day: string, name: string, cutoff: Date)
    requires DateIsAfter(Person(year, month, day, name), "birth", cutoff)
    ensures BlankFuture(Person(year, month, day, name), cutoff, ["birth"]) == Person("", "", "", name)
  {
    BirthColumns();
    assert BlankDate(Person(year, month, day, name), "birth") == Person("", "", "", name);
  }

  lemma PersonPast(year: string, month: string, day: string, name: string, cutoff: Date)
    requires !DateIsAfter(Person(year, month, day, name), "birth", cutoff)
    ensures BlankFuture(Person(year, month, day, name), cutoff, ["birth"]) == Person(year, month, day, name)
  {
  }

  /** `test_remove_future_dates`: with cutoff 2001-02-03, a year-only 2002,
      a year-month 2001-03 and the full 2001-02-04 are blanked; 2000-10-01
      stays. */
  lemma RemoveFutureDatesTest()
    ensures var columns := ["name", "birth_year", "birth_month", "birth_day"];
      RemoveFutureDates(
        Table(columns, [Person("2000", "10", "1", "john"), Person("2002", "", "", "cate"),
                        Person("2001", "3", "", "tate"), Person("2001", "2", "4", "dave")]),
        Date(2001, 2, 3), ["birth"])
      == Table(columns, [Person("2000", "10", "1", "john"), Person("", "", "", "cate"),
                         Person("", "", "", "tate"), Person("", "", "", "dave")])
  {
    var cutoff := Date(2001, 2, 3);
    SmallDecimals();
    BirthColumns();
    PersonPast("2000", "10", "1", "john", cutoff);
    PersonFuture("2002", "", "", "cate", cutoff);
    PersonFuture("2001", "3", "", "tate", cutoff);
    PersonFuture("2001", "2", "4", "dave", cutoff);
  }

  function Record(id: int, name: string, age: Cell, mixed: Cell): Row {
    map["id" := Int(id), "name" := Str(name), "age" := age, "mixed" := mixed]
  }

  lemma RecordIntStr(id: int, name: string, age: Cell, mixed: Cell)
    ensures IntStrRow(Record(id, name, age, mixed), {"id", "age", "mixed"})
         == Record(id, name, IntStr(age), IntStr(mixed))
  {
    var r := Record(id, name, age, mixed);
    var x := IntStrRow(r, {"id", "age", "mixed"});
    assert x.Keys == r.Keys;
    assert x["id"] == Int(id) && x["name"] == Str(name);
  }

  /** `test_float_to_int_str`: float columns and the mixed column become
      integer strings (`27.0` to `"27"`, NaN to `""`), the int column and
      the unlisted and non-numeric cells stay. */
  lemma FloatToIntStrTest()
    ensures var columns := ["id", "name", "age", "mixed"];
      FloatToIntStr(
        Table(columns, [Record(3, "john", IntegralFloat(27), IntegralFloat(1973)),
                        Record(4, "anne", IntegralFloat(24), Missing),
                        Record(5, "bill", Missing, Str("abc"))]),
        ["id", "age", "mixed"])
      == Table(columns, [Record(3, "john", Str("27"), Str("1973")),
                         Record(4, "anne", Str("24"), Str("")),
                         Record(5, "bill", Str(""), Str("abc"))])
  {
    var columns := ["id", "name", "age", "mixed"];
    var input := [Record(3, "john", IntegralFloat(27), IntegralFloat(1973)),
                  Record(4, "anne", IntegralFloat(24), Missing),
                  Record(5, "bill", Missing, Str("abc"))];
    var out := FloatToIntStr(Table(columns, input), ["id", "age", "mixed"]);
    ListedColumns();
    SmallFloats();
    RecordIntStr(3, "john", IntegralFloat(27), IntegralFloat(1973));
    RecordIntStr(4, "anne", IntegralFloat(24), Missing);
    RecordIntStr(5, "bill", Missing, Str("abc"));
    assert out.rows[0] == Record(3, "john", Str("27"), Str("1973"));
    assert out.rows[1] == Record(4, "anne", Str("24"), Str(""));
    assert out.rows[2] == Record(5, "bill", Str(""), Str("abc"));
  }

  lemma ListedColumns()
    ensures (set c | c in ["id", "age", "mixed"] && c in ["id", "name", "age", "mixed"]) == {"id", "age", "mixed"}
  {
  }

  lemma SmallFloats()
    ensures IntStr(IntegralFloat(27)) == Str("27") && IntStr(IntegralFloat(1973)) == Str("1973")
    ensures IntStr(IntegralFloat(24)) == Str("24")
  {
    assert IntToDecimal(27) == "27" && IntToDecimal(1973) == "1973" && IntToDecimal(24) == "24";
  }

  const Patric := "1e65c0807675ee3f25f6a6bf25eb121b"
  const Patrick := "db3d392b404754b2d4a127ca0922d2f8"
  const Thomas := "92d3d9c79a3eb44ece5c83e62e55b91d"
  const Ferguso := "a5f3c016d4c3373aa74dc15c0638362e"
  const Arthur := "233418697784e972144523ad8cc4ed9"
  const ArthurH := "d59c942cdd7e211bf7c76f20501d657c"

  function Officer(uid: string, first: string, last: string): Row {
    map["uid" := Str(uid), "first_name" := Str(first), "last_name" := Str(last)]
  }

  function OfficerWithMiddle(uid: string, first: string, middle: string, last: string): Row {
    Officer(uid, first, last)["middle_name" := Str(middle)]
  }

  const TestClusters: seq<seq<string>> := [[Patrick, Patric], [Thomas, Ferguso], [Arthur, ArthurH]]

  lemma TestUidsApart()
    ensures Patric != Patrick && Patric != Thomas && Patric != Ferguso && Patric != Arthur && Patric != ArthurH
    ensures Patrick != Thomas && Patrick != Ferguso && Patrick != Arthur && Patrick != ArthurH
    ensures Thomas != Ferguso && Thomas != Arthur && Thomas != ArthurH
    ensures Ferguso != Arthur && Ferguso != ArthurH && Arthur != ArthurH
  {
    assert Patric[0] == '1' && Patrick[0] == 'd' && Thomas[0] == '9' && Ferguso[0] == 'a' && Arthur[0] == '2' && ArthurH[0] == 'd';
    assert Patrick[1] == 'b' && ArthurH[1] == '5';
  }

  lemma TestClusterOf()
    ensures ClusterOf(TestClusters, Patric) == Some([Patrick, Patric])
    ensures ClusterOf(TestClusters, Patrick) == Some([Patrick, Patric])
    ensures ClusterOf(TestClusters, Thomas) == Some([Thomas, Ferguso])
    ensures ClusterOf(TestClusters, Ferguso) == Some([Thomas, Ferguso])
    ensures ClusterOf(TestClusters, Arthur) == Some([Arthur, ArthurH])
    ensures ClusterOf(TestClusters, ArthurH) == Some([Arthur, ArthurH])
  {
    TestUidsApart();
    assert TestClusters[1..] == [[Thomas, Ferguso], [Arthur, ArthurH]];
    assert TestClusters[1..][1..] == [[Arthur, ArthurH]];
    assert ClusterOf(TestClusters[1..][1..], Arthur) == Some([Arthur, ArthurH]);
    assert ClusterOf(TestClusters[1..][1..], ArthurH) == Some([Arthur, ArthurH]);
  }

  lemma KeepsNames(u: string, first: string, last: string, clusters: seq<seq<string>>, cl: seq<string>)
    requires ClusterOf(clusters, u) == Some(cl) && cl[0] == u
    ensures CanonicalRow(Officer(u, first, last), clusters) == Officer(u, first, last)
  {
    assert Officer(u, first, last)["uid" := Str(u)] == Officer(u, first, last);
  }

  lemma KeepsNamesWithMiddle(u: string, first: string, middle: string, last: string, clusters: seq<seq<string>>, cl: seq<string>)
    requires ClusterOf(clusters, u) == Some(cl) && cl[0] == u
    ensures CanonicalRow(OfficerWithMiddle(u, first, middle, last), clusters) == OfficerWithMiddle(u, first, middle, last)
  {
    assert OfficerWithMiddle(u, first, middle, last)["uid" := Str(u)] == OfficerWithMiddle(u, first, middle, last);
  }

  lemma LosesNames(u: string, r: Row, clusters: seq<seq<string>>, cl: seq<string>)
    requires Get(r, "uid") == Str(u) && ClusterOf(clusters, u) == Some(cl) && cl[0] != u
    requires r.Keys <= {"uid", "first_name", "middle_name", "last_name"}
    ensures CanonicalRow(r, clusters) == OfficerWithMiddle(cl[0], "", "", "")
  {
  }

  lemma BlankMiddle(u: string, columns: seq<string>)
    ensures FillRow(Officer(u, "", ""), columns) == FillRow(OfficerWithMiddle(u, "", "", ""), columns)
  {
    var a, b := FillRow(Officer(u, "", ""), columns), FillRow(OfficerWithMiddle(u, "", "", ""), columns);
    forall c | c in columns ensures a[c] == b[c] {
      if c == "middle_name" {
        assert c !in Officer(u, "", "");
      }
    }
  }

  const TestColumns: seq<string> := ["uid", "first_name", "last_name", "middle_name"]

  const TestOfficers: seq<Row> :=
    [Officer(Patric, "patric", "peterman"), Officer(Patrick, "patrick", "peterman"),
     Officer(Thomas, "thomas", "ferguson"), Officer(Ferguso, "thomas", "ferguso"),
     OfficerWithMiddle(Arthur, "arthur", "hesse", "schopenhaur"),
     OfficerWithMiddle(ArthurH, "arthur", "h", "schopenhaur")]

  const ExpectedOfficers: seq<Row> :=
    [Officer(Patrick, "", ""), Officer(Patrick, "patrick", "peterman"),
     Officer(Thomas, "thomas", "ferguson"), Officer(Thomas, "", ""),
     OfficerWithMiddle(Arthur, "arthur", "hesse", "schopenhaur"),
     OfficerWithMiddle(Arthur, "", "", "")]

  lemma CanonicalPatric()
    ensures CanonicalRow(Officer(Patric, "patric", "peterman"), TestClusters) == OfficerWithMiddle(Patrick, "", "", "")
  {
    TestUidsApart();
    TestClusterOf();
    LosesNames(Patric, Officer(Patric, "patric", "peterman"), TestClusters, [Patrick, Patric]);
  }

  lemma CanonicalPatrick()
    ensures CanonicalRow(Officer(Patrick, "patrick", "peterman"), TestClusters) == Officer(Patrick, "patrick", "peterman")
  {
    TestClusterOf();
    KeepsNames(Patrick, "patrick", "peterman", TestClusters, [Patrick, Patric]);
  }

  lemma CanonicalThomas()
    ensures CanonicalRow(Officer(Thomas, "thomas", "ferguson"), TestClusters) == Officer(Thomas, "thomas", "ferguson")
  {
    TestClusterOf();
    KeepsNames(Thomas, "thomas", "ferguson", TestClusters, [Thomas, Ferguso]);
  }

  lemma CanonicalFerguso()
    ensures CanonicalRow(Officer(Ferguso, "thomas", "ferguso"), TestClusters) == OfficerWithMiddle(Thomas, "", "", "")
  {
    TestUidsApart();
    TestClusterOf();
    LosesNames(Ferguso, Officer(Ferguso, "thomas", "ferguso"), TestClusters, [Thomas, Ferguso]);
  }

  lemma CanonicalArthur()
    ensures CanonicalRow(OfficerWithMiddle(Arthur, "arthur", "hesse", "schopenhaur"), TestClusters)
         == OfficerWithMiddle(Arthur, "arthur", "hesse", "schopenhaur")
  {
    TestClusterOf();
    KeepsNamesWithMiddle(Arthur, "arthur", "hesse", "schopenhaur", TestClusters, [Arthur, ArthurH]);
  }

  lemma CanonicalArthurH()
    ensures CanonicalRow(OfficerWithMiddle(ArthurH, "arthur", "h", "schopenhaur"), TestClusters) == OfficerWithMiddle(Arthur, "", "", "")
  {
    TestUidsApart();
    TestClusterOf();
    LosesNames(ArthurH, OfficerWithMiddle(ArthurH, "arthur", "h", "schopenhaur"), TestClusters, [Arthur, ArthurH]);
  }

  lemma CanonicalTestRow(i: nat)
    requires i < 6
    ensures FillRow(CanonicalRow(TestOfficers[i], TestClusters), TestColumns) == FillRow(ExpectedOfficers[i], TestColumns)
  {
    if i == 0 {
      CanonicalPatric();
      BlankMiddle(Patrick, TestColumns);
    } else if i == 1 {
      CanonicalPatrick();
    } else if i == 2 {
      CanonicalThomas();
    } else if i == 3 {
      CanonicalFerguso();
      BlankMiddle(Thomas, TestColumns);
    } else if i == 4 {
      CanonicalArthur();
    } else {
      CanonicalArthurH();
    }
  }

  /** `test_canonicalize_names`: each row takes its cluster's first uid; the
      rows that already had it keep their names, the others are blanked;
      six rows in, six rows out, in order. */
  lemma CanonicalizeTest()
    ensures FillBlank(Canonicalize(Table(TestColumns, TestOfficers), TestClusters))
         == FillBlank(Table(TestColumns, ExpectedOfficers))
  {
    var out := Canonicalize(Table(TestColumns, TestOfficers), TestClusters);
    var a, b := FillBlank(out), FillBlank(Table(TestColumns, ExpectedOfficers));
    forall i | 0 <= i < 6 ensures a.rows[i] == b.rows[i] {
      CanonicalTestRow(i);
    }
  }
}

=== FILE: clean_lsu.dfy ===
/** `clean/louisiana_state_university_hsc_no.py`: the LSU Health Sciences
    Center New Orleans PD roster, cut from the statewide roster. The
    rewrite matches only the start of the agency value, so the rest of it
    stays behind the new name. */
module CleanLouisianaStateUniversityHscNo {
  import opened Text
  import opened Tables
  import Rosters

  /** The agency value the roster is filtered on. */
  const Code := "univ. pd - lsuhsc - no"
  /** The value the rewrite looks for: a prefix of `Code`. */
  const Pattern := "univ. pd - lsu"
  const Name := "louisiana state university hsc no police department"
  /** What is left of `Code` after `Pattern`. */
  const Tail := "hsc - no"

  /** `clean_agency(df)` */
  method CleanAgency(df: Frame)
    requires "agency" in df.columns
    modifies df
    ensures df.Value() == WithColumn(old(df.Value()), "agency", Rosters.AgencyRenamed(Pattern, Name))
  {
    Rosters.CleanAgency(df, Pattern, Name);
  }

  /** `clean()`: `extract_roster` ignores the frame it is given and reads
      the statewide roster itself; that roster is the parameter here. */
  method Clean(roster: Table) returns (df: Frame)
    requires "agency" in roster.columns
    ensures fresh(df) && df.Value() == Rosters.Roster(roster, Code, Pattern, Name)
  {
    df := new Frame(Rosters.ExtractRoster(roster, Code));
    CleanAgency(df);
  }

  /** One row per roster row of the agency; each agency reads as the new
      name followed by the leftover `hsc - no`. */
  lemma CleanSpec(t: Table)
    requires "agency" in t.columns
    ensures var r := Rosters.Roster(t, Code, Pattern, Name);
      && |r.rows| == |Keep(t.rows, Rosters.AgencyIs(Code))|
      && (forall i | 0 <= i < |r.rows| :: Get(r.rows[i], "agency") == Str(Name + Tail))
      && (forall i | 0 <= i < |r.rows| :: Rosters.FromRoster(t, Code, r.rows[i]))
  {
    Rosters.RosterSpec(t, Code, Pattern, Name);
    assert Code == Pattern + Tail;
    Rosters.ReplacedPrefix(Pattern, Tail, Name);
  }

  /** The result spelled out. */
  lemma CleanedAgency()
    ensures Name + Tail == "louisiana state university hsc no police departmenthsc - no"
  {
  }

  /** The rewrite the script evidently means: the whole filtered value
      replaced by the name. */
  method CleanAgencyIntended(df: Frame)
    requires "agency" in df.columns
    modifies df
    ensures df.Value() == WithColumn(old(df.Value()), "agency", Rosters.AgencyRenamed(Code, Name))
  {
    Rosters.CleanAgency(df, Code, Name);
  }

  /** `clean()` with the intended rewrite. */
  method CleanIntended(roster: Table) returns (df: Frame)
    requires "agency" in roster.columns
    ensures fresh(df) && df.Value() == Rosters.Roster(roster, Code, Code, Name)
  {
    df := new Frame(Rosters.ExtractRoster(roster, Code));
    CleanAgencyIntended(df);
  }

  /** With the intended rewrite every agency is the name alone, and the
      rows are those of the written script. */
  lemma CleanIntendedSpec(t: Table)
    requires "agency" in t.columns
    ensures var r := Rosters.Roster(t, Code, Code, Name);
      && |r.rows| == |Keep(t.rows, Rosters.AgencyIs(Code))|
      && (forall i | 0 <= i < |r.rows| :: Get(r.rows[i], "agency") == Str(Name))
      && (forall i | 0 <= i < |r.rows| :: Rosters.FromRoster(t, Code, r.rows[i]))
      && |r.rows| == |Rosters.Roster(t, Code, Pattern, Name).rows|
  {
    Rosters.RosterSpec(t, Code, Code, Name);
    Rosters.RosterSpec(t, Code, Pattern, Name);
    ReplaceAllWhole(Code, Name);
  }
}

=== FILE: clean_madisonville.dfy ===
/** `clean/madisonville_pd_cprr.py`: the Madisonville PD complaint records.
    Each helper updates the frame in place. */
module CleanMadisonvillePdCprr {
  import opened Text
  import opened Tables

  // ---------------------------------------------------------------------
  // Positional column names

  /** The names `clean` gives the six columns, in their order. */
  const Names: seq<string> :=
    ["rank_desc", "last_name", "first_name", "occur_date", "tracking_number", "complainant_name"]

  /** One row under the new names: the cell of the `k`-th old column goes to
      the `k`-th new name. */
  function Positional(x: Row, columns: seq<string>): (y: Row)
    requires |columns| == |Names|
    ensures forall k | 0 <= k < |Names| :: Get(y, Names[k]) == Get(x, columns[k])
    ensures forall c | c !in Names :: Get(y, c) == Missing
  {
    map k | 0 <= k < |Names| :: Names[k] := Get(x, columns[k])
  }

  /** `df.columns = Names`: a frame without exactly six columns is refused
      (pandas raises on the length mismatch). */
  function NamedColumns(t: Table): (r: Option<Table>)
    ensures r.Some? <==> |t.columns| == |Names|
    ensures r.Some? ==> r.value.columns == Names && |r.value.rows| == |t.rows|
  {
    if |t.columns| != |Names| then None
    else Some(Table(Names, seq(|t.rows|, i requires 0 <= i < |t.rows| => Positional(t.rows[i], t.columns))))
  }

  /** The `k`-th column's cells keep their rows and move under the `k`-th
      name; no other column is left. */
  lemma NamedColumnsSpec(t: Table, i: nat, k: nat)
    requires |t.columns| == |Names| && i < |t.rows| && k < |Names|
    ensures Get(NamedColumns(t).value.rows[i], Names[k]) == Get(t.rows[i], t.columns[k])
    ensures forall c | c !in Names :: Get(NamedColumns(t).value.rows[i], c) == Missing
  {
  }

  // ---------------------------------------------------------------------
  // swap_names

  /** Row 0 with its first and last names exchanged. */
  function NamesSwapped(t: Table): Table
    requires |t.rows| > 0
  {
    var x := t.rows[0];
    WithCell(WithCell(t, 0, "first_name", Get(x, "last_name")), 0, "last_name", Get(x, "first_name"))
  }

  /** `swap_names(df)`: `df.loc[0, …]` raises on a frame without a row 0. */
  method SwapNames(df: Frame)
    requires |df.rows| > 0 && "first_name" in df.columns && "last_name" in df.columns
    modifies df
    ensures df.Value() == NamesSwapped(old(df.Value()))
  {
    var v := Get(df.rows[0], "first_name");
    df.SetCell(0, "first_name", Get(df.rows[0], "last_name"));
    df.SetCell(0, "last_name", v);
  }

  /** Only the two names of row 0 change, and they change places. */
  lemma SwapNamesSpec(t: Table)
    requires |t.rows| > 0
    ensures var r := NamesSwapped(t);
      && |r.rows| == |t.rows|
      && Get(r.rows[0], "first_name") == Get(t.rows[0], "last_name")
      && Get(r.rows[0], "last_name") == Get(t.rows[0], "first_name")
      && (forall j, c | 0 <= j < |t.rows| && (j != 0 || (c != "first_name" && c != "last_name")) ::
            Get(r.rows[j], c) == Get(t.rows[j], c))
  {
  }

  /** Swapping twice gives back every cell, and the columns too when the
      frame has both name columns. */
  lemma SwapTwice(t: Table)
    requires |t.rows| > 0
    ensures |NamesSwapped(NamesSwapped(t)).rows| == |t.rows|
    ensures forall j, c | 0 <= j < |t.rows| :: Get(NamesSwapped(NamesSwapped(t)).rows[j], c) == Get(t.rows[j], c)
    ensures "first_name" in t.columns && "last_name" in t.columns ==> NamesSwapped(NamesSwapped(t)).columns == t.columns
  {
    var once := NamesSwapped(t);
    SwapNamesSpec(t);
    SwapNamesSpec(once);
  }

  // ---------------------------------------------------------------------
  // extract_complainant_gender

  const Mahon := "Mr. Joe Mahon, Jr."

  /** `^Mr\.\s+` removed: `Mr.` and the run of whitespace after it. */
  function NoMister(s: string): string {
    if StartsWith(s, "Mr.") && |s| > 3 && s[3] in Whitespace then LStrip(s[3..], Whitespace) else s
  }

  /** A name that starts with `Mr.` and whitespace loses exactly those;
      any other name is unchanged. */
  lemma NoMisterSpec(s: string)
    ensures !(StartsWith(s, "Mr.") && |s| > 3 && s[3] in Whitespace) ==> NoMister(s) == s
    ensures StartsWith(s, "Mr.") && |s| > 3 && s[3] in Whitespace ==>
      exists k | 3 < k <= |s| :: NoMister(s) == s[k..]
        && (forall j | 3 <= j < k :: s[j] in Whitespace)
        && (k < |s| ==> s[k] !in Whitespace)
  {
    if StartsWith(s, "Mr.") && |s| > 3 && s[3] in Whitespace {
      var rest := s[3..];
      LStripShape(rest, Whitespace);
      var m :| 0 <= m <= |rest| && LStrip(rest, Whitespace) == rest[m..] && forall j | 0 <= j < m :: rest[j] in Whitespace;
      assert m > 0;
      var k := m + 3;
      assert NoMister(s) == s[k..];
      forall j | 3 <= j < k ensures s[j] in Whitespace {
        assert s[j] == rest[j - 3];
      }
      if k < |s| {
        assert LStrip(rest, Whitespace)[0] == s[k];
      }
    }
  }

  /** `Mr.` and one space before a word go. */
  lemma MisterDropped(r: string)
    requires r == [] || r[0] !in Whitespace
    ensures NoMister("Mr." + " " + r) == r
  {
    var s := "Mr." + " " + r;
    assert s[..3] == "Mr." && s[3] == ' ';
    assert s[3..] == [' '] + r;
    assert (s[3..])[1..] == r;
    assert LStrip(s[3..], Whitespace) == LStrip(r, Whitespace);
    assert LStrip(r, Whitespace) == r;
  }

  /** The one complainant with the title keeps the rest of the name. */
  lemma MahonStripped()
    ensures NoMister(Mahon) == "Joe Mahon, Jr."
  {
    assert Mahon == "Mr." + " " + "Joe Mahon, Jr.";
    MisterDropped("Joe Mahon, Jr.");
  }

  /** The value `complainant_sex` ends with: male for the one named
      complainant, female otherwise. */
  function SexOf(x: Row): Cell {
    if Get(x, "complainant_name") == Str(Mahon) then Str("male") else Str("female")
  }

  function MaleWhereMahon(x: Row): Cell {
    if Get(x, "complainant_name") == Str(Mahon) then Str("male") else Get(x, "complainant_sex")
  }

  function ComplainantNameOf(x: Row): Cell {
    OnStr(Get(x, "complainant_name"), NoMister)
  }

  function GenderExtracted(t: Table): Table {
    WithColumn(WithColumn(t, "complainant_sex", SexOf), "complainant_name", ComplainantNameOf)
  }

  /** `extract_complainant_gender(df)`: a default, an overwrite of the
      matching rows, then the title strip. */
  method ExtractComplainantGender(df: Frame)
    requires "complainant_name" in df.columns
    modifies df
    ensures df.Value() == GenderExtracted(old(df.Value()))
  {
    ghost var t := df.Value();
    df.SetColumn("complainant_sex", _ => Str("female"));
    df.SetColumn("complainant_sex", MaleWhereMahon);
    assert df.Value() == WithColumn(t, "complainant_sex", SexOf) by {
      var u := WithColumn(t, "complainant_sex", SexOf);
      assert df.columns == u.columns;
      forall i | 0 <= i < |t.rows| ensures df.rows[i] == u.rows[i] {
        assert Get(t.rows[i]["complainant_sex" := Str("female")], "complainant_name") == Get(t.rows[i], "complainant_name");
      }
    }
    df.SetColumn("complainant_name", ComplainantNameOf);
  }

  /** The sex is male exactly when the name, before the strip, is the one
      named complainant, and female otherwise; the name loses its title; no
      other column changes. */
  lemma ComplainantGenderSpec(t: Table, i: nat)
    requires i < |t.rows|
    ensures var x, y := t.rows[i], GenderExtracted(t).rows[i];
      && (Get(y, "complainant_sex") == Str("male") <==> Get(x, "complainant_name") == Str(Mahon))
      && (Get(y, "complainant_sex") == Str("female") <==> Get(x, "complainant_name") != Str(Mahon))
      && Get(y, "complainant_name") == OnStr(Get(x, "complainant_name"), NoMister)
      && (forall c | c != "complainant_sex" && c != "complainant_name" :: Get(y, c) == Get(x, c))
  {
  }

  // ---------------------------------------------------------------------
  // assign_agency

  /** `assign_agency(df)` */
  method AssignAgency(df: Frame)
    modifies df
    ensures df.Value() == Stamped(old(df.Value()), "2020", "Madisonville PD")
  {
    df.SetColumn("data_production_year", _ => Str("2020"));
    df.SetColumn("agency", _ => Str("Madisonville PD"));
  }
}

=== FILE: clean_new_orleans_csd.dfy ===
/** `clean/new_orleans_csd_pprr.py`: the New Orleans Civil Service personnel
    rosters of 2014 and 2009. Each year selects and renames its columns,
    makes its rank columns consistent, and stamps the year and agency. */
module CleanNewOrleansCsdPprr {
  import opened Text
  import opened Tables
  import opened Ordering
  import opened Matching
  import Columns

  // ---------------------------------------------------------------------
  // match_schema_2014, match_schema_2009

  /** The columns a schema keeps, in order, each under its old and its new
      name. */
  type Schema = seq<(string, string)>

  const Schema2014: Schema := [
    ("orgn_desc", "department_desc"), ("last_name", "last_name"), ("first_name", "first_name"),
    ("birth_date", "birth_date"), ("hire_date", "hire_date"), ("title_code", "rank_code"),
    ("title_desc", "rank_desc"), ("termination_date", "term_date"),
    ("pay_prog_start_date", "pay_prog_start_date"), ("annual_salary", "annual_salary")]

  const Schema2009: Schema := [
    ("orgn_desc", "department_desc"), ("last_name", "last_name"), ("first_name", "first_name"),
    ("titl_e_code", "rank_code"), ("title_desc", "rank_desc"), ("term_date", "term_date"),
    ("pay_prog_start_date", "pay_prog_start_date"), ("annual_salary", "annual_salary")]

  function NewNames(schema: Schema): seq<string> {
    seq(|schema|, k requires 0 <= k < |schema| => schema[k].1)
  }

  /** No two kept columns end up under the same name. */
  predicate Renaming(schema: Schema) {
    forall j, k | 0 <= j < k < |schema| :: schema[j].1 != schema[k].1
  }

  /** One row of `df[olds].rename(columns=…)`. */
  function Renamed(x: Row, schema: Schema): (y: Row)
    requires Renaming(schema)
    ensures forall k | 0 <= k < |schema| :: Get(y, schema[k].1) == Get(x, schema[k].0)
    ensures forall c | c in y :: c in NewNames(schema)
  {
    var y := map k | 0 <= k < |schema| :: schema[k].1 := Get(x, schema[k].0);
    assert forall c | c in y :: exists k | 0 <= k < |schema| :: schema[k].1 == c;
    forall c | c in y ensures c in NewNames(schema) {
      var k :| 0 <= k < |schema| && schema[k].1 == c;
      assert NewNames(schema)[k] == c;
    }
    y
  }

  /** `clean_column_names(df)[olds].rename(columns=…)`; `None` where pandas
      raises `KeyError` because a selected column is absent. */
  function MatchSchema(t: Table, schema: Schema): (r: Option<Table>)
    requires Renaming(schema)
    ensures var u := Columns.CleanColumnNames(t);
      && (r.Some? <==> forall k | 0 <= k < |schema| :: schema[k].0 in u.columns)
      && (r.Some? ==> r.value.columns == NewNames(schema) && |r.value.rows| == |t.rows|)
      && (r.Some? ==> forall i, k | 0 <= i < |t.rows| && 0 <= k < |schema| ::
            Get(r.value.rows[i], schema[k].1) == Get(u.rows[i], schema[k].0))
      && (r.Some? ==> forall i, c | 0 <= i < |t.rows| && c !in NewNames(schema) :: Get(r.value.rows[i], c) == Missing)
  {
    var u := Columns.CleanColumnNames(t);
    if forall k | 0 <= k < |schema| :: schema[k].0 in u.columns then
      Some(Table(NewNames(schema), seq(|u.rows|, i requires 0 <= i < |u.rows| => Renamed(u.rows[i], schema))))
    else
      None
  }

  /** The new names of `match_schema_2014` are distinct. */
  lemma Schema2014Renaming()
    ensures Renaming(Schema2014)
  {
  }

  /** `match_schema_2014`: ten columns in a fixed order, four of them
      renamed. */
  lemma Schema2014Shape()
    ensures NewNames(Schema2014) == ["department_desc", "last_name", "first_name", "birth_date", "hire_date",
                                     "rank_code", "rank_desc", "term_date", "pay_prog_start_date", "annual_salary"]
    ensures |set k | 0 <= k < |Schema2014| && Schema2014[k].0 != Schema2014[k].1| == 4
  {
    assert (set k | 0 <= k < |Schema2014| && Schema2014[k].0 != Schema2014[k].1) == {0, 5, 6, 7};
  }

  /** The new names of `match_schema_2009` are distinct. */
  lemma Schema2009Renaming()
    ensures Renaming(Schema2009)
  {
  }

  /** `match_schema_2009`: eight columns in a fixed order, three of them
      renamed. */
  lemma Schema2009Shape()
    ensures NewNames(Schema2009) == ["department_desc", "last_name", "first_name", "rank_code", "rank_desc",
                                     "term_date", "pay_prog_start_date", "annual_salary"]
    ensures |set k | 0 <= k < |Schema2009| && Schema2009[k].0 != Schema2009[k].1| == 3
  {
    assert (set k | 0 <= k < |Schema2009| && Schema2009[k].0 != Schema2009[k].1) == {0, 3, 4};
  }

  // ---------------------------------------------------------------------
  // standardize_rank_2014

  /** A row of `df[["rank_code", "rank_desc"]]`. */
  function RankEntry(x: Row): Row {
    map["rank_code" := Get(x, "rank_code"), "rank_desc" := Get(x, "rank_desc")]
  }

  function RankEntries(rows: seq<Row>): (r: seq<Row>)
    ensures |r| == |rows|
    ensures forall i | 0 <= i < |rows| :: r[i] == RankEntry(rows[i])
  {
    seq(|rows|, i requires 0 <= i < |rows| => RankEntry(rows[i]))
  }

  function TidyText(s: string): string {
    Lower(Strip(s))
  }

  /** `.str.strip().str.lower()` */
  function Tidy(c: Cell): Cell {
    OnStr(c, TidyText)
  }

  function TidyEntry(e: Row): Row {
    e["rank_desc" := Tidy(Get(e, "rank_desc"))]
  }

  function TidyEntries(ranks: seq<Row>): (r: seq<Row>)
    ensures |r| == |ranks|
    ensures forall i | 0 <= i < |ranks| :: r[i] == TidyEntry(ranks[i])
  {
    seq(|ranks|, i requires 0 <= i < |ranks| => TidyEntry(ranks[i]))
  }

  /** `c` is among `ranks[ranks.rank_code.duplicated()].rank_code`: at
      least two entries carry it. */
  predicate Repeated(ranks: seq<Row>, c: Cell) {
    exists i, j | 0 <= i < j < |ranks| :: Get(ranks[i], "rank_code") == c && Get(ranks[j], "rank_code") == c
  }

  /** The entries the `"DEFAULT"` filter would drop. */
  predicate IsDefault(ranks: seq<Row>, e: Row) {
    Repeated(ranks, Get(e, "rank_code")) && Get(e, "rank_desc") == Str("DEFAULT")
  }

  /** `ranks.drop(index=…)` of the entries `IsDefault` picks. */
  function DropDefaults(ranks: seq<Row>): seq<Row> {
    Keep(ranks, e => !IsDefault(ranks, e))
  }

  /** `ranks.set_index("rank_code").rank_desc` as the pairs `to_dict` reads,
      or, keyed the other way, `ranks.set_index("rank_desc").rank_code`. */
  function Pairs(ranks: seq<Row>, key: string, value: string): (r: seq<(Cell, Cell)>)
    ensures |r| == |ranks|
    ensures forall i | 0 <= i < |ranks| :: r[i] == (Get(ranks[i], key), Get(ranks[i], value))
  {
    seq(|ranks|, i requires 0 <= i < |ranks| => (Get(ranks[i], key), Get(ranks[i], value)))
  }

  /** The rank table of 2014: distinct (code, desc) entries sorted by code,
      descriptions tidied, `"DEFAULT"` entries of repeated codes dropped. */
  function Ranks2014(t: Table): seq<Row> {
    DropDefaults(TidyEntries(SortBy(["rank_code"], Distinct(RankEntries(t.rows)))))
  }

  /** `df.rank_code.map(lambda x: ranks_map[x])`; the missing case never
      arises (`RankCodesMapped`). */
  function DescFor(pairs: seq<(Cell, Cell)>): Row -> Cell {
    x => match LastMatch(pairs, Get(x, "rank_code")) case Some(d) => d case None => Missing
  }

  function StandardizedRank2014(t: Table): Table {
    WithColumn(t, "rank_desc", DescFor(Pairs(Ranks2014(t), "rank_code", "rank_desc")))
  }

  /** `standardize_rank_2014(df)` */
  method StandardizeRank2014(df: Frame)
    requires "rank_code" in df.columns && "rank_desc" in df.columns
    modifies df
    ensures df.Value() == StandardizedRank2014(old(df.Value()))
  {
    var ranks := Ranks2014(df.Value());
    df.SetColumn("rank_desc", DescFor(Pairs(ranks, "rank_code", "rank_desc")));
  }

  /** A lower-cased string has no upper-case letter, so it is never
      `"DEFAULT"`. */
  lemma TidyNotDefault(c: Cell)
    ensures Tidy(c) != Str("DEFAULT")
  {
    if c.Str? {
      var l := TidyText(c.s);
      if |l| == 7 {
        assert l[0] == LowerChar(Strip(c.s)[0]) != 'D';
      }
    }
  }

  /** The `"DEFAULT"` filter compares tidied, hence lower-case, descriptions
      with an upper-case literal: it drops nothing. */
  lemma DefaultFilterInert(ranks: seq<Row>)
    ensures DropDefaults(TidyEntries(ranks)) == TidyEntries(ranks)
  {
    var tidy := TidyEntries(ranks);
    forall e | e in tidy ensures !IsDefault(tidy, e) {
      var i :| 0 <= i < |tidy| && tidy[i] == e;
      TidyNotDefault(Get(ranks[i], "rank_desc"));
    }
    KeepAll(tidy, e => !IsDefault(tidy, e));
  }

  /** Every row's entry survives into the 2014 rank table, tidied. */
  lemma EntryRanked2014(t: Table, i: nat)
    requires i < |t.rows|
    ensures TidyEntry(RankEntry(t.rows[i])) in Ranks2014(t)
  {
    var entries := RankEntries(t.rows);
    var sorted := SortBy(["rank_code"], Distinct(entries));
    assert entries[i] in Distinct(entries);
    assert entries[i] in multiset(sorted);
    var k :| 0 <= k < |sorted| && sorted[k] == entries[i];
    DefaultFilterInert(sorted);
    assert TidyEntries(sorted)[k] == TidyEntry(entries[i]);
  }

  /** Every entry of the 2014 rank table is a tidied entry of some row. */
  lemma RankedEntry2014(t: Table, e: Row)
    requires e in Ranks2014(t)
    ensures exists j | 0 <= j < |t.rows| :: e == TidyEntry(RankEntry(t.rows[j]))
  {
    var entries := RankEntries(t.rows);
    var sorted := SortBy(["rank_code"], Distinct(entries));
    DefaultFilterInert(sorted);
    var k :| 0 <= k < |sorted| && TidyEntries(sorted)[k] == e;
    assert sorted[k] in multiset(Distinct(entries));
    assert sorted[k] in entries;
    var j :| 0 <= j < |entries| && entries[j] == sorted[k];
  }

  /** `ranks_map[x]` never raises: every code of the frame is a key. */
  lemma RankCodesMapped(t: Table, i: nat)
    requires i < |t.rows|
    ensures LastMatch(Pairs(Ranks2014(t), "rank_code", "rank_desc"), Get(t.rows[i], "rank_code")).Some?
  {
    var ranks := Ranks2014(t);
    EntryRanked2014(t, i);
    var k :| 0 <= k < |ranks| && ranks[k] == TidyEntry(RankEntry(t.rows[i]));
    assert Pairs(ranks, "rank_code", "rank_desc")[k].0 == Get(t.rows[i], "rank_code");
  }

  /** After `standardize_rank_2014`, `rank_code` determines `rank_desc`, each
      description is the tidied form of one that appeared with the code, and
      no other column changes. */
  lemma StandardizeRank2014Spec(t: Table, i: nat)
    requires i < |t.rows|
    ensures var r := StandardizedRank2014(t);
      && |r.rows| == |t.rows|
      && (forall j | 0 <= j < |t.rows| && Get(t.rows[j], "rank_code") == Get(t.rows[i], "rank_code") ::
            Get(r.rows[j], "rank_desc") == Get(r.rows[i], "rank_desc"))
      && (exists j | 0 <= j < |t.rows| :: Get(t.rows[j], "rank_code") == Get(t.rows[i], "rank_code")
            && Get(r.rows[i], "rank_desc") == Tidy(Get(t.rows[j], "rank_desc")))
      && (forall c | c != "rank_desc" :: Get(r.rows[i], c) == Get(t.rows[i], c))
  {
    var ranks := Ranks2014(t);
    var pairs := Pairs(ranks, "rank_code", "rank_desc");
    var code := Get(t.rows[i], "rank_code");
    RankCodesMapped(t, i);
    var k := LastMatchAt(pairs, code);
    RankedEntry2014(t, ranks[k]);
    var j :| 0 <= j < |t.rows| && ranks[k] == TidyEntry(RankEntry(t.rows[j]));
    assert Get(t.rows[j], "rank_code") == code;
  }

  // ---------------------------------------------------------------------
  // standardize_rank_2009

  predicate HasCode(x: Row) { Get(x, "rank_code") != Missing }

  /** `df.loc[df.rank_code.notna(), ["rank_code", "rank_desc"]]`, without
      duplicates, sorted by code. */
  function Ranks2009(t: Table): seq<Row> {
    SortBy(["rank_code"], Distinct(RankEntries(Keep(t.rows, HasCode))))
  }

  /** `df.rank_code.where(df.rank_code.notna(), df.rank_desc.map(lambda x:
      desc_map.get(x, np.nan)))` */
  function CodeFor(pairs: seq<(Cell, Cell)>): Row -> Cell {
    x => if HasCode(x) then Get(x, "rank_code")
         else match LastMatch(pairs, Get(x, "rank_desc")) case Some(c) => c case None => Missing
  }

  function TidyDesc(x: Row): Cell {
    Tidy(Get(x, "rank_desc"))
  }

  function StandardizedRank2009(t: Table): Table {
    var coded := WithColumn(t, "rank_code", CodeFor(Pairs(Ranks2009(t), "rank_desc", "rank_code")));
    WithColumn(coded, "rank_desc", TidyDesc)
  }

  /** `standardize_rank_2009(df)` */
  method StandardizeRank2009(df: Frame)
    requires "rank_code" in df.columns && "rank_desc" in df.columns
    modifies df
    ensures df.Value() == StandardizedRank2009(old(df.Value()))
  {
    var ranks := Ranks2009(df.Value());
    df.SetColumn("rank_code", CodeFor(Pairs(ranks, "rank_desc", "rank_code")));
    df.SetColumn("rank_desc", TidyDesc);
  }

  /** Every entry of the 2009 rank table comes from a row with a code. */
  lemma Ranked2009(t: Table, e: Row)
    requires e in Ranks2009(t)
    ensures exists j | 0 <= j < |t.rows| :: HasCode(t.rows[j]) && e == RankEntry(t.rows[j])
  {
    var coded := Keep(t.rows, HasCode);
    var entries := RankEntries(coded);
    assert e in multiset(Ranks2009(t));
    assert e in entries;
    var k :| 0 <= k < |entries| && entries[k] == e;
    KeepHas(t.rows, HasCode, coded[k]);
    var j :| 0 <= j < |t.rows| && t.rows[j] == coded[k];
  }

  /** Where a coded row's entry sits in the 2009 rank table. */
  lemma EntryIndex2009(t: Table, j: nat) returns (m: nat)
    requires j < |t.rows| && HasCode(t.rows[j])
    ensures m < |Ranks2009(t)| && Ranks2009(t)[m] == RankEntry(t.rows[j])
  {
    var coded := Keep(t.rows, HasCode);
    var entries := RankEntries(coded);
    KeepHas(t.rows, HasCode, t.rows[j]);
    var k :| 0 <= k < |coded| && coded[k] == t.rows[j];
    assert entries[k] in Distinct(entries);
    assert entries[k] in multiset(Ranks2009(t));
    m :| 0 <= m < |Ranks2009(t)| && Ranks2009(t)[m] == RankEntry(t.rows[j]);
  }

  /** In a table sorted by code, a later entry has a code at least as
      great. */
  lemma LaterCode(ranks: seq<Row>, m: nat, k: nat)
    requires SortedBy(["rank_code"], ranks) && m <= k < |ranks|
    ensures CellLe(Get(ranks[m], "rank_code"), Get(ranks[k], "rank_code"))
  {
    if m < k {
      assert RowLe(["rank_code"], ranks[m], ranks[k]);
    } else {
      CellLeTotal(Get(ranks[m], "rank_code"), Get(ranks[m], "rank_code"));
    }
  }

  /** The code `desc_map` gives a description is the greatest code that
      appeared with it: the last entry for it in code order. */
  lemma DescMapGreatest(t: Table, desc: Cell, j: nat)
    requires j < |t.rows| && HasCode(t.rows[j]) && Get(t.rows[j], "rank_desc") == desc
    ensures LastMatch(Pairs(Ranks2009(t), "rank_desc", "rank_code"), desc).Some?
    ensures CellLe(Get(t.rows[j], "rank_code"), LastMatch(Pairs(Ranks2009(t), "rank_desc", "rank_code"), desc).value)
  {
    var ranks := Ranks2009(t);
    var pairs := Pairs(ranks, "rank_desc", "rank_code");
    var m := EntryIndex2009(t, j);
    assert pairs[m].0 == desc;
    var k := LastMatchAt(pairs, desc);
    LaterCode(ranks, m, k);
  }

  /** The code a row without one receives: the greatest code that appeared
      with its description, or none when no coded row has that
      description. */
  lemma FilledCode(t: Table, x: Row)
    requires !HasCode(x)
    ensures var v := CodeFor(Pairs(Ranks2009(t), "rank_desc", "rank_code"))(x);
      && (v == Missing <==>
            forall j | 0 <= j < |t.rows| && HasCode(t.rows[j]) :: Get(t.rows[j], "rank_desc") != Get(x, "rank_desc"))
      && (v != Missing ==>
            exists j | 0 <= j < |t.rows| :: HasCode(t.rows[j]) && Get(t.rows[j], "rank_desc") == Get(x, "rank_desc")
              && Get(t.rows[j], "rank_code") == v)
      && (forall j | 0 <= j < |t.rows| && HasCode(t.rows[j]) && Get(t.rows[j], "rank_desc") == Get(x, "rank_desc") ::
            CellLe(Get(t.rows[j], "rank_code"), v))
  {
    var ranks := Ranks2009(t);
    var pairs := Pairs(ranks, "rank_desc", "rank_code");
    var desc := Get(x, "rank_desc");
    forall j | 0 <= j < |t.rows| && HasCode(t.rows[j]) && Get(t.rows[j], "rank_desc") == desc
      ensures CellLe(Get(t.rows[j], "rank_code"), CodeFor(pairs)(x))
    {
      DescMapGreatest(t, desc, j);
    }
    if LastMatch(pairs, desc).Some? {
      var k := LastMatchAt(pairs, desc);
      Ranked2009(t, ranks[k]);
      var j :| 0 <= j < |t.rows| && HasCode(t.rows[j]) && ranks[k] == RankEntry(t.rows[j]);
      assert Get(t.rows[j], "rank_code") == CodeFor(pairs)(x) != Missing;
    } else {
      forall j | 0 <= j < |t.rows| && HasCode(t.rows[j]) ensures Get(t.rows[j], "rank_desc") != desc {
        if Get(t.rows[j], "rank_desc") == desc {
          DescMapGreatest(t, desc, j);
        }
      }
    }
  }

  /** After `standardize_rank_2009`: a present code is kept; a missing one
      takes the greatest code that appeared with the same (untidied)
      description, and stays missing when there is none; the description is
      tidied after the lookup; no other column changes. */
  lemma StandardizeRank2009Spec(t: Table, i: nat)
    requires i < |t.rows|
    ensures var r := StandardizedRank2009(t); var x, y := t.rows[i], r.rows[i];
      && |r.rows| == |t.rows|
      && (HasCode(x) ==> Get(y, "rank_code") == Get(x, "rank_code"))
      && (!HasCode(x) ==>
            (Get(y, "rank_code") == Missing <==>
               forall j | 0 <= j < |t.rows| && HasCode(t.rows[j]) :: Get(t.rows[j], "rank_desc") != Get(x, "rank_desc")))
      && (!HasCode(x) && Get(y, "rank_code") != Missing ==>
            exists j | 0 <= j < |t.rows| :: HasCode(t.rows[j]) && Get(t.rows[j], "rank_desc") == Get(x, "rank_desc")
              && Get(t.rows[j], "rank_code") == Get(y, "rank_code"))
      && (!HasCode(x) ==>
            forall j | 0 <= j < |t.rows| && HasCode(t.rows[j]) && Get(t.rows[j], "rank_desc") == Get(x, "rank_desc") ::
              CellLe(Get(t.rows[j], "rank_code"), Get(y, "rank_code")))
      && Get(y, "rank_desc") == Tidy(Get(x, "rank_desc"))
      && (forall c | c != "rank_code" && c != "rank_desc" :: Get(y, c) == Get(x, c))
  {
    var x, y := t.rows[i], StandardizedRank2009(t).rows[i];
    assert Get(y, "rank_code") == CodeFor(Pairs(Ranks2009(t), "rank_desc", "rank_code"))(x);
    if !HasCode(x) {
      FilledCode(t, x);
    }
  }

  // ---------------------------------------------------------------------
  // assign_cols_2014, assign_cols_2009

  const Agency := "New Orleans CSD"

  /** `assign_cols_2014(df)` */
  method AssignCols2014(df: Frame)
    modifies df
    ensures df.Value() == Stamped(old(df.Value()), "2014", Agency)
  {
    df.SetColumn("data_production_year", _ => Str("2014"));
    df.SetColumn("agency", _ => Str(Agency));
  }

  /** `assign_cols_2009(df)` */
  method AssignCols2009(df: Frame)
    modifies df
    ensures df.Value() == Stamped(old(df.Value()), "2009", Agency)
  {
    df.SetColumn("data_production_year", _ => Str("2009"));
    df.SetColumn("agency", _ => Str(Agency));
  }
}

=== FILE: clean_nunez.dfy ===
/** `clean/nunez_community_college_pd.py`: the Nunez Community College PD roster, cut from the statewide
    roster. */
module CleanNunezCommunityCollegePd {
  import opened Text
  import opened Tables
  import Rosters

  /** The agency value the roster is filtered on and rewritten from. */
  const Code := "univ. pd - nunez cc"
  const Name := "nunez community college police department"

  /** `clean_agency(df)` */
  method CleanAgency(df: Frame)
    requires "agency" in df.columns
    modifies df
    ensures df.Value() == WithColumn(old(df.Value()), "agency", Rosters.AgencyRenamed(Code, Name))
  {
    Rosters.CleanAgency(df, Code, Name);
  }

  /** `clean()` on the roster as read: `extract_roster` then
      `clean_agency`. */
  method Clean(roster: Table) returns (df: Frame)
    requires "agency" in roster.columns
    ensures fresh(df) && df.Value() == Rosters.Roster(roster, Code, Code, Name)
  {
    df := new Frame(Rosters.ExtractRoster(roster, Code));
    CleanAgency(df);
  }

  /** One row per roster row of the agency, each naming it in full and
      otherwise as it was. */
  lemma CleanSpec(t: Table)
    requires "agency" in t.columns
    ensures var r := Rosters.Roster(t, Code, Code, Name);
      && |r.rows| == |Keep(t.rows, Rosters.AgencyIs(Code))|
      && (forall i | 0 <= i < |r.rows| :: Get(r.rows[i], "agency") == Str(Name))
      && (forall i | 0 <= i < |r.rows| :: Rosters.FromRoster(t, Code, r.rows[i]))
  {
    Rosters.RosterSpec(t, Code, Code, Name);
    ReplaceAllWhole(Code, Name);
  }
}

=== FILE: clean_plaquemines.dfy ===
/** `clean/plaquemines_so_cprr.py`: the Plaquemines SO complaint records.
    Rows naming several officers (or several charges) are split into one
    row per officer (per charge), names are split into their parts by
    position and length, and a few literal fixes are applied. */
module CleanPlaqueminesSo {
  import opened Text
  import opened Tables
  import opened Sequences

  // ---------------------------------------------------------------------
  // gen_middle_initial

  /** `middle_name` after the missing ones are taken from `middle_initial`. */
  function FilledMiddle(x: Row): Cell {
    if Get(x, "middle_name").Missing? then Get(x, "middle_initial") else Get(x, "middle_name")
  }

  /** `middle_name.fillna('').map(lambda x: x[:1])` for one row. */
  function MiddleInitialOf(x: Row): Cell {
    match Get(x, "middle_name")
    case Str(s) => Str(Initial(s))
    case Missing => Str("")
    case _ => Missing
  }

  /** What `x[:1]` needs: the middle name, once filled, is a string or NaN.
      The middle initial is read only where the middle name is NaN. */
  predicate NamedMiddles(t: Table) {
    forall x | x in t.rows :: NameCell(FilledMiddle(x))
  }

  /** The frame after `gen_middle_initial`: a missing middle name is taken
      from the middle initial, and the middle initial becomes the first
      character of the middle name (`''` when there is none). */
  function MiddleInitialsGenerated(t: Table): (r: Table)
    requires NamedMiddles(t)
    ensures |r.rows| == |t.rows|
    ensures forall c | c in t.columns :: c in r.columns
    ensures forall i | 0 <= i < |t.rows| ::
      var x, y := t.rows[i], r.rows[i];
      && Get(y, "middle_name") == (if Get(x, "middle_name").Missing? then Get(x, "middle_initial") else Get(x, "middle_name"))
      && Get(y, "middle_initial").Str? && |Get(y, "middle_initial").s| <= 1
      && (Get(y, "middle_initial").s == "" <==> Get(y, "middle_name") in {Missing, Str("")})
      && (Get(y, "middle_name").Str? ==> StartsWith(Get(y, "middle_name").s, Get(y, "middle_initial").s))
    ensures forall i, c | 0 <= i < |t.rows| && c !in {"middle_name", "middle_initial"} ::
      Get(r.rows[i], c) == Get(t.rows[i], c)
  {
    var m := WithColumn(t, "middle_name", FilledMiddle);
    assert forall i | 0 <= i < |t.rows| :: NameCell(Get(m.rows[i], "middle_name")) by {
      forall i | 0 <= i < |t.rows| ensures NameCell(Get(m.rows[i], "middle_name")) {
        assert t.rows[i] in t.rows;
      }
    }
    WithColumn(m, "middle_initial", MiddleInitialOf)
  }

  /** `gen_middle_initial(df)`, in place. */
  method GenMiddleInitial(df: Frame)
    requires "middle_name" in df.columns && "middle_initial" in df.columns
    requires NamedMiddles(df.Value())
    modifies df
    ensures df.Value() == MiddleInitialsGenerated(old(df.Value()))
  {
    df.SetColumn("middle_name", FilledMiddle);
    df.SetColumn("middle_initial", MiddleInitialOf);
  }

  // ---------------------------------------------------------------------
  // Splitting one row into several

  /** `df[col].str.contains(c)` for one row. */
  predicate HasSep(x: Row, col: string, c: char) {
    Get(x, col).Str? && c in Get(x, col).s
  }

  /** How many rows `x` becomes. */
  function PartCount(x: Row, col: string, c: char): nat {
    if Get(x, col).Str? then Count(Get(x, col).s, c) + 1 else 1
  }

  /** The rows that replace `x`: one copy per piece of its `col`, each holding
      that piece; a row without the separator stays as it is. */
  function Pieces(x: Row, col: string, c: char): (r: seq<Row>)
    ensures |r| == PartCount(x, col, c)
    ensures forall k | 0 <= k < |r| :: !HasSep(r[k], col, c)
    ensures forall k, d | 0 <= k < |r| && d != col :: Get(r[k], d) == Get(x, d)
  {
    if HasSep(x, col, c) then
      var parts := SplitAbsorbing(Get(x, col).s, c);
      seq(|parts|, k requires 0 <= k < |parts| => x[col := Str(parts[k])])
    else if Get(x, col).Str? then
      CountAbsent(Get(x, col).s, c);
      [x]
    else [x]
  }

  /** The function `Expand` applies to each row. */
  function PiecesOf(col: string, c: char): Row -> seq<Row> {
    x => Pieces(x, col, c)
  }

  /** Every row replaced by its pieces, in order. */
  function Expand(rows: seq<Row>, col: string, c: char): seq<Row> {
    FlatMap(rows, PiecesOf(col, c))
  }

  function TotalParts(rows: seq<Row>, col: string, c: char): nat
    decreases |rows|
  {
    if rows == [] then 0 else PartCount(rows[0], col, c) + TotalParts(rows[1..], col, c)
  }

  /** The first row's pieces, then the rest expanded. */
  lemma ExpandCons(rows: seq<Row>, col: string, c: char)
    requires rows != []
    ensures Expand(rows, col, c) == Pieces(rows[0], col, c) + Expand(rows[1..], col, c)
  {
    assert PiecesOf(col, c)(rows[0]) == Pieces(rows[0], col, c);
  }

  /** The output has one row per piece: the sum of the part counts. */
  lemma {:induction false} ExpandLength(rows: seq<Row>, col: string, c: char)
    ensures |Expand(rows, col, c)| == TotalParts(rows, col, c)
    decreases |rows|
  {
    if rows != [] {
      ExpandCons(rows, col, c);
      ExpandLength(rows[1..], col, c);
    }
  }

  /** No output row has the separator left in `col`, and every output row
      agrees with some input row outside `col`. */
  lemma {:induction false} ExpandSpec(rows: seq<Row>, col: string, c: char)
    ensures forall y | y in Expand(rows, col, c) :: !HasSep(y, col, c)
    ensures forall y | y in Expand(rows, col, c) ::
      exists x | x in rows :: forall d | d != col :: Get(y, d) == Get(x, d)
    decreases |rows|
  {
    if rows != [] {
      var first, rest := rows[0], rows[1..];
      ExpandCons(rows, col, c);
      ExpandSpec(rest, col, c);
      forall y | y in Expand(rows, col, c)
        ensures !HasSep(y, col, c)
        ensures exists x | x in rows :: forall d | d != col :: Get(y, d) == Get(x, d)
      {
        if y in Expand(rest, col, c) {
          var x :| x in rest && forall d | d != col :: Get(y, d) == Get(x, d);
          assert x in rows;
        } else {
          assert y in Pieces(first, col, c);
          assert first in rows;
        }
      }
    }
  }

  /** The positions `df[df[col].str.contains(c)].index`, increasing. */
  function Hits(rows: seq<Row>, col: string, c: char): (r: seq<nat>)
    ensures forall q | 0 <= q < |r| :: r[q] < |rows| && HasSep(rows[r[q]], col, c)
    ensures forall q, q' | 0 <= q < q' < |r| :: r[q] < r[q']
    decreases |rows|
  {
    if rows == [] then []
    else
      var n := |rows| - 1;
      var front := Hits(rows[..n], col, c);
      assert forall k | 0 <= k < n :: rows[..n][k] == rows[k];
      front + (if HasSep(rows[n], col, c) then [n] else [])
  }

  /** `lib.rows.duplicate_row(df, pos, n)`: row `pos` repeated `n` times in
      its place. */
  function DuplicateRow(rows: seq<Row>, pos: nat, n: nat): (r: seq<Row>)
    requires pos < |rows|
    ensures |r| == |rows| + n - 1
  {
    rows[..pos] + seq(n, _ => rows[pos]) + rows[pos + 1..]
  }

  /** A position is a hit exactly when its row holds the separator. */
  lemma {:induction false} HitsExact(rows: seq<Row>, col: string, c: char, k: nat)
    requires k < |rows|
    ensures (k in Hits(rows, col, c)) == HasSep(rows[k], col, c)
    decreases |rows|
  {
    var n := |rows| - 1;
    var front := Hits(rows[..n], col, c);
    assert Hits(rows, col, c) == front + (if HasSep(rows[n], col, c) then [n] else []);
    if k < n {
      HitsExact(rows[..n], col, c, k);
      assert rows[..n][k] == rows[k];
    } else {
      assert forall q | 0 <= q < |front| :: front[q] != k;
    }
  }

  /** The rows between two consecutive hits have no separator. */
  lemma NoHitBetween(rows: seq<Row>, col: string, c: char, hits: seq<nat>, m: nat, p: nat)
    requires hits == Hits(rows, col, c) && m < |hits|
    requires p == if m == 0 then 0 else hits[m - 1] + 1
    ensures p <= hits[m]
    ensures forall k | p <= k < hits[m] :: !HasSep(rows[k], col, c)
  {
    forall k | p <= k < hits[m] ensures !HasSep(rows[k], col, c) {
      forall q | 0 <= q < |hits| ensures hits[q] != k {
        if q < m {
          assert hits[q] <= hits[m - 1];
        } else if q > m {
          assert hits[m] < hits[q];
        }
      }
      HitsExact(rows, col, c, k);
    }
  }

  /** The rows after the last hit have no separator. */
  lemma NoHitAfter(rows: seq<Row>, col: string, c: char, hits: seq<nat>, p: nat)
    requires hits == Hits(rows, col, c)
    requires p == if |hits| == 0 then 0 else hits[|hits| - 1] + 1
    ensures p <= |rows|
    ensures forall k | p <= k < |rows| :: !HasSep(rows[k], col, c)
  {
    forall k | p <= k < |rows| ensures !HasSep(rows[k], col, c) {
      forall q | 0 <= q < |hits| ensures hits[q] != k {
        if q < |hits| - 1 {
          assert hits[q] < hits[|hits| - 1];
        }
      }
      HitsExact(rows, col, c, k);
    }
  }

  /** Replacing the copies at `pos` one piece at a time. */
  method WritePieces(rows: seq<Row>, pos: nat, x: Row, col: string, parts: seq<string>) returns (out: seq<Row>)
    requires pos + |parts| <= |rows|
    requires forall k | pos <= k < pos + |parts| :: rows[k] == x
    ensures out == rows[..pos] + seq(|parts|, k requires 0 <= k < |parts| => x[col := Str(parts[k])]) + rows[pos + |parts|..]
  {
    out := rows;
    var j := 0;
    while j < |parts|
      invariant 0 <= j <= |parts| && |out| == |rows|
      invariant forall k | 0 <= k < |rows| && !(pos <= k < pos + j) :: out[k] == rows[k]
      invariant forall k | 0 <= k < j :: out[pos + k] == x[col := Str(parts[k])]
    {
      out := out[pos + j := out[pos + j][col := Str(parts[j])]];
      j := j + 1;
    }
    var want := rows[..pos] + seq(|parts|, k requires 0 <= k < |parts| => x[col := Str(parts[k])]) + rows[pos + |parts|..];
    assert |out| == |want|;
    forall k | 0 <= k < |out| ensures out[k] == want[k] {
      if pos <= k < pos + |parts| {
        assert out[pos + (k - pos)] == x[col := Str(parts[k - pos])];
      }
    }
  }

  /** Rows without the separator are left alone by `PiecesOf`. */
  lemma PlainFixed(src: seq<Row>, col: string, c: char, lo: int, hi: int)
    requires forall k | lo <= k < hi && 0 <= k < |src| :: !HasSep(src[k], col, c)
    ensures FixedOn(src, PiecesOf(col, c), lo, hi)
  {
    forall k | lo <= k < hi && 0 <= k < |src|
      ensures PiecesOf(col, c)(src[k]) == [src[k]]
    {
      assert !HasSep(src[k], col, c);
    }
  }

  /** The first row after the `m`-th hit. */
  function Start(hits: seq<nat>, m: nat): nat
    requires m <= |hits|
  {
    if m == 0 then 0 else hits[m - 1] + 1
  }

  /** The loop invariant: the first `m` hits are done. */
  ghost predicate Progress(src: seq<Row>, col: string, c: char, hits: seq<nat>, m: nat, rows: seq<Row>, i: int) {
    hits == Hits(src, col, c) && m <= |hits| && Done(src, PiecesOf(col, c), Start(hits, m), rows, i)
  }

  /** Before the first hit nothing is done. */
  lemma SplitStart(src: seq<Row>, col: string, c: char, hits: seq<nat>)
    requires hits == Hits(src, col, c)
    ensures Progress(src, col, c, hits, 0, src, 0)
  {
    DoneStart(src, PiecesOf(col, c));
  }

  /** The `m`-th hit sits at its shifted position `hits[m] + i`. */
  lemma HitFound(src: seq<Row>, col: string, c: char, hits: seq<nat>, m: nat, cur: seq<Row>, i: int)
    requires m < |hits| && Progress(src, col, c, hits, m, cur, i)
    ensures 0 <= hits[m] + i < |cur| && cur[hits[m] + i] == src[hits[m]]
    ensures HasSep(src[hits[m]], col, c)
  {
    var p := Start(hits, m);
    NoHitBetween(src, col, c, hits, m, p);
    PlainFixed(src, col, c, p, hits[m]);
    DoneFound(src, PiecesOf(col, c), p, hits[m], cur, i);
  }

  /** The rows between the previous hit and the `m`-th are left alone. */
  lemma BeforeHitFixed(src: seq<Row>, col: string, c: char, hits: seq<nat>, m: nat)
    requires m < |hits| && hits == Hits(src, col, c)
    ensures Start(hits, m) <= hits[m] < |src|
    ensures FixedOn(src, PiecesOf(col, c), Start(hits, m), hits[m])
  {
    NoHitBetween(src, col, c, hits, m, Start(hits, m));
    PlainFixed(src, col, c, Start(hits, m), hits[m]);
  }

  /** Replacing the `m`-th hit by its pieces completes one more hit. */
  lemma HitSpliced(src: seq<Row>, col: string, c: char, hits: seq<nat>, m: nat, cur: seq<Row>, i: int, out: seq<Row>, n: nat)
    requires m < |hits| && Progress(src, col, c, hits, m, cur, i)
    requires 0 <= hits[m] + i < |cur|
    requires out == cur[..hits[m] + i] + Pieces(cur[hits[m] + i], col, c) + cur[hits[m] + i + 1..]
    requires n == |Pieces(cur[hits[m] + i], col, c)|
    ensures Progress(src, col, c, hits, m + 1, out, i + n - 1)
  {
    var p, f := Start(hits, m), PiecesOf(col, c);
    HitFound(src, col, c, hits, m, cur, i);
    BeforeHitFixed(src, col, c, hits, m);
    assert f(src[hits[m]]) == Pieces(cur[hits[m] + i], col, c);
    DoneSpliced(src, f, p, hits[m], cur, i, out);
    assert Start(hits, m + 1) == hits[m] + 1;
  }

  /** After the last hit, the rows left are copied as they are. */
  lemma SplitFinished(src: seq<Row>, col: string, c: char, hits: seq<nat>, rows: seq<Row>, i: int)
    requires Progress(src, col, c, hits, |hits|, rows, i)
    ensures rows == Expand(src, col, c)
  {
    var p := Start(hits, |hits|);
    NoHitAfter(src, col, c, hits, p);
    PlainFixed(src, col, c, p, |src|);
    DoneFinished(src, PiecesOf(col, c), p, rows, i);
  }

  /** The row at `pos` is duplicated once per piece of its `col`, and each
      copy gets its piece. */
  method SplitOneRow(rows: seq<Row>, pos: nat, col: string, c: char) returns (out: seq<Row>, n: nat)
    requires pos < |rows| && HasSep(rows[pos], col, c)
    ensures out == rows[..pos] + Pieces(rows[pos], col, c) + rows[pos + 1..]
    ensures n == |Pieces(rows[pos], col, c)|
  {
    var x := rows[pos];
    var parts := SplitAbsorbing(Get(x, col).s, c);
    out := DuplicateRow(rows, pos, |parts|);
    assert forall k | pos <= k < pos + |parts| :: out[k] == x;
    out := WritePieces(out, pos, x, col, parts);
    n := |parts|;
  }

  /** One turn of the loop: the hit `idx`, now at `idx + i`, becomes its
      pieces, and the offset grows by the number of extra rows. */
  method SplitHit(src: seq<Row>, col: string, c: char, hits: seq<nat>, m: nat, rows: seq<Row>, i: int)
    returns (rows': seq<Row>, i': int)
    requires m < |hits| && Progress(src, col, c, hits, m, rows, i)
    ensures Progress(src, col, c, hits, m + 1, rows', i')
  {
    HitFound(src, col, c, hits, m, rows, i);
    var n;
    rows', n := SplitOneRow(rows, hits[m] + i, col, c);
    HitSpliced(src, col, c, hits, m, rows, i, rows', n);
    i' := i + n - 1;
  }

  /** The loop of `split_row_with_multiple_names` and of
      `clean_and_split_rows_with_multiple_charges`: for each row whose `col`
      holds `c`, found at its shifted position `idx + i`, the row is
      duplicated once per piece and each copy gets its piece. */
  method SplitRows(t: Table, col: string, c: char) returns (r: Table)
    ensures r == Table(t.columns, Expand(t.rows, col, c))
  {
    var hits := Hits(t.rows, col, c);
    var rows := t.rows;
    var i: int := 0;
    SplitStart(t.rows, col, c, hits);
    var m: nat := 0;
    while m < |hits|
      invariant Progress(t.rows, col, c, hits, m, rows, i)
    {
      rows, i := SplitHit(t.rows, col, c, hits, m, rows, i);
      m := m + 1;
    }
    SplitFinished(t.rows, col, c, hits, rows, i);
    r := Table(t.columns, rows);
  }

  /** `split_row_with_multiple_names(df)` from line 39 on: one row per
      `/`-separated officer. */
  method SplitRowWithMultipleNames(t: Table) returns (r: Table)
    requires "against" in t.columns
    ensures r == Table(t.columns, Expand(t.rows, "against", '/'))
  {
    r := SplitRows(t, "against", '/');
  }

  // ---------------------------------------------------------------------
  // clean_and_split_names

  /** The two literal fixes applied to `against` before the names are
      extracted. */
  const NameFixes: seq<(string, string)> := [(Daniel, DanielFixed), (Natalie, NatalieFixed)]

  const Daniel := "daniel scott lott"
  const DanielFixed := "daniel lott scott"
  const Natalie := "natalie d. fitzgerald"
  const NatalieFixed := " natalie fitzgerald d"

  /** The three groups of `str.extract(r'(\w+) ?(\w+)? ?(.+)?')`; an
      unmatched optional group is `None`. */
  datatype NameParts = NameParts(first: string, last: Option<string>, rest: Option<string>)

  /** The length of the run of word characters `s` starts with. */
  function WordLength(s: string): (n: nat)
    ensures n <= |s|
    decreases |s|
  {
    if s != [] && IsWordChar(s[0]) then 1 + WordLength(s[1..]) else 0
  }

  /** The run is made of word characters and cannot be extended. */
  lemma {:induction false} WordLengthSpec(s: string)
    ensures forall i | 0 <= i < WordLength(s) :: IsWordChar(s[i])
    ensures WordLength(s) < |s| ==> !IsWordChar(s[WordLength(s)])
    decreases |s|
  {
    if s != [] && IsWordChar(s[0]) {
      WordLengthSpec(s[1..]);
    }
  }

  /** Where the search for the first group starts: the first word character. */
  function FirstWord(s: string): (k: nat)
    ensures k <= |s|
    decreases |s|
  {
    if s == [] || IsWordChar(s[0]) then 0 else 1 + FirstWord(s[1..])
  }

  /** No word character comes before it. */
  lemma {:induction false} FirstWordSpec(s: string)
    ensures forall i | 0 <= i < FirstWord(s) :: !IsWordChar(s[i])
    ensures FirstWord(s) < |s| ==> IsWordChar(s[FirstWord(s)])
    decreases |s|
  {
    if s != [] && !IsWordChar(s[0]) {
      FirstWordSpec(s[1..]);
    }
  }

  /** The optional ` ?` of the pattern. */
  function SkipSpace(s: string): string {
    if s != [] && s[0] == ' ' then s[1..] else s
  }

  /** The rest of the line after at most one space: the third group. */
  function ThirdGroup(c: string): Option<string> {
    var n := LineLength(c);
    if n == 0 then None else Some(c[..n])
  }

  /** The second and third groups, read from the text that follows the first
      group and at most one space. */
  function LaterGroups(b: string): (Option<string>, Option<string>) {
    var n := WordLength(b);
    (if n == 0 then None else Some(b[..n]), ThirdGroup(SkipSpace(b[n..])))
  }

  /** The three groups of a match that starts at the beginning of `a`. */
  function ExtractFrom(a: string): NameParts {
    var n := WordLength(a);
    var later := LaterGroups(SkipSpace(a[n..]));
    NameParts(a[..n], later.0, later.1)
  }

  /** `re.search(r'(\w+) ?(\w+)? ?(.+)?', s)`: the first group is the first
      run of word characters, the second the run right after it and at most
      one space, the third the rest of the line after at most one more
      space; `None` when `s` has no word character. Every part after the
      first is optional, so the greedy first attempt is the match. */
  function ExtractName(s: string): Option<NameParts> {
    var k := FirstWord(s);
    if k == |s| then None else Some(ExtractFrom(s[k..]))
  }

  /** There is a match exactly when `s` has a word character; the first and
      second groups are non-empty runs of word characters and the third a
      non-empty part of one line. */
  lemma ExtractNameSpec(s: string)
    ensures var r := ExtractName(s);
      && (r.None? <==> forall i | 0 <= i < |s| :: !IsWordChar(s[i]))
      && (r.Some? ==> r.value.first != "" && AllWord(r.value.first))
      && (r.Some? && r.value.last.Some? ==> r.value.last.value != "" && AllWord(r.value.last.value))
      && (r.Some? && r.value.rest.Some? ==> r.value.rest.value != "" && '\n' !in r.value.rest.value)
  {
    var k := FirstWord(s);
    FirstWordSpec(s);
    if k < |s| {
      var a := s[k..];
      var n := WordLength(a);
      WordLengthSpec(a);
      assert a[0] == s[k];
      var b := SkipSpace(a[n..]);
      var m := WordLength(b);
      WordLengthSpec(b);
      var c := SkipSpace(b[m..]);
      var l := LineLength(c);
      LineLengthSpec(c);
      assert ExtractName(s) == Some(NameParts(a[..n], if m == 0 then None else Some(b[..m]), if l == 0 then None else Some(c[..l])));
    }
  }

  predicate AllWord(s: string) {
    forall i | 0 <= i < |s| :: IsWordChar(s[i])
  }

  lemma {:induction false} WordLengthOf(a: string, rest: string)
    requires AllWord(a) && (rest == [] || !IsWordChar(rest[0]))
    ensures WordLength(a + rest) == |a|
    decreases |a|
  {
    if a == [] {
      assert a + rest == rest;
    } else {
      assert (a + rest)[1..] == a[1..] + rest;
      WordLengthOf(a[1..], rest);
    }
  }

  lemma {:induction false} LineLengthOf(s: string)
    requires '\n' !in s
    ensures LineLength(s) == |s|
    decreases |s|
  {
    if s != [] {
      LineLengthOf(s[1..]);
    }
  }

  lemma {:induction false} FirstWordSkips(pre: string, s: string)
    requires forall i | 0 <= i < |pre| :: !IsWordChar(pre[i])
    ensures FirstWord(pre + s) == |pre| + FirstWord(s)
    decreases |pre|
  {
    if pre == [] {
      assert pre + s == s;
    } else {
      assert (pre + s)[1..] == pre[1..] + s;
      FirstWordSkips(pre[1..], s);
    }
  }

  /** Leading characters that are not word characters are skipped. */
  lemma ExtractNameSkips(pre: string, s: string)
    requires forall i | 0 <= i < |pre| :: !IsWordChar(pre[i])
    ensures ExtractName(pre + s) == ExtractName(s)
  {
    FirstWordSkips(pre, s);
    var t, k := pre + s, FirstWord(s);
    if k < |s| {
      var k' := FirstWord(t);
      assert k' == |pre| + k;
      assert t[k'..] == s[k..];
      assert ExtractName(t) == Some(ExtractFrom(t[k'..]));
    }
  }

  /** A first group `a`, ended by `tail`. */
  lemma ExtractFromWord(a: string, tail: string)
    requires a != "" && AllWord(a) && (tail == [] || !IsWordChar(tail[0]))
    ensures ExtractName(a + tail) == Some(NameParts(a, LaterGroups(SkipSpace(tail)).0, LaterGroups(SkipSpace(tail)).1))
  {
    assert (a + tail)[0] == a[0];
    assert (a + tail)[0..] == a + tail;
    WordLengthOf(a, tail);
    assert (a + tail)[..|a|] == a && (a + tail)[|a|..] == tail;
  }

  /** A second group `b`, ended by `tail`. */
  lemma LaterGroupsWord(b: string, tail: string)
    requires b != "" && AllWord(b) && (tail == [] || !IsWordChar(tail[0]))
    ensures LaterGroups(b + tail) == (Some(b), ThirdGroup(SkipSpace(tail)))
  {
    WordLengthOf(b, tail);
    assert (b + tail)[..|b|] == b && (b + tail)[|b|..] == tail;
  }

  /** A third group: the whole of a one-line `rest`. */
  lemma ThirdGroupLine(rest: string)
    requires rest != "" && '\n' !in rest
    ensures ThirdGroup(rest) == Some(rest)
  {
    LineLengthOf(rest);
    assert rest[..|rest|] == rest;
  }

  /** A name of three space-separated parts: first word, second word, and
      the rest of the line. */
  lemma ExtractThree(a: string, b: string, rest: string)
    requires a != "" && AllWord(a) && b != "" && AllWord(b) && rest != "" && '\n' !in rest
    ensures ExtractName(a + " " + b + " " + rest) == Some(NameParts(a, Some(b), Some(rest)))
  {
    assert a + " " + b + " " + rest == a + (" " + (b + (" " + rest)));
    ExtractFromWord(a, " " + (b + (" " + rest)));
    assert SkipSpace(" " + (b + (" " + rest))) == b + (" " + rest);
    LaterGroupsWord(b, " " + rest);
    assert SkipSpace(" " + rest) == rest;
    ThirdGroupLine(rest);
  }

  /** A name of two words. */
  lemma ExtractTwo(a: string, b: string)
    requires a != "" && AllWord(a) && b != "" && AllWord(b)
    ensures ExtractName(a + " " + b) == Some(NameParts(a, Some(b), None))
  {
    assert a + " " + b == a + (" " + b);
    ExtractFromWord(a, " " + b);
    assert SkipSpace(" " + b) == b;
    assert LaterGroups(b) == (Some(b), None) by {
      LaterGroupsWord(b, []);
      assert b + [] == b;
      assert SkipSpace([]) == [] && LineLength([]) == 0;
    }
  }

  /** A single word. */
  lemma ExtractOne(a: string)
    requires a != "" && AllWord(a)
    ensures ExtractName(a) == Some(NameParts(a, None, None))
  {
    assert a == a + [];
    ExtractFromWord(a, []);
    assert LaterGroups([]) == (None, None);
  }

  /** `names[2].str.strip().fillna('')` */
  function Remainder(g: Option<NameParts>): string {
    if g.Some? && g.value.rest.Some? then Strip(g.value.rest.value) else ""
  }

  /** `.map(lambda s: '' if len(s) < 2 else s)`: the remainder when it has at
      least two characters. */
  function MiddleNameFrom(s: string): (r: string)
    ensures r == s || r == ""
    ensures r != "" <==> |s| >= 2
  {
    if |s| < 2 then "" else s
  }

  /** `.map(lambda s: '' if len(s) > 2 else s)`: the remainder when it has at
      most two characters. */
  function MiddleInitialFrom(s: string): (r: string)
    ensures r == s || r == ""
    ensures r != "" <==> 1 <= |s| <= 2
  {
    if |s| > 2 then "" else s
  }

  /** The remainder always lands in at least one of the two columns, and a
      two-character remainder lands in both. */
  lemma MiddleByLength(s: string)
    ensures MiddleNameFrom(s) == s || MiddleInitialFrom(s) == s
    ensures |s| == 2 <==> s != "" && MiddleNameFrom(s) == s && MiddleInitialFrom(s) == s
  {
  }

  /** The extracted parts of a row's (fixed) `against`. */
  function PartsOf(x: Row): Option<NameParts> {
    if Get(x, "against").Str? then ExtractName(Get(x, "against").s) else None
  }

  /** `df.against.str.replace(…)` with the two fixes. */
  function FixedAgainst(x: Row): Cell {
    OnStr(Get(x, "against"), s => ApplyRules(s, NameFixes))
  }

  /** `names[0].str.replace('ppso', "plaquemines parish sheriff's office")` */
  function ExtractedFirst(x: Row): Cell {
    match PartsOf(x)
    case Some(g) => Str(ReplaceAll(g.first, "ppso", "plaquemines parish sheriff's office"))
    case None => Missing
  }

  /** `names[1]` */
  function ExtractedLast(x: Row): Cell {
    match PartsOf(x)
    case Some(NameParts(_, Some(l), _)) => Str(l)
    case _ => Missing
  }

  function ExtractedMiddle(x: Row): Cell {
    Str(MiddleNameFrom(Remainder(PartsOf(x))))
  }

  function ExtractedInitial(x: Row): Cell {
    Str(MiddleInitialFrom(Remainder(PartsOf(x))))
  }

  /** The frame after the five assignments of `clean_and_split_names`. */
  function NamesSplit(t: Table): Table {
    var a := WithColumn(t, "against", FixedAgainst);
    var b := WithColumn(a, "first_name", ExtractedFirst);
    var c := WithColumn(b, "last_name", ExtractedLast);
    var d := WithColumn(c, "middle_name", ExtractedMiddle);
    WithColumn(d, "middle_initial", ExtractedInitial)
  }

  /** Row by row: `against` carries the fixes, the four name columns come
      from its extracted parts, and no other column changes. */
  lemma NamesSplitRow(t: Table, i: nat)
    requires i < |t.rows|
    ensures |NamesSplit(t).rows| == |t.rows|
    ensures var x, y := t.rows[i], NamesSplit(t).rows[i];
      var g := PartsOf(x[("against") := FixedAgainst(x)]);
      && Get(y, "against") == FixedAgainst(x)
      && Get(y, "first_name") == (if g.Some? then Str(ReplaceAll(g.value.first, "ppso", "plaquemines parish sheriff's office")) else Missing)
      && Get(y, "last_name") == (if g.Some? && g.value.last.Some? then Str(g.value.last.value) else Missing)
      && Get(y, "middle_name") == Str(MiddleNameFrom(Remainder(g)))
      && Get(y, "middle_initial") == Str(MiddleInitialFrom(Remainder(g)))
      && forall d | d !in {"against", "first_name", "last_name", "middle_name", "middle_initial"} :: Get(y, d) == Get(x, d)
  {
  }

  /** The frame `clean_and_split_names` returns. */
  function CleanedNames(t: Table): Table {
    DropColumns(FillBlank(NamesSplit(t)), {"against"})
  }

  /** `clean_and_split_names(df)`: the assignments go to the caller's frame,
      and the returned frame is filled and lacks `against`. */
  method CleanAndSplitNames(df: Frame) returns (r: Table)
    requires "against" in df.columns
    modifies df
    ensures df.Value() == NamesSplit(old(df.Value()))
    ensures r == CleanedNames(old(df.Value()))
  {
    df.SetColumn("against", FixedAgainst);
    df.SetColumn("first_name", ExtractedFirst);
    df.SetColumn("last_name", ExtractedLast);
    df.SetColumn("middle_name", ExtractedMiddle);
    df.SetColumn("middle_initial", ExtractedInitial);
    r := DropColumns(FillBlank(df.Value()), {"against"});
  }

  /** A row of the returned frame: every name column holds a string, `''`
      where the part is missing, and `against` is gone. */
  lemma CleanedNamesRow(t: Table, i: nat)
    requires i < |t.rows|
    ensures |CleanedNames(t).rows| == |t.rows|
    ensures var x, y := t.rows[i], CleanedNames(t).rows[i];
      var g := PartsOf(x["against" := FixedAgainst(x)]);
      && Get(y, "against") == Missing
      && Get(y, "first_name") == Str(if g.Some? then ReplaceAll(g.value.first, "ppso", "plaquemines parish sheriff's office") else "")
      && Get(y, "last_name") == Str(if g.Some? && g.value.last.Some? then g.value.last.value else "")
      && Get(y, "middle_name") == Str(MiddleNameFrom(Remainder(g)))
      && Get(y, "middle_initial") == Str(MiddleInitialFrom(Remainder(g)))
  {
    var n := NamesSplit(t);
    var y := CleanedNames(t).rows[i];
    NamesSplitRow(t, i);
    forall c | c in ["first_name", "last_name", "middle_name", "middle_initial"]
      ensures Get(y, c) == FillNa(Get(n.rows[i], c), Str(""))
    {
      FilledDroppedRow(n, {"against"}, i, c);
    }
    DroppedRow(FillBlank(n), {"against"}, i, FillBlank(n).rows[i]);
  }

  /** A word has nothing to strip. */
  lemma WordStripped(w: string)
    requires AllWord(w)
    ensures Strip(w) == w
  {
    if w != [] {
      assert IsWordChar(w[0]) && IsWordChar(w[|w| - 1]);
    }
    StripCharsNoop(w, Whitespace);
  }

  /** Two rules are two replace-alls. */
  lemma ApplyTwoRules(s: string, first: (string, string), second: (string, string))
    ensures ApplyRules(s, [first, second]) == ReplaceAll(ReplaceAll(s, first.0, first.1), second.0, second.1)
  {
    var once := ReplaceAll(s, first.0, first.1);
    assert [second][1..] == [];
    assert ApplyRules(once, [second]) == ReplaceAll(once, second.0, second.1);
    assert [first, second][1..] == [second];
  }

  lemma DanielFixedByFirst()
    ensures ReplaceAll(Daniel, Daniel, DanielFixed) == DanielFixed
  {
    ReplaceAllWhole(Daniel, DanielFixed);
  }

  lemma DanielKeptBySecond()
    ensures ReplaceAll(DanielFixed, Natalie, NatalieFixed) == DanielFixed
  {
    ShortNoContains(DanielFixed, Natalie);
    ReplaceAllAbsent(DanielFixed, Natalie, NatalieFixed);
  }

  lemma FixDaniel()
    ensures ApplyRules(Daniel, NameFixes) == DanielFixed
  {
    ApplyTwoRules(Daniel, (Daniel, DanielFixed), (Natalie, NatalieFixed));
    DanielFixedByFirst();
    DanielKeptBySecond();
  }

  /** The first fix puts the middle name last. */
  lemma DanielParts()
    ensures DanielFixed == "daniel" + " " + "lott" + " " + "scott"
    ensures AllWord("daniel") && AllWord("lott") && AllWord("scott")
  {
  }

  /** The first fix: the parts of `daniel scott lott` come out as first name
      `daniel`, last name `lott` and middle name `scott`. */
  lemma DanielScottLott()
    ensures ExtractName(ApplyRules(Daniel, NameFixes)) == Some(NameParts("daniel", Some("lott"), Some("scott")))
  {
    FixDaniel();
    DanielParts();
    ExtractThree("daniel", "lott", "scott");
  }

  lemma NatalieKeptByFirst()
    ensures ReplaceAll(Natalie, Daniel, DanielFixed) == Natalie
  {
    assert Daniel[9] == 'o';
    assert 'o' !in Natalie;
    CharNotContains(Natalie, Daniel, 9);
    ReplaceAllAbsent(Natalie, Daniel, DanielFixed);
  }

  lemma NatalieFixedBySecond()
    ensures ReplaceAll(Natalie, Natalie, NatalieFixed) == NatalieFixed
  {
    ReplaceAllWhole(Natalie, NatalieFixed);
  }

  lemma FixNatalie()
    ensures ApplyRules(Natalie, NameFixes) == NatalieFixed
  {
    ApplyTwoRules(Natalie, (Daniel, DanielFixed), (Natalie, NatalieFixed));
    NatalieKeptByFirst();
    NatalieFixedBySecond();
  }

  /** The second fix turns the middle initial into a last part. */
  lemma NatalieParts()
    ensures NatalieFixed == " " + ("natalie" + " " + "fitzgerald" + " " + "d")
    ensures AllWord("natalie") && AllWord("fitzgerald") && AllWord("d")
    ensures !IsWordChar(' ')
  {
  }

  /** The second fix: `natalie d. fitzgerald` comes out as first name
      `natalie`, last name `fitzgerald` and middle part `d`. */
  lemma NatalieFitzgerald()
    ensures ExtractName(ApplyRules(Natalie, NameFixes)) == Some(NameParts("natalie", Some("fitzgerald"), Some("d")))
  {
    FixNatalie();
    NatalieSplit();
  }

  lemma NatalieSplit()
    ensures ExtractName(NatalieFixed) == Some(NameParts("natalie", Some("fitzgerald"), Some("d")))
  {
    NatalieParts();
    ExtractNameSkips(" ", "natalie" + " " + "fitzgerald" + " " + "d");
    ExtractThree("natalie", "fitzgerald", "d");
  }

  /** A middle part of one word goes to `middle_name` when it has two
      characters or more (`scott`) and to `middle_initial` otherwise (`d`). */
  lemma FixedMiddles()
    ensures MiddleNameFrom(Remainder(Some(NameParts("daniel", Some("lott"), Some("scott"))))) == "scott"
    ensures MiddleInitialFrom(Remainder(Some(NameParts("daniel", Some("lott"), Some("scott"))))) == ""
    ensures MiddleNameFrom(Remainder(Some(NameParts("natalie", Some("fitzgerald"), Some("d"))))) == ""
    ensures MiddleInitialFrom(Remainder(Some(NameParts("natalie", Some("fitzgerald"), Some("d"))))) == "d"
  {
    WordStripped("scott");
    WordStripped("d");
  }

  /** `ppso` alone becomes the sheriff's office as first name, with no other
      part. */
  lemma PpsoExpanded()
    ensures ExtractName("ppso") == Some(NameParts("ppso", None, None))
    ensures ReplaceAll("ppso", "ppso", "plaquemines parish sheriff's office") == "plaquemines parish sheriff's office"
  {
    ExtractOne("ppso");
    ReplaceAllWhole("ppso", "plaquemines parish sheriff's office");
  }

  // ---------------------------------------------------------------------
  // drop_rows_missing_names

  /** Not both of `first_name` and `last_name` are `''` (NaN compares
      unequal to `''`). */
  predicate HasAName(x: Row) {
    !(Get(x, "first_name") == Str("") && Get(x, "last_name") == Str(""))
  }

  /** `drop_rows_missing_names(df)`: exactly the rows with a name stay, in
      order and each as often as it occurs. */
  function DropRowsMissingNames(t: Table): (r: Table)
    requires "first_name" in t.columns && "last_name" in t.columns
    ensures r.columns == t.columns && |r.rows| <= |t.rows|
    ensures r.rows == Keep(t.rows, HasAName)
    ensures forall x :: x in r.rows <==> x in t.rows && HasAName(x)
    ensures forall x :: multiset(r.rows)[x] == if HasAName(x) then multiset(t.rows)[x] else 0
  {
    forall x ensures x in Keep(t.rows, HasAName) <==> x in t.rows && HasAName(x) {
      KeepHas(t.rows, HasAName, x);
    }
    forall x ensures multiset(Keep(t.rows, HasAName))[x] == if HasAName(x) then multiset(t.rows)[x] else 0 {
      KeepCount(t.rows, HasAName, x);
    }
    Filter(t, HasAName)
  }

  // ---------------------------------------------------------------------
  // clean_receive_dates

  const BrokenDate := "11/16/2 0"
  const FixedDate := "11/16/20"

  /** `df.date.str.replace('11/16/2 0', '11/16/20', regex=False)` */
  function ReceiveDateOf(x: Row): Cell {
    OnStr(Get(x, "date"), s => ReplaceAll(s, BrokenDate, FixedDate))
  }

  /** `clean_receive_dates(df)`: `receive_date` is written to the caller's
      frame, and the returned frame lacks `date`. */
  method CleanReceiveDates(df: Frame) returns (r: Table)
    requires "date" in df.columns
    modifies df
    ensures df.Value() == WithColumn(old(df.Value()), "receive_date", ReceiveDateOf)
    ensures r == DropColumns(df.Value(), {"date"})
  {
    df.SetColumn("receive_date", ReceiveDateOf);
    r := DropColumns(df.Value(), {"date"});
  }

  /** The broken date becomes the fixed one, no value keeps an occurrence of
      the broken date, and other values and NaN are unchanged. */
  lemma ReceiveDateSpec(x: Row)
    ensures var c, d := Get(x, "date"), ReceiveDateOf(x);
      && (c.Str? ==> d.Str? && !Contains(d.s, BrokenDate))
      && (c.Str? && !Contains(c.s, BrokenDate) ==> d == c)
      && (c == Str(BrokenDate) ==> d == Str(FixedDate))
      && (!c.Str? ==> d == Missing)
  {
    var c := Get(x, "date");
    if c.Str? {
      FixSeparated();
      ReplaceAllClears(c.s, BrokenDate, FixedDate);
      if !Contains(c.s, BrokenDate) {
        ReplaceAllAbsent(c.s, BrokenDate, FixedDate);
      }
      if c.s == BrokenDate {
        ReplaceAllWhole(BrokenDate, FixedDate);
      }
    }
  }

  /** The fixed date cannot combine with its surroundings into the broken
      one. */
  lemma FixSeparated()
    ensures Separated(BrokenDate, FixedDate)
  {
    ShortNoContains(FixedDate, BrokenDate);
    forall k | 0 < k < |BrokenDate| && k <= |FixedDate| ensures !EndsWith(FixedDate, BrokenDate[..k]) {
      assert FixedDate[|FixedDate| - 1] == '0' != BrokenDate[k - 1];
      assert FixedDate[|FixedDate| - k..][k - 1] == FixedDate[|FixedDate| - 1];
    }
    forall j | 0 < j < |BrokenDate| ensures !StartsWith(FixedDate, BrokenDate[j..]) && !StartsWith(BrokenDate[j..], FixedDate) {
      var q := BrokenDate[j..];
      assert q[0] != '1' || q[1] != '1';
    }
  }

  // ---------------------------------------------------------------------
  // clean_and_split_rows_with_multiple_charges

  const Ppdc := "ppdc"
  const DetentionCenter := "plaquemines " + "parish " + "detention " + "center"
  const Info := "info"
  const Information := "information"
  const Rmation := "rmation"
  const DomesticOffDuty := "domestic issue-off duty"
  const OffDutyDomestic := "off duty domestic issue"

  const ChargeRules: seq<(string, string)> := [
    (Ppdc, DetentionCenter),
    (Info, Information),
    (DomesticOffDuty, OffDutyDomestic)
  ]

  /** The three rules, one replace-all after the other. */
  lemma ChargeRulesInTurn(s: string)
    ensures ApplyRules(s, ChargeRules)
      == ReplaceAll(ReplaceAll(ReplaceAll(s, Ppdc, DetentionCenter), Info, Information), DomesticOffDuty, OffDutyDomestic)
  {
    var a := ReplaceAll(s, Ppdc, DetentionCenter);
    var b := ReplaceAll(a, Info, Information);
    var c := ReplaceAll(b, DomesticOffDuty, OffDutyDomestic);
    assert ChargeRules[0] == (Ppdc, DetentionCenter) && ChargeRules[1..][0] == (Info, Information);
    assert ChargeRules[1..][1..][0] == (DomesticOffDuty, OffDutyDomestic) && ChargeRules[1..][1..][1..] == [];
    assert ApplyRules(s, ChargeRules) == ApplyRules(a, ChargeRules[1..]);
    assert ApplyRules(a, ChargeRules[1..]) == ApplyRules(b, ChargeRules[1..][1..]);
    assert ApplyRules(b, ChargeRules[1..][1..]) == ApplyRules(c, []);
  }

  /** The characters the proofs below use to rule a pattern out. */
  lemma ChargeTextsPlain()
    ensures 'f' !in DetentionCenter && '-' !in DetentionCenter && 'p' !in Info && 'p' !in Information
    ensures '-' !in Information && 'f' !in Rmation && '-' !in Rmation && Information == Info + Rmation
    ensures Ppdc[0] == 'p' && Info[2] == 'f' && DomesticOffDuty[14] == '-'
  {
    CenterPlain();
  }

  lemma CenterPlain()
    ensures 'f' !in DetentionCenter && '-' !in DetentionCenter
  {
    assert 'f' !in "plaquemines " && 'f' !in "parish " && 'f' !in "detention " && 'f' !in "center";
    assert '-' !in "plaquemines " && '-' !in "parish " && '-' !in "detention " && '-' !in "center";
  }

  /** `policy.str.lower().str.strip().fillna('')` and the literal fixes. */
  function ChargesOf(x: Row): (r: Cell)
    ensures r.Str?
  {
    match Get(x, "policy")
    case Str(s) => Str(ApplyRules(Strip(Lower(s)), ChargeRules))
    case _ => Str("")
  }

  /** A policy holding none of the three patterns is only lower-cased and
      stripped, and a missing policy becomes `''`. */
  lemma ChargesPlain(x: Row)
    ensures Get(x, "policy").Str? && (forall k | 0 <= k < |ChargeRules| :: !Contains(Strip(Lower(Get(x, "policy").s)), ChargeRules[k].0))
      ==> ChargesOf(x) == Str(Strip(Lower(Get(x, "policy").s)))
    ensures !Get(x, "policy").Str? ==> ChargesOf(x) == Str("")
  {
    if Get(x, "policy").Str? && (forall k | 0 <= k < |ChargeRules| :: !Contains(Strip(Lower(Get(x, "policy").s)), ChargeRules[k].0)) {
      var t := Strip(Lower(Get(x, "policy").s));
      assert !Contains(t, ChargeRules[0].0) && !Contains(t, ChargeRules[1].0) && !Contains(t, ChargeRules[2].0);
      ChargeRulesInTurn(t);
      ReplaceAllAbsent(t, Ppdc, DetentionCenter);
      ReplaceAllAbsent(t, Info, Information);
      ReplaceAllAbsent(t, DomesticOffDuty, OffDutyDomestic);
    }
  }

  /** Each abbreviation, standing alone, becomes its expansion. */
  lemma ChargesExpanded()
    ensures ApplyRules(Ppdc, ChargeRules) == DetentionCenter
    ensures ApplyRules(Info, ChargeRules) == Information
  {
    ChargeTextsPlain();
    ChargeRulesInTurn(Ppdc);
    ReplaceAllWhole(Ppdc, DetentionCenter);
    CharNotContains(DetentionCenter, Info, 2);
    ReplaceAllAbsent(DetentionCenter, Info, Information);
    CharNotContains(DetentionCenter, DomesticOffDuty, 14);
    ReplaceAllAbsent(DetentionCenter, DomesticOffDuty, OffDutyDomestic);
    ChargeRulesInTurn(Info);
    CharNotContains(Info, Ppdc, 0);
    ReplaceAllAbsent(Info, Ppdc, DetentionCenter);
    ReplaceAllWhole(Info, Information);
    CharNotContains(Information, DomesticOffDuty, 14);
    ReplaceAllAbsent(Information, DomesticOffDuty, OffDutyDomestic);
  }

  /** The `info` rule is a plain replace-all, so a policy already reading
      `information` is expanded a second time, to `informationrmation`. */
  lemma InformationExpandedTwice()
    ensures Information == Info + Rmation
    ensures ApplyRules(Information, ChargeRules) == Information + Rmation
  {
    ChargeTextsPlain();
    ChargeRulesInTurn(Information);
    CharNotContains(Information, Ppdc, 0);
    ReplaceAllAbsent(Information, Ppdc, DetentionCenter);
    ReplaceAllAtFront(Info, Rmation, Information);
    CharNotContains(Rmation, Info, 2);
    ReplaceAllAbsent(Rmation, Info, Information);
    assert '-' !in Information + Rmation;
    CharNotContains(Information + Rmation, DomesticOffDuty, 14);
    ReplaceAllAbsent(Information + Rmation, DomesticOffDuty, OffDutyDomestic);
  }

  /** `clean_and_split_rows_with_multiple_charges(df)`: `charges` is written
      to the caller's frame, then every row is split on `,`. */
  method CleanAndSplitRowsWithMultipleCharges(df: Frame) returns (r: Table)
    requires "policy" in df.columns
    modifies df
    ensures df.Value() == WithColumn(old(df.Value()), "charges", ChargesOf)
    ensures r == Table(df.columns, Expand(df.rows, "charges", ','))
  {
    df.SetColumn("charges", ChargesOf);
    r := SplitRows(df.Value(), "charges", ',');
  }
}

=== FILE: clean_southern.dfy ===
/** `clean/southern_university_pd_pprr.py`: the Southern University PD roster, cut from the statewide
    roster. */
module CleanSouthernUniversityPdPprr {
  import opened Text
  import opened Tables
  import Rosters

  /** The agency value the roster is filtered on and rewritten from. */
  const Code := "univ. pd - southern"
  const Name := "southern university police department"

  /** `clean_agency(df)` */
  method CleanAgency(df: Frame)
    requires "agency" in df.columns
    modifies df
    ensures df.Value() == WithColumn(old(df.Value()), "agency", Rosters.AgencyRenamed(Code, Name))
  {
    Rosters.CleanAgency(df, Code, Name);
  }

  /** `clean()` on the roster as read: `extract_roster` then
      `clean_agency`. */
  method Clean(roster: Table) returns (df: Frame)
    requires "agency" in roster.columns
    ensures fresh(df) && df.Value() == Rosters.Roster(roster, Code, Code, Name)
  {
    df := new Frame(Rosters.ExtractRoster(roster, Code));
    CleanAgency(df);
  }

  /** One row per roster row of the agency, each naming it in full and
      otherwise as it was. */
  lemma CleanSpec(t: Table)
    requires "agency" in t.columns
    ensures var r := Rosters.Roster(t, Code, Code, Name);
      && |r.rows| == |Keep(t.rows, Rosters.AgencyIs(Code))|
      && (forall i | 0 <= i < |r.rows| :: Get(r.rows[i], "agency") == Str(Name))
      && (forall i | 0 <= i < |r.rows| :: Rosters.FromRoster(t, Code, r.rows[i]))
  {
    Rosters.RosterSpec(t, Code, Code, Name);
    ReplaceAllWhole(Code, Name);
  }
}

=== FILE: clean_uno.dfy ===
/** `clean/uno_university_pd.py`: the University of New Orleans PD roster, cut from the statewide
    roster. */
module CleanUnoUniversityPd {
  import opened Text
  import opened Tables
  import Rosters

  /** The agency value the roster is filtered on and rewritten from. */
  const Code := "univ. pd - uno"
  const Name := "uno university police department"

  /** `clean_agency(df)` */
  method CleanAgency(df: Frame)
    requires "agency" in df.columns
    modifies df
    ensures df.Value() == WithColumn(old(df.Value()), "agency", Rosters.AgencyRenamed(Code, Name))
  {
    Rosters.CleanAgency(df, Code, Name);
  }

  /** `clean()` on the roster as read: `extract_roster` then
      `clean_agency`. */
  method Clean(roster: Table) returns (df: Frame)
    requires "agency" in roster.columns
    ensures fresh(df) && df.Value() == Rosters.Roster(roster, Code, Code, Name)
  {
    df := new Frame(Rosters.ExtractRoster(roster, Code));
    CleanAgency(df);
  }

  /** One row per roster row of the agency, each naming it in full and
      otherwise as it was. */
  lemma CleanSpec(t: Table)
    requires "agency" in t.columns
    ensures var r := Rosters.Roster(t, Code, Code, Name);
      && |r.rows| == |Keep(t.rows, Rosters.AgencyIs(Code))|
      && (forall i | 0 <= i < |r.rows| :: Get(r.rows[i], "agency") == Str(Name))
      && (forall i | 0 <= i < |r.rows| :: Rosters.FromRoster(t, Code, r.rows[i]))
  {
    Rosters.RosterSpec(t, Code, Code, Name);
    ReplaceAllWhole(Code, Name);
  }
}

=== FILE: clean_usl.dfy ===
/** `clean/university_of_southwestern_louisiana_pd_pprr.py`: the University of Southwestern Louisiana PD roster, cut from the statewide
    roster. */
module CleanUniversityOfSouthwesternLouisianaPdPprr {
  import opened Text
  import opened Tables
  import Rosters

  /** The agency value the roster is filtered on and rewritten from. */
  const Code := "univ. pd - usl"
  const Name := "University of Southwestern Louisiana PD"

  /** `clean_agency(df)` */
  method CleanAgency(df: Frame)
    requires "agency" in df.columns
    modifies df
    ensures df.Value() == WithColumn(old(df.Value()), "agency", Rosters.AgencyRenamed(Code, Name))
  {
    Rosters.CleanAgency(df, Code, Name);
  }

  /** `clean()` on the roster as read: `extract_roster` then
      `clean_agency`. */
  method Clean(roster: Table) returns (df: Frame)
    requires "agency" in roster.columns
    ensures fresh(df) && df.Value() == Rosters.Roster(roster, Code, Code, Name)
  {
    df := new Frame(Rosters.ExtractRoster(roster, Code));
    CleanAgency(df);
  }

  /** One row per roster row of the agency, each naming it in full and
      otherwise as it was. */
  lemma CleanSpec(t: Table)
    requires "agency" in t.columns
    ensures var r := Rosters.Roster(t, Code, Code, Name);
      && |r.rows| == |Keep(t.rows, Rosters.AgencyIs(Code))|
      && (forall i | 0 <= i < |r.rows| :: Get(r.rows[i], "agency") == Str(Name))
      && (forall i | 0 <= i < |r.rows| :: Rosters.FromRoster(t, Code, r.rows[i]))
  {
    Rosters.RosterSpec(t, Code, Code, Name);
    ReplaceAllWhole(Code, Name);
  }
}

=== FILE: columns.dfy ===
/** `lib/columns.py`: snake-casing of column names, constant columns, and the
    final shaping of every output table (`rearrange_*`). The canonical column
    lists and the title-casing of names come from modules that are not part
    of this model and are parameters here. */
module Columns {
  import opened Text
  import opened Tables
  import opened Ordering
  import CleanLib

  // ---------------------------------------------------------------------
  // clean_column_names

  /** Drops a leading run of characters outside `\w`. */
  function SkipNonWord(s: string): (r: string)
    ensures |r| <= |s|
  {
    if s != [] && !IsWordChar(s[0]) then SkipNonWord(s[1..]) else s
  }

  /** `re.sub(r"[\s\W]+", "_", s)`: every maximal run of non-word
      characters (whitespace is one of them) becomes one `_`. */
  function CollapseNonWord(s: string): string
    decreases |s|
  {
    if s == [] then ""
    else if IsWordChar(s[0]) then [s[0]] + CollapseNonWord(s[1..])
    else "_" + CollapseNonWord(SkipNonWord(s[1..]))
  }

  /** One column name: strip, collapse, lowercase, trim `_`. */
  function SnakeCase(name: string): string {
    StripChars(Lower(CollapseNonWord(Strip(name))), {'_'})
  }

  predicate SnakeChar(c: char) { IsLowerOrDigit(c) || c == '_' }

  /** Lowercase letters, digits and `_`, with no `_` at either end. */
  predicate IsSnake(s: string) {
    && (forall i | 0 <= i < |s| :: SnakeChar(s[i]))
    && (|s| > 0 ==> s[0] != '_' && s[|s| - 1] != '_')
  }

  lemma {:induction false} CollapseNonWordIsWord(s: string)
    ensures forall i | 0 <= i < |CollapseNonWord(s)| :: IsWordChar(CollapseNonWord(s)[i])
    decreases |s|
  {
    if s != [] {
      if IsWordChar(s[0]) {
        CollapseNonWordIsWord(s[1..]);
      } else {
        CollapseNonWordIsWord(SkipNonWord(s[1..]));
      }
    }
  }

  lemma {:induction false} CollapseNonWordOfWord(s: string)
    requires forall i | 0 <= i < |s| :: IsWordChar(s[i])
    ensures CollapseNonWord(s) == s
    decreases |s|
  {
    if s != [] {
      CollapseNonWordOfWord(s[1..]);
    }
  }

  /** Every cleaned name holds only lowercase letters, digits and `_`, and
      neither starts nor ends with `_`. */
  lemma SnakeCaseIsSnake(name: string)
    ensures IsSnake(SnakeCase(name))
  {
    var c := CollapseNonWord(Strip(name));
    CollapseNonWordIsWord(Strip(name));
    var l := Lower(c);
    assert forall i | 0 <= i < |l| :: SnakeChar(l[i]);
    StripCharsShape(l, {'_'});
  }

  /** A snake-case name is its own cleaned form. */
  lemma SnakeCaseOfSnake(s: string)
    requires IsSnake(s)
    ensures SnakeCase(s) == s
  {
    StripCharsNoop(s, Whitespace);
    CollapseNonWordOfWord(s);
    assert Lower(s) == s;
    StripCharsNoop(s, {'_'});
  }

  /** Cleaning a name twice gives what cleaning it once gives. */
  lemma SnakeCaseIdempotent(name: string)
    ensures SnakeCase(SnakeCase(name)) == SnakeCase(name)
  {
    SnakeCaseIsSnake(name);
    SnakeCaseOfSnake(SnakeCase(name));
  }

  predicate Unnamed(c: string) { StartsWith(c, "Unnamed:") }

  /** The row under the new names: cell `k` of `r` moves to `SnakeCase(k)`;
      when two names clean to the same one, the later column wins. */
  function Relabel(r: Row, kept: seq<string>): (x: Row)
    ensures x.Keys == set k | k in kept :: SnakeCase(k)
  {
    if kept == [] then map[]
    else Relabel(r, kept[..|kept| - 1])[SnakeCase(kept[|kept| - 1]) := Get(r, kept[|kept| - 1])]
  }

  /** `clean_column_names(df)` */
  function CleanColumnNames(t: Table): (r: Table)
    ensures |r.rows| == |t.rows|
  {
    var kept := Keep(t.columns, c => !Unnamed(c));
    Table(seq(|kept|, i requires 0 <= i < |kept| => SnakeCase(kept[i])),
          seq(|t.rows|, i requires 0 <= i < |t.rows| => Relabel(t.rows[i], kept)))
  }

  /** Column `j` of `kept` is the last one whose name cleans to its cleaned
      name, so its cells are the ones the renamed row keeps. */
  predicate LastOfName(kept: seq<string>, j: nat)
    requires j < |kept|
  {
    forall m | j < m < |kept| :: SnakeCase(kept[m]) != SnakeCase(kept[j])
  }

  /** Exactly the columns not starting with `Unnamed:` are kept, in their
      order, column `j` of the result being the snake-case name of the
      `j`-th kept column, and each row's cells follow their column (the
      later of two columns whose names clean alike wins). */
  lemma CleanColumnNamesSpec(t: Table)
    ensures var r := CleanColumnNames(t);
      var kept := Keep(t.columns, c => !Unnamed(c));
      && (forall c :: c in kept <==> c in t.columns && !Unnamed(c))
      && |r.columns| == |kept|
      && (forall j | 0 <= j < |kept| :: r.columns[j] == SnakeCase(kept[j]) && IsSnake(r.columns[j]))
      && |r.rows| == |t.rows|
      && (forall i, j | 0 <= i < |t.rows| && 0 <= j < |kept| && LastOfName(kept, j) ::
            Get(r.rows[i], r.columns[j]) == Get(t.rows[i], kept[j]))
      && (forall i, c | 0 <= i < |t.rows| && c in r.rows[i] :: c in r.columns)
  {
    var kept := Keep(t.columns, c => !Unnamed(c));
    forall c ensures c in kept <==> c in t.columns && !Unnamed(c) {
      KeepHas(t.columns, c => !Unnamed(c), c);
    }
    forall j | 0 <= j < |kept| ensures IsSnake(SnakeCase(kept[j])) {
      SnakeCaseIsSnake(kept[j]);
    }
    CleanedCells(t, kept);
  }

  /** The cells half of `CleanColumnNamesSpec`. */
  lemma CleanedCells(t: Table, kept: seq<string>)
    requires kept == Keep(t.columns, c => !Unnamed(c))
    ensures var r := CleanColumnNames(t);
      && (forall i, j | 0 <= i < |t.rows| && 0 <= j < |kept| && LastOfName(kept, j) ::
            Get(r.rows[i], r.columns[j]) == Get(t.rows[i], kept[j]))
      && (forall i, c | 0 <= i < |t.rows| && c in r.rows[i] :: c in r.columns)
  {
    forall i | 0 <= i < |t.rows| {
      CleanedRow(t, kept, i);
    }
  }

  lemma CleanedRow(t: Table, kept: seq<string>, i: nat)
    requires kept == Keep(t.columns, c => !Unnamed(c)) && i < |t.rows|
    ensures var r := CleanColumnNames(t);
      && (forall j | 0 <= j < |kept| && LastOfName(kept, j) :: Get(r.rows[i], r.columns[j]) == Get(t.rows[i], kept[j]))
      && (forall c | c in r.rows[i] :: c in r.columns)
  {
    var r := CleanColumnNames(t);
    var x := Relabel(t.rows[i], kept);
    assert r.rows[i] == x;
    forall j | 0 <= j < |kept| && LastOfName(kept, j) ensures Get(x, r.columns[j]) == Get(t.rows[i], kept[j]) {
      RelabelLast(t.rows[i], kept, j);
    }
    forall c | c in x ensures c in r.columns {
      var k :| k in kept && SnakeCase(k) == c;
      var j :| 0 <= j < |kept| && kept[j] == k;
      assert r.columns[j] == c;
    }
  }

  lemma {:induction false} RelabelLast(r: Row, kept: seq<string>, j: nat)
    requires j < |kept| && LastOfName(kept, j)
    ensures Relabel(r, kept)[SnakeCase(kept[j])] == Get(r, kept[j])
  {
    if j < |kept| - 1 {
      var init := kept[..|kept| - 1];
      assert init[j] == kept[j];
      RelabelLast(r, init, j);
    }
  }

  lemma {:induction false} RelabelAt(r: Row, kept: seq<string>, n: string)
    requires forall k | k in kept :: SnakeCase(k) == k
    requires n in kept
    ensures Relabel(r, kept)[n] == Get(r, n)
  {
    var last := kept[|kept| - 1];
    if last != n {
      assert n in kept[..|kept| - 1] by {
        var j :| 0 <= j < |kept| && kept[j] == n;
        assert j < |kept| - 1;
        assert kept[..|kept| - 1][j] == n;
      }
      RelabelAt(r, kept[..|kept| - 1], n);
    }
  }

  lemma RelabelIdentity(x: Row, names: seq<string>)
    requires forall k | k in names :: SnakeCase(k) == k
    requires x.Keys == set k | k in names
    ensures Relabel(x, names) == x
  {
    var y := Relabel(x, names);
    assert y.Keys == x.Keys;
    forall k | k in y.Keys ensures y[k] == x[k] {
      RelabelAt(x, names, k);
    }
  }

  lemma UnnamedStartsUpper(c: string)
    ensures Unnamed(c) ==> |c| > 0 && c[0] == 'U'
  {
    assert "Unnamed:"[0] == 'U';
    assert Unnamed(c) ==> c[0] == c[..8][0];
  }

  lemma SnakeNotUnnamed(c: string)
    requires IsSnake(c)
    ensures !Unnamed(c)
  {
    UnnamedStartsUpper(c);
    assert |c| > 0 ==> SnakeChar(c[0]);
  }

  /** The cleaned names are snake case, hence none starts with `Unnamed:`
      and each is its own cleaned form. */
  lemma CleanedNamesStable(t: Table)
    ensures forall c | c in CleanColumnNames(t).columns :: !Unnamed(c) && SnakeCase(c) == c
  {
    var once := CleanColumnNames(t);
    var kept := Keep(t.columns, c => !Unnamed(c));
    forall c | c in once.columns ensures !Unnamed(c) && SnakeCase(c) == c {
      var j :| 0 <= j < |once.columns| && once.columns[j] == c;
      SnakeCaseIsSnake(kept[j]);
      SnakeCaseOfSnake(c);
      SnakeNotUnnamed(c);
    }
  }

  /** A second `clean_column_names` changes no name and drops no column. */
  lemma CleanColumnNamesIdempotent(t: Table)
    ensures CleanColumnNames(CleanColumnNames(t)) == CleanColumnNames(t)
  {
    var once := CleanColumnNames(t);
    var kept := Keep(t.columns, c => !Unnamed(c));
    CleanedNamesStable(t);
    KeepAll(once.columns, c => !Unnamed(c));
    var twice := CleanColumnNames(once);
    assert twice.columns == once.columns;
    assert (set k | k in kept :: SnakeCase(k)) == set k | k in once.columns by {
      forall k | k in kept ensures SnakeCase(k) in once.columns {
        var j :| 0 <= j < |kept| && kept[j] == k;
        assert once.columns[j] == SnakeCase(k);
      }
    }
    forall i | 0 <= i < |t.rows| ensures twice.rows[i] == once.rows[i] {
      RelabelIdentity(once.rows[i], once.columns);
    }
  }

  // ---------------------------------------------------------------------
  // set_values

  /** `set_values(df, value_dict)`: the dict's entries (distinct keys) are
      written one after the other, each over the whole column. */
  method SetValues(df: Frame, values: seq<(string, Cell)>)
    requires forall i, j | 0 <= i < j < |values| :: values[i].0 != values[j].0
    modifies df
    ensures |df.rows| == old(|df.rows|)
    ensures forall i, k | 0 <= i < |df.rows| && 0 <= k < |values| :: Get(df.rows[i], values[k].0) == values[k].1
    ensures forall i, c | 0 <= i < |df.rows| && (forall k | 0 <= k < |values| :: values[k].0 != c) ::
      Get(df.rows[i], c) == Get(old(df.rows[i]), c)
    ensures forall c | c in old(df.columns) :: c in df.columns
    ensures forall k | 0 <= k < |values| :: values[k].0 in df.columns
  {
    for n := 0 to |values|
      invariant |df.rows| == old(|df.rows|)
      invariant forall i, k | 0 <= i < |df.rows| && 0 <= k < n :: Get(df.rows[i], values[k].0) == values[k].1
      invariant forall i, c | 0 <= i < |df.rows| && (forall k | 0 <= k < n :: values[k].0 != c) ::
        Get(df.rows[i], c) == Get(old(df.rows[i]), c)
      invariant forall c | c in old(df.columns) :: c in df.columns
      invariant forall k | 0 <= k < n :: values[k].0 in df.columns
    {
      var v := values[n].1;
      df.SetColumn(values[n].0, _ => v);
    }
  }

  // ---------------------------------------------------------------------
  // rearrange_*

  /** What distinguishes one `rearrange_*` from another: its canonical
      column list, whether it first drops rows without a uid, the columns it
      title-cases, the columns it renders with `float_to_int_str`, and its
      sort keys. */
  datatype Shape = Shape(canonical: seq<string>, needsUid: bool, titled: seq<string>,
                         numeric: seq<string>, sortKeys: seq<string>)

  predicate HasUid(r: Row) {
    Get(r, "uid") != Missing && Get(r, "uid") != Str("")
  }

  function TitleRow(r: Row, cols: seq<string>, title: string -> string): Row {
    map k | k in r :: if k in cols then OnStr(r[k], title) else r[k]
  }

  /** What the steps of a `rearrange_*` demand of their input: `df.uid`
      raises AttributeError without a `uid` column, and `sort_values`
      raises KeyError on a key that is not a column of the projection. */
  predicate Rearrangeable(t: Table, s: Shape) {
    && (s.needsUid ==> "uid" in t.columns)
    && (forall k | k in s.sortKeys :: k in s.canonical && k in t.columns)
  }

  /** The canonical columns the input has, in canonical order. */
  function Present(t: Table, s: Shape): seq<string> {
    Keep(s.canonical, c => c in t.columns)
  }

  /** The rows after the uid filter, the projection and `drop_duplicates`,
      before names and numbers are rendered. */
  function Selected(t: Table, s: Shape): seq<Row> {
    var kept := Kept(t, s);
    Distinct(seq(|kept|, i requires 0 <= i < |kept| => Project(kept[i], Present(t, s))))
  }

  function Rendered(t: Table, s: Shape, title: string -> string): Table {
    var sel := Selected(t, s);
    var titled := seq(|sel|, i requires 0 <= i < |sel| => TitleRow(sel[i], s.titled, title));
    CleanLib.FloatToIntStr(Table(Present(t, s), titled), s.numeric)
  }

  /** The common body of the `rearrange_*` functions. */
  function Rearrange(t: Table, s: Shape, title: string -> string): Table
    requires Rearrangeable(t, s)
  {
    Sort(Rendered(t, s, title), s.sortKeys)
  }

  /** Two rows that `drop_duplicates` keeps apart: some listed column reads
      differently in them, NaN counting as equal to NaN. */
  ghost predicate Unlike(x: Row, y: Row, cols: seq<string>) {
    exists c | c in cols :: Get(x, c) != Get(y, c)
  }

  /** The selected rows are the projections of the rows the uid filter
      keeps: each such row's projection is selected, each selected row is
      one of them, and no two selected rows read alike (NaN for NaN) on
      every kept column, which is how `drop_duplicates` compares rows. */
  lemma SelectedSpec(t: Table, s: Shape)
    ensures var sel := Selected(t, s);
      && (forall x | x in t.rows && (s.needsUid ==> HasUid(x)) :: Project(x, Present(t, s)) in sel)
      && (forall y | y in sel :: exists x | x in t.rows && (s.needsUid ==> HasUid(x)) :: y == Project(x, Present(t, s)))
      && (forall i, j | 0 <= i < j < |sel| :: Unlike(sel[i], sel[j], Present(t, s)))
  {
    SelectedCovers(t, s);
    SelectedFrom(t, s);
    SelectedUnlike(t, s);
  }

  /** The rows the uid filter keeps. */
  function Kept(t: Table, s: Shape): (r: seq<Row>)
    ensures forall x :: x in r <==> x in t.rows && (s.needsUid ==> HasUid(x))
  {
    if s.needsUid then
      assert forall x :: x in Keep(t.rows, HasUid) <==> x in t.rows && HasUid(x) by {
        forall x { KeepHas(t.rows, HasUid, x); }
      }
      Keep(t.rows, HasUid)
    else t.rows
  }

  lemma SelectedCovers(t: Table, s: Shape)
    ensures forall x | x in t.rows && (s.needsUid ==> HasUid(x)) :: Project(x, Present(t, s)) in Selected(t, s)
  {
    var cols := Present(t, s);
    var kept := Kept(t, s);
    var projected := seq(|kept|, i requires 0 <= i < |kept| => Project(kept[i], cols));
    assert Selected(t, s) == Distinct(projected);
    forall x | x in t.rows && (s.needsUid ==> HasUid(x)) ensures Project(x, cols) in Selected(t, s) {
      var i :| 0 <= i < |kept| && kept[i] == x;
      assert projected[i] in projected;
    }
  }

  lemma SelectedFrom(t: Table, s: Shape)
    ensures forall y | y in Selected(t, s) :: exists x | x in t.rows && (s.needsUid ==> HasUid(x)) :: y == Project(x, Present(t, s))
  {
    var cols := Present(t, s);
    var kept := Kept(t, s);
    var projected := seq(|kept|, i requires 0 <= i < |kept| => Project(kept[i], cols));
    assert Selected(t, s) == Distinct(projected);
    forall y | y in Selected(t, s) ensures exists x | x in t.rows && (s.needsUid ==> HasUid(x)) :: y == Project(x, cols) {
      var i :| 0 <= i < |kept| && projected[i] == y;
      assert kept[i] in kept;
    }
  }

  lemma SelectedUnlike(t: Table, s: Shape)
    ensures forall i, j | 0 <= i < j < |Selected(t, s)| :: Unlike(Selected(t, s)[i], Selected(t, s)[j], Present(t, s))
  {
    var cols := Present(t, s);
    var kept := Kept(t, s);
    var projected := seq(|kept|, i requires 0 <= i < |kept| => Project(kept[i], cols));
    var sel := Selected(t, s);
    assert sel == Distinct(projected);
    forall i, j | 0 <= i < j < |sel| ensures Unlike(sel[i], sel[j], cols) {
      assert sel[i] in sel && sel[j] in sel;
      var a :| 0 <= a < |kept| && projected[a] == sel[i];
      var b :| 0 <= b < |kept| && projected[b] == sel[j];
      ProjectAlike(kept[a], kept[b], cols);
      var c :| c in cols && Get(kept[a], c) != Get(kept[b], c);
      assert Get(sel[i], c) != Get(sel[j], c);
    }
  }

  /** Every `rearrange_*` output has exactly the canonical columns present
      in the input, in canonical order; its rows are the selected rows
      (`SelectedSpec`), rendered, in an order sorted by the fixed keys;
      with the uid filter on, no row has a missing or empty uid. */
  lemma RearrangeSpec(t: Table, s: Shape, title: string -> string)
    requires Rearrangeable(t, s)
    requires "uid" !in s.titled && "uid" !in s.numeric
    ensures var r := Rearrange(t, s, title);
      && r.columns == Present(t, s)
      && (forall c | c in r.columns :: c in s.canonical && c in t.columns)
      && (forall k | k in s.sortKeys :: k in r.columns)
      && SortedBy(s.sortKeys, r.rows)
      && multiset(r.rows) == multiset(Rendered(t, s, title).rows)
      && |r.rows| == |Selected(t, s)|
      && (forall i, j | 0 <= i < j < |Selected(t, s)| :: Unlike(Selected(t, s)[i], Selected(t, s)[j], r.columns))
      && (s.needsUid && "uid" in s.canonical ==> forall x | x in r.rows :: HasUid(x))
  {
    var r := Rearrange(t, s, title);
    var rendered := Rendered(t, s, title);
    assert |r.rows| == |rendered.rows| by {
      assert |multiset(r.rows)| == |multiset(rendered.rows)|;
    }
    forall k | k in s.sortKeys ensures k in r.columns {
      KeepHas(s.canonical, c => c in t.columns, k);
    }
    SelectedSpec(t, s);
    if s.needsUid && "uid" in s.canonical {
      RearrangedHaveUid(t, s, title);
    }
  }

  /** With the uid filter on, every selected row has a uid. */
  lemma SelectedHaveUid(t: Table, s: Shape)
    requires s.needsUid && "uid" in t.columns && "uid" in s.canonical
    ensures forall x | x in Selected(t, s) :: HasUid(x)
  {
    var cols := Present(t, s);
    KeepHas(s.canonical, c => c in t.columns, "uid");
    var kept := Keep(t.rows, HasUid);
    var projected := seq(|kept|, i requires 0 <= i < |kept| => Project(kept[i], cols));
    forall x | x in Selected(t, s) ensures HasUid(x) {
      var i :| 0 <= i < |kept| && projected[i] == x;
      assert kept[i] in kept;
    }
  }

  /** Rendering and sorting keep the uid of every row. */
  lemma RearrangedHaveUid(t: Table, s: Shape, title: string -> string)
    requires Rearrangeable(t, s) && s.needsUid && "uid" in s.canonical
    requires "uid" !in s.titled && "uid" !in s.numeric
    ensures forall x | x in Rearrange(t, s, title).rows :: HasUid(x)
  {
    var cols := Present(t, s);
    var sel := Selected(t, s);
    var titled := seq(|sel|, i requires 0 <= i < |sel| => TitleRow(sel[i], s.titled, title));
    var rendered := Rendered(t, s, title);
    SelectedHaveUid(t, s);
    forall x | x in Rearrange(t, s, title).rows ensures HasUid(x) {
      assert x in multiset(rendered.rows);
      var i :| 0 <= i < |rendered.rows| && rendered.rows[i] == x;
      assert sel[i] in sel;
      CleanLib.FloatToIntStrSpec(Table(cols, titled), s.numeric, i, "uid");
    }
  }

  function PersonnelShape(personnelColumns: seq<string>): Shape {
    Shape(personnelColumns, true, ["first_name", "last_name", "middle_name", "middle_initial"],
          ["birth_year", "birth_month", "birth_day"], ["uid"])
  }

  /** `rearrange_personnel_columns(df)` */
  function RearrangePersonnel(t: Table, personnelColumns: seq<string>, title: string -> string): Table
    requires Rearrangeable(t, PersonnelShape(personnelColumns))
  {
    Rearrange(t, PersonnelShape(personnelColumns), title)
  }

  function EventShape(eventColumns: seq<string>): Shape {
    Shape(eventColumns, false, [],
          ["badge_no", "employee_id", "year", "month", "day", "years_employed",
           "department_code", "rank_code"],
          ["agency", "kind", "event_uid"])
  }

  /** `rearrange_event_columns(df)` */
  function RearrangeEvents(t: Table, eventColumns: seq<string>): Table
    requires Rearrangeable(t, EventShape(eventColumns))
  {
    Rearrange(t, EventShape(eventColumns), s => s)
  }

  function ComplaintShape(complaintColumns: seq<string>): Shape {
    Shape(complaintColumns, false, [], ["paragraph_code"], ["agency", "complaint_uid"])
  }

  /** `rearrange_complaint_columns(df)` */
  function RearrangeComplaints(t: Table, complaintColumns: seq<string>): Table
    requires Rearrangeable(t, ComplaintShape(complaintColumns))
  {
    Rearrange(t, ComplaintShape(complaintColumns), s => s)
  }

  function AppealShape(appealColumns: seq<string>): Shape {
    Shape(appealColumns, false, ["counsel"], [], ["agency", "appeal_uid"])
  }

  /** `rearrange_appeal_hearing_columns(df)` */
  function RearrangeAppeals(t: Table, appealColumns: seq<string>, title: string -> string): Table
    requires Rearrangeable(t, AppealShape(appealColumns))
  {
    Rearrange(t, AppealShape(appealColumns), title)
  }

  function UseOfForceShape(useOfForceColumns: seq<string>): Shape {
    Shape(useOfForceColumns, false, [],
          ["citizen_age", "citizen_age_1", "officer_current_supervisor", "officer_age",
           "officer_years_exp", "officer_years_with_unit"],
          ["agency", "uof_uid"])
  }

  /** `rearrange_use_of_force(df)` */
  function RearrangeUseOfForce(t: Table, useOfForceColumns: seq<string>): Table
    requires Rearrangeable(t, UseOfForceShape(useOfForceColumns))
  {
    Rearrange(t, UseOfForceShape(useOfForceColumns), s => s)
  }

  function StopAndSearchShape(stopColumns: seq<string>): Shape {
    Shape(stopColumns, true, ["first_name", "last_name", "middle_name"],
          ["stop_and_search_year", "stop_and_search_month", "stop_and_search_day"],
          ["agency", "stop_and_search_uid"])
  }

  /** `rearrange_stop_and_search_columns(df)` */
  function RearrangeStopAndSearch(t: Table, stopColumns: seq<string>, title: string -> string): Table
    requires Rearrangeable(t, StopAndSearchShape(stopColumns))
  {
    Rearrange(t, StopAndSearchShape(stopColumns), title)
  }
}

=== FILE: match_kenner_pd.dfy ===
/** `match/kenner_pd.py`: Kenner PD personnel against POST, and Kenner PD
    use-of-force records against the personnel roster. */
module MatchKennerPd {
  import opened Text
  import opened Tables
  import opened Matching

  const NameColumns: seq<string> := ["first_name", "last_name", "uid"]
  const UofColumns: seq<string> := ["uid", "first_name", "last_name", "middle_initial"]

  /** `post.agency == 'kenner pd'` (NaN and other agencies compare false). */
  predicate IsKenner(x: Row) { Get(x, "agency") == Str("kenner pd") }

  /** `extract_post_events`: the query whose pairs go to the POST event
      extractor (not part of this model). Only Kenner PD POST rows take
      part; blocking is on the first-name initial alone. */
  function PostEventsQuery(pprr: Table, post: Table, hireDate: Row -> Cell): (q: MatchQuery)
    requires HasColumns(pprr, NameColumns) && "agency" in post.columns && HasColumns(post, NameColumns)
    requires AllNameable(pprr.rows, false) && AllNameable(Keep(post.rows, IsKenner), false)
    ensures Keys(q.left, "uid") == Keys(pprr.rows, "uid")
    ensures forall i, j | 0 <= i < j < |q.left| :: q.left[i] != q.left[j]
    ensures Keys(q.right, "uid") == Keys(Keep(post.rows, IsKenner), "uid") && UidsDistinct(q.right)
    ensures AllNameable(q.left, false) && AllNameable(q.right, false)
    ensures forall x, y | x in q.left && y in q.right && SameBlock(q, x, y) ::
      BlockInitial(Get(x, "first_name")) == BlockInitial(Get(y, "first_name"))
    ensures q.lowerBound == 0.89 && !q.clusters
  {
    MatchQuery(Side(pprr.rows, NameColumns, false, Some(hireDate), WholeRow),
               Side(Keep(post.rows, IsKenner), NameColumns, false, Some(hireDate), ByUid),
               ["fc"], ["first_name", "last_name", "hire_date"], 0.89, false)
  }

  /** POST rows of other agencies have no effect on the query. */
  lemma OtherAgenciesIgnored(pprr: Table, post: Table, others: seq<Row>, hireDate: Row -> Cell)
    requires HasColumns(pprr, NameColumns) && "agency" in post.columns && HasColumns(post, NameColumns)
    requires AllNameable(pprr.rows, false) && AllNameable(Keep(post.rows, IsKenner), false)
    requires forall x | x in others :: !IsKenner(x)
    ensures AllNameable(Keep(post.rows + others, IsKenner), false)
    ensures PostEventsQuery(pprr, Table(post.columns, post.rows + others), hireDate)
         == PostEventsQuery(pprr, post, hireDate)
  {
    KeepAppend(post.rows, others, IsKenner);
    KeepNone(others, IsKenner);
    assert Keep(post.rows + others, IsKenner) == Keep(post.rows, IsKenner);
  }

  /** The query `match_uof_pprr` means to build: use-of-force officers
      against the roster it is given, first row per uid on both sides. */
  function UofQuery(uof: Table, pprr: Table): (q: MatchQuery)
    requires HasColumns(uof, UofColumns) && HasColumns(pprr, UofColumns)
    requires AllNameable(uof.rows, false) && AllNameable(pprr.rows, false)
    ensures Keys(q.left, "uid") == Keys(uof.rows, "uid") && UidsDistinct(q.left)
    ensures Keys(q.right, "uid") == Keys(pprr.rows, "uid") && UidsDistinct(q.right)
    ensures AllNameable(q.left, false) && AllNameable(q.right, false)
    ensures forall x, y | x in q.left && y in q.right && SameBlock(q, x, y) ::
      BlockInitial(Get(x, "first_name")) == BlockInitial(Get(y, "first_name"))
    ensures q.lowerBound == 0.98 && !q.clusters
  {
    MatchQuery(Side(uof.rows, UofColumns, false, None, ByUid),
               Side(pprr.rows, UofColumns, false, None, ByUid),
               ["fc"], ["first_name", "last_name"], 0.98, false)
  }

  /** `match_uof_pprr(uof, ppprr)` as written: its body reads the
      module-level `pprr`, never its parameter `ppprr`. */
  function UofQueryAsWritten(uof: Table, ppprr: Table, modulePprr: Table): (q: MatchQuery)
    requires HasColumns(uof, UofColumns) && HasColumns(modulePprr, UofColumns)
    requires AllNameable(uof.rows, false) && AllNameable(modulePprr.rows, false)
    ensures Keys(q.right, "uid") == Keys(modulePprr.rows, "uid")
  {
    UofQuery(uof, modulePprr)
  }

  /** A roster passed as the argument that differs from the module-level
      one is ignored: the as-written query differs from the intended one. */
  lemma UofArgumentIgnored()
    ensures var uof := Table(UofColumns, []);
      var given := Table(UofColumns, [map["uid" := Str("a"), "first_name" := Str("ann")]]);
      var global := Table(UofColumns, []);
      AllNameable(given.rows, false)
      && UofQueryAsWritten(uof, given, global) != UofQuery(uof, given)
  {
    var uof := Table(UofColumns, []);
    var row: Row := map["uid" := Str("a"), "first_name" := Str("ann")];
    var given := Table(UofColumns, [row]);
    var global := Table(UofColumns, []);
    assert Get(row, "uid") in Keys(given.rows, "uid");
    assert Keys(global.rows, "uid") == {};
    assert Keys(UofQuery(uof, given).right, "uid") != Keys(UofQueryAsWritten(uof, given, global).right, "uid");
  }

  /** `match_uof_pprr`, reading the roster it is given. */
  method MatchUofPprr(uof: Frame, pprr: Table, matcher: Matcher)
    requires HasColumns(uof.Value(), UofColumns) && HasColumns(pprr, UofColumns)
    requires AllNameable(uof.rows, false) && AllNameable(pprr.rows, false)
    modifies uof
    ensures uof.Value() == RemapUids(old(uof.Value()), matcher(UofQuery(old(uof.Value()), pprr)))
  {
    assert "uid" in UofColumns;
    var pairs := matcher(UofQuery(uof.Value(), pprr));
    RemapUid(uof, pairs);
  }
}

=== FILE: match_new_orleans_pd.dfy ===
/** `match/new_orleans_pd.py`: matching New Orleans PD award, LPRR and CSD
    records against the IPM personnel roster, and the roster against POST. */
module MatchNewOrleansPd {
  import opened Text
  import opened Tables
  import opened Matching

  const NameColumns: seq<string> := ["uid", "first_name", "last_name"]
  const LprrColumns: seq<string> := ["uid", "first_name", "last_name", "middle_initial"]
  const CsdColumns: seq<string> := ["uid", "first_name", "last_name", "agency"]

  predicate Named(t: Table) {
    AllNameable(t.rows, true)
  }

  /** `match_pprr_against_post`: the query whose pairs go to the POST event
      extractor (not part of this model). Both sides keep the first row per
      uid, and the matcher only compares officers with the same initials. */
  function PprrPostQuery(pprrIpm: Table, post: Table, hireDate: Row -> Cell): (q: MatchQuery)
    requires HasColumns(pprrIpm, NameColumns) && HasColumns(post, NameColumns)
    requires Named(pprrIpm) && Named(post)
    ensures Keys(q.left, "uid") == Keys(pprrIpm.rows, "uid") && UidsDistinct(q.left)
    ensures Keys(q.right, "uid") == Keys(post.rows, "uid") && UidsDistinct(q.right)
    ensures AllNameable(q.left, true) && AllNameable(q.right, true)
    ensures forall x, y | x in q.left && y in q.right && SameBlock(q, x, y) ::
      BlockInitial(Get(x, "first_name")) == BlockInitial(Get(y, "first_name"))
      && BlockInitial(Get(x, "last_name")) == BlockInitial(Get(y, "last_name"))
    ensures q.lowerBound == 0.803 && !q.clusters
  {
    MatchQuery(Side(pprrIpm.rows, NameColumns, true, Some(hireDate), ByUid),
               Side(post.rows, NameColumns, true, Some(hireDate), ByUid),
               ["fc", "lc"], ["first_name", "last_name", "hire_date"], 0.803, false)
  }

  /** `match_award_to_pprr_ipm`: both sides de-duplicate whole rows, so a
      uid may appear in several entries. */
  function AwardQuery(award: Table, pprrIpm: Table): (q: MatchQuery)
    requires HasColumns(award, NameColumns) && HasColumns(pprrIpm, NameColumns)
    requires Named(award) && Named(pprrIpm)
    ensures Keys(q.left, "uid") == Keys(award.rows, "uid")
    ensures Keys(q.right, "uid") == Keys(pprrIpm.rows, "uid")
    ensures forall i, j | 0 <= i < j < |q.left| :: q.left[i] != q.left[j]
    ensures AllNameable(q.left, true) && AllNameable(q.right, true)
    ensures forall x, y | x in q.left && y in q.right && SameBlock(q, x, y) ::
      BlockInitial(Get(x, "first_name")) == BlockInitial(Get(y, "first_name"))
      && BlockInitial(Get(x, "last_name")) == BlockInitial(Get(y, "last_name"))
    ensures q.lowerBound == 0.93 && !q.clusters
  {
    MatchQuery(Side(award.rows, NameColumns, true, None, WholeRow),
               Side(pprrIpm.rows, NameColumns, true, None, WholeRow),
               ["fc", "lc"], ["first_name", "last_name"], 0.93, false)
  }

  method MatchAwardToPprrIpm(award: Frame, pprrIpm: Table, matcher: Matcher)
    requires HasColumns(award.Value(), NameColumns) && HasColumns(pprrIpm, NameColumns)
    requires Named(award.Value()) && Named(pprrIpm)
    modifies award
    ensures award.Value() == RemapUids(old(award.Value()), matcher(AwardQuery(old(award.Value()), pprrIpm)))
  {
    assert "uid" in NameColumns;
    var pairs := matcher(AwardQuery(award.Value(), pprrIpm));
    RemapUid(award, pairs);
  }

  /** `match_lprr_to_pprr_ipm`: first row per uid, middle initial scored,
      clusters requested. */
  function LprrQuery(lprr: Table, pprrIpm: Table): (q: MatchQuery)
    requires HasColumns(lprr, LprrColumns) && HasColumns(pprrIpm, LprrColumns)
    requires Named(lprr) && Named(pprrIpm)
    ensures Keys(q.left, "uid") == Keys(lprr.rows, "uid") && UidsDistinct(q.left)
    ensures Keys(q.right, "uid") == Keys(pprrIpm.rows, "uid") && UidsDistinct(q.right)
    ensures AllNameable(q.left, true) && AllNameable(q.right, true)
    ensures forall x, y | x in q.left && y in q.right && SameBlock(q, x, y) ::
      BlockInitial(Get(x, "first_name")) == BlockInitial(Get(y, "first_name"))
      && BlockInitial(Get(x, "last_name")) == BlockInitial(Get(y, "last_name"))
    ensures q.lowerBound == 0.80 && q.clusters
  {
    MatchQuery(Side(lprr.rows, LprrColumns, true, None, ByUid),
               Side(pprrIpm.rows, LprrColumns, true, None, ByUid),
               ["fc", "lc"], ["first_name", "last_name", "middle_initial"], 0.80, true)
  }

  method MatchLprrToPprrIpm(lprr: Frame, pprrIpm: Table, matcher: Matcher)
    requires HasColumns(lprr.Value(), LprrColumns) && HasColumns(pprrIpm, LprrColumns)
    requires Named(lprr.Value()) && Named(pprrIpm)
    modifies lprr
    ensures lprr.Value() == RemapUids(old(lprr.Value()), matcher(LprrQuery(old(lprr.Value()), pprrIpm)))
  {
    assert "uid" in LprrColumns;
    var pairs := matcher(LprrQuery(lprr.Value(), pprrIpm));
    RemapUid(lprr, pairs);
  }

  lemma AgencyBlock(q: MatchQuery, x: Row, y: Row)
    requires q.block == ["fc", "lc", "agency"] && SameBlock(q, x, y)
    requires NameCell(Get(x, "first_name")) && NameCell(Get(y, "first_name"))
    requires NameCell(Get(x, "last_name")) && NameCell(Get(y, "last_name"))
    requires Get(x, "fc") == Str(BlockInitial(Get(x, "first_name"))) && Get(y, "fc") == Str(BlockInitial(Get(y, "first_name")))
    requires Get(x, "lc") == Str(BlockInitial(Get(x, "last_name"))) && Get(y, "lc") == Str(BlockInitial(Get(y, "last_name")))
    ensures Get(x, "agency") == Get(y, "agency")
    ensures BlockInitial(Get(x, "first_name")) == BlockInitial(Get(y, "first_name"))
    ensures BlockInitial(Get(x, "last_name")) == BlockInitial(Get(y, "last_name"))
  {
    assert q.block[0] == "fc" && q.block[1] == "lc" && q.block[2] == "agency";
  }

  /** `match_pprr_csd_to_pprr_ipm`: the agency joins the block key, so only
      officers of the same agency with the same initials are compared, and
      only exact scores (lower bound 1) are accepted. */
  function CsdQuery(pprrCsd: Table, pprrIpm: Table, hireDate: Row -> Cell): (q: MatchQuery)
    requires HasColumns(pprrCsd, CsdColumns) && HasColumns(pprrIpm, CsdColumns)
    requires Named(pprrCsd) && Named(pprrIpm)
    ensures Keys(q.left, "uid") == Keys(pprrCsd.rows, "uid") && UidsDistinct(q.left)
    ensures Keys(q.right, "uid") == Keys(pprrIpm.rows, "uid") && UidsDistinct(q.right)
    ensures AllNameable(q.left, true) && AllNameable(q.right, true)
    ensures forall x, y | x in q.left && y in q.right && SameBlock(q, x, y) ::
      Get(x, "agency") == Get(y, "agency")
      && BlockInitial(Get(x, "first_name")) == BlockInitial(Get(y, "first_name"))
      && BlockInitial(Get(x, "last_name")) == BlockInitial(Get(y, "last_name"))
    ensures q.lowerBound == 1.0 && !q.clusters
  {
    var cols := ["uid", "first_name", "last_name", "agency"];
    assert Fits(cols, true);
    var left := Side(pprrCsd.rows, cols, true, Some(hireDate), ByUid);
    var right := Side(pprrIpm.rows, cols, true, Some(hireDate), ByUid);
    var q := MatchQuery(left, right, ["fc", "lc", "agency"], ["first_name", "last_name", "hire_date"], 1.0, false);
    assert forall x, y | x in left && y in right && SameBlock(q, x, y) ::
      Get(x, "agency") == Get(y, "agency")
      && BlockInitial(Get(x, "first_name")) == BlockInitial(Get(y, "first_name"))
      && BlockInitial(Get(x, "last_name")) == BlockInitial(Get(y, "last_name")) by {
      forall x, y | x in left && y in right && SameBlock(q, x, y)
        ensures Get(x, "agency") == Get(y, "agency")
        ensures BlockInitial(Get(x, "first_name")) == BlockInitial(Get(y, "first_name"))
        ensures BlockInitial(Get(x, "last_name")) == BlockInitial(Get(y, "last_name"))
      {
        AgencyBlock(q, x, y);
      }
    }
    q
  }

  method MatchPprrCsdToPprrIpm(pprrCsd: Frame, pprrIpm: Table, hireDate: Row -> Cell, matcher: Matcher)
    requires HasColumns(pprrCsd.Value(), CsdColumns) && HasColumns(pprrIpm, CsdColumns)
    requires Named(pprrCsd.Value()) && Named(pprrIpm)
    modifies pprrCsd
    ensures pprrCsd.Value() == RemapUids(old(pprrCsd.Value()), matcher(CsdQuery(old(pprrCsd.Value()), pprrIpm, hireDate)))
  {
    assert "uid" in CsdColumns;
    var pairs := matcher(CsdQuery(pprrCsd.Value(), pprrIpm, hireDate));
    RemapUid(pprrCsd, pairs);
  }
}

=== FILE: match_post_officer_history.dfy ===
/** `match/post_officer_history.py`: POST officer history against the fused
    personnel table, and the check that every POST agency has personnel. */
module MatchPostOfficerHistory {
  import opened Text
  import opened Tables
  import opened Matching

  const Columns: seq<string> := ["uid", "first_name", "last_name", "middle_name", "agency"]

  /** `match_post_to_personnel`: first row per uid on both sides, blocked on
      the first-name initial and the agency. */
  function PersonnelQuery(post: Table, personnel: Table): (q: MatchQuery)
    requires HasColumns(post, Columns) && HasColumns(personnel, Columns)
    requires AllNameable(post.rows, false) && AllNameable(personnel.rows, false)
    ensures Keys(q.left, "uid") == Keys(post.rows, "uid") && UidsDistinct(q.left)
    ensures Keys(q.right, "uid") == Keys(personnel.rows, "uid") && UidsDistinct(q.right)
    ensures AllNameable(q.left, false) && AllNameable(q.right, false)
    ensures forall x, y | x in q.left && y in q.right && SameBlock(q, x, y) ::
      Get(x, "agency") == Get(y, "agency")
      && BlockInitial(Get(x, "first_name")) == BlockInitial(Get(y, "first_name"))
    ensures q.lowerBound == 0.9 && !q.clusters
  {
    MatchQuery(Side(post.rows, Columns, false, None, ByUid),
               Side(personnel.rows, Columns, false, None, ByUid),
               ["fc", "agency"], ["first_name", "last_name", "middle_name"], 0.9, false)
  }

  method MatchPostToPersonnel(post: Frame, personnel: Table, matcher: Matcher)
    requires HasColumns(post.Value(), Columns) && HasColumns(personnel, Columns)
    requires AllNameable(post.rows, false) && AllNameable(personnel.rows, false)
    modifies post
    ensures post.Value() == RemapUids(old(post.Value()), matcher(PersonnelQuery(old(post.Value()), personnel)))
  {
    assert "uid" in Columns;
    var pairs := matcher(PersonnelQuery(post.Value(), personnel));
    RemapUid(post, pairs);
  }

  /** A POST agency with no personnel row (`~isin`, where NaN matches NaN). */
  predicate Unstaffed(personnel: Table, x: Row) {
    Get(x, "agency") !in Keys(personnel.rows, "agency")
  }

  /** The agency column of rows. */
  function Agencies(rows: seq<Row>): (r: seq<Cell>)
    ensures |r| == |rows| && forall i | 0 <= i < |rows| :: r[i] == Get(rows[i], "agency")
  {
    seq(|rows|, i requires 0 <= i < |rows| => Get(rows[i], "agency"))
  }

  /** `missing_agency["agency"].tolist()`: each POST agency that no personnel
      row has, once, NaN excluded, in order of first appearance. */
  function MissingAgencies(personnel: Table, post: Table): (r: seq<Cell>)
    requires "agency" in personnel.columns && "agency" in post.columns
    ensures forall i, j | 0 <= i < j < |r| :: r[i] != r[j]
    ensures forall a | a in r :: a != Missing && a !in Keys(personnel.rows, "agency") && a in Keys(post.rows, "agency")
    ensures forall x | x in post.rows && Get(x, "agency") != Missing && Unstaffed(personnel, x) :: Get(x, "agency") in r
  {
    var outside := Keep(post.rows, x => Unstaffed(personnel, x));
    var d := Distinct(Agencies(outside));
    var r := Keep(d, a => a != Missing);
    assert forall i, j | 0 <= i < j < |r| :: r[i] != r[j] by {
      KeepDistinct(d, a => a != Missing);
    }
    forall a | a in r ensures a !in Keys(personnel.rows, "agency") && a in Keys(post.rows, "agency") {
      var i :| 0 <= i < |outside| && Agencies(outside)[i] == a;
      assert outside[i] in outside;
    }
    forall x | x in post.rows && Get(x, "agency") != Missing && Unstaffed(personnel, x) ensures Get(x, "agency") in r {
      KeepHas(post.rows, y => Unstaffed(personnel, y), x);
      var i :| 0 <= i < |outside| && outside[i] == x;
      assert Agencies(outside)[i] == Get(x, "agency");
      KeepHas(d, a => a != Missing, Get(x, "agency"));
    }
    r
  }

  /** What `post_agency_is_per_agency_subset` produces: the POST table, and
      the warning it raises, if any. */
  datatype Checked = Checked(post: Table, warning: Option<seq<Cell>>)

  /** `post_agency_is_per_agency_subset`: returns `post` unchanged, and warns
      exactly when some non-missing POST agency has no personnel row. */
  function AgencySubsetCheck(personnel: Table, post: Table): (r: Checked)
    requires "agency" in personnel.columns && "agency" in post.columns
    ensures r.post == post
    ensures r.warning.Some? <==>
      exists x | x in post.rows :: Get(x, "agency") != Missing && Unstaffed(personnel, x)
    ensures r.warning.Some? ==> r.warning.value == MissingAgencies(personnel, post)
  {
    var m := MissingAgencies(personnel, post);
    if |m| != 0 then
      assert exists x | x in post.rows :: Get(x, "agency") != Missing && Unstaffed(personnel, x) by {
        assert m[0] in m;
        var x :| x in post.rows && Get(x, "agency") == m[0];
      }
      Checked(post, Some(m))
    else Checked(post, None)
  }
}

=== FILE: match_rayne_pd.dfy ===
/** `match/rayne_pd.py`: Rayne PD complaint records and personnel against
    POST. */
module MatchRaynePd {
  import opened Text
  import opened Tables
  import opened Matching

  const NameColumns: seq<string> := ["uid", "first_name", "last_name"]

  /** `cprr.uid.notna()` */
  predicate UidPresent(x: Row) { Get(x, "uid") != Missing }

  /** `assign_uid_from_post`: the left index takes only complaint rows with
      a uid (first row per uid); POST rows are de-duplicated whole. */
  function CprrQuery(cprr: Table, post: Table): (q: MatchQuery)
    requires HasColumns(cprr, NameColumns) && HasColumns(post, NameColumns)
    requires AllNameable(Keep(cprr.rows, UidPresent), false) && AllNameable(post.rows, false)
    ensures Keys(q.left, "uid") == Keys(cprr.rows, "uid") - {Missing} && UidsDistinct(q.left)
    ensures Keys(q.right, "uid") == Keys(post.rows, "uid")
    ensures forall i, j | 0 <= i < j < |q.right| :: q.right[i] != q.right[j]
    ensures AllNameable(q.left, false) && AllNameable(q.right, false)
    ensures forall x, y | x in q.left && y in q.right && SameBlock(q, x, y) ::
      BlockInitial(Get(x, "first_name")) == BlockInitial(Get(y, "first_name"))
    ensures q.lowerBound == 1.0 && !q.clusters
  {
    var present := Keep(cprr.rows, UidPresent);
    assert Keys(present, "uid") == Keys(cprr.rows, "uid") - {Missing} by {
      forall k | k in Keys(cprr.rows, "uid") - {Missing} ensures k in Keys(present, "uid") {
        var x :| x in cprr.rows && Get(x, "uid") == k;
        KeepHas(cprr.rows, UidPresent, x);
      }
    }
    MatchQuery(Side(present, NameColumns, false, None, ByUid),
               Side(post.rows, NameColumns, false, None, WholeRow),
               ["fc"], ["first_name", "last_name"], 1.0, false)
  }

  /** With pairs drawn from the two indexes, a complaint row without a uid
      keeps it missing. */
  lemma MissingUidStays(cprr: Table, post: Table, pairs: seq<(Cell, Cell)>, i: nat)
    requires HasColumns(cprr, NameColumns) && HasColumns(post, NameColumns)
    requires AllNameable(Keep(cprr.rows, UidPresent), false) && AllNameable(post.rows, false)
    requires i < |cprr.rows| && !UidPresent(cprr.rows[i])
    requires FromIndexes(CprrQuery(cprr, post), pairs)
    ensures Get(RemapUids(cprr, pairs).rows[i], "uid") == Missing
  {
    forall p | p in pairs ensures p.0 != Missing {
      assert p.0 in Keys(CprrQuery(cprr, post).left, "uid");
    }
  }

  method AssignUidFromPost(cprr: Frame, post: Table, matcher: Matcher)
    requires HasColumns(cprr.Value(), NameColumns) && HasColumns(post, NameColumns)
    requires AllNameable(Keep(cprr.rows, UidPresent), false) && AllNameable(post.rows, false)
    modifies cprr
    ensures cprr.Value() == RemapUids(old(cprr.Value()), matcher(CprrQuery(old(cprr.Value()), post)))
  {
    assert "uid" in NameColumns;
    var pairs := matcher(CprrQuery(cprr.Value(), post));
    RemapUid(cprr, pairs);
  }

  /** `extract_post_events`: personnel rows de-duplicated whole, POST rows
      by uid; its pairs go to the POST event extractor (not part of this
      model). */
  function PostEventsQuery(pprr: Table, post: Table): (q: MatchQuery)
    requires HasColumns(pprr, NameColumns) && HasColumns(post, NameColumns)
    requires AllNameable(pprr.rows, false) && AllNameable(post.rows, false)
    ensures Keys(q.left, "uid") == Keys(pprr.rows, "uid")
    ensures forall i, j | 0 <= i < j < |q.left| :: q.left[i] != q.left[j]
    ensures Keys(q.right, "uid") == Keys(post.rows, "uid") && UidsDistinct(q.right)
    ensures AllNameable(q.left, false) && AllNameable(q.right, false)
    ensures forall x, y | x in q.left && y in q.right && SameBlock(q, x, y) ::
      BlockInitial(Get(x, "first_name")) == BlockInitial(Get(y, "first_name"))
    ensures q.lowerBound == 0.981 && !q.clusters
  {
    MatchQuery(Side(pprr.rows, NameColumns, false, None, WholeRow),
               Side(post.rows, NameColumns, false, None, ByUid),
               ["fc"], ["first_name", "last_name"], 0.981, false)
  }
}

=== FILE: match_tangipahoa_da.dfy ===
/** `match/tangipahoa_da.py`: Tangipahoa DA complaint records against POST. */
module MatchTangipahoaDa {
  import opened Text
  import opened Tables
  import opened Matching

  const Columns: seq<string> := ["first_name", "last_name", "uid", "agency"]

  /** `first_name.map(lambda x: x[:1])` has no `fillna`: a missing first
      name would fail, so every first name must be a string. */
  predicate Spelled(t: Table) {
    forall x | x in t.rows :: Get(x, "first_name").Str? && NameCell(Get(x, "last_name"))
  }

  function CprrQuery(cprr: Table, post: Table): (q: MatchQuery)
    requires HasColumns(cprr, Columns) && HasColumns(post, Columns)
    requires Spelled(cprr) && Spelled(post)
    ensures Keys(q.left, "uid") == Keys(cprr.rows, "uid") && UidsDistinct(q.left)
    ensures Keys(q.right, "uid") == Keys(post.rows, "uid") && UidsDistinct(q.right)
    ensures AllNameable(q.left, true) && AllNameable(q.right, true)
    ensures forall x, y | x in q.left && y in q.right && SameBlock(q, x, y) ::
      BlockInitial(Get(x, "first_name")) == BlockInitial(Get(y, "first_name"))
      && BlockInitial(Get(x, "last_name")) == BlockInitial(Get(y, "last_name"))
    ensures q.lowerBound == 0.96 && !q.clusters
  {
    MatchQuery(Side(cprr.rows, Columns, true, None, ByUid),
               Side(post.rows, Columns, true, None, ByUid),
               ["fc", "lc"], ["first_name", "last_name"], 0.96, false)
  }

  method MatchCprrWithPost(cprr: Frame, post: Table, matcher: Matcher)
    requires HasColumns(cprr.Value(), Columns) && HasColumns(post, Columns)
    requires Spelled(cprr.Value()) && Spelled(post)
    modifies cprr
    ensures cprr.Value() == RemapUids(old(cprr.Value()), matcher(CprrQuery(old(cprr.Value()), post)))
  {
    assert "uid" in Columns;
    var pairs := matcher(CprrQuery(cprr.Value(), post));
    RemapUid(cprr, pairs);
  }
}

=== FILE: matching.dfy ===
/** The glue every matching script puts around the external record
    matcher: block keys from name initials, one index entry per uid (or per
    distinct row), and the rewrite of a table's `uid` column through
    `dict(matches).get(x, x)`. The matcher itself is a function parameter
    from the query it is given to the pairs it returns. */
module Matching {
  import opened Text
  import opened Tables

  /** `name.fillna('').map(lambda x: x[:1])`: the first character of the
      name, `''` when the name is missing or empty. */
  function BlockInitial(c: Cell): (r: string)
    requires NameCell(c)
    ensures |r| <= 1
    ensures r == "" <==> c.Missing? || c.s == ""
    ensures c.Str? ==> StartsWith(c.s, r)
  {
    if c.Str? then Initial(c.s) else ""
  }

  /** The derived columns of an index entry are not among the selected ones. */
  predicate Fits(cols: seq<string>, withLast: bool) {
    "uid" in cols && "first_name" in cols && (withLast ==> "last_name" in cols)
    && "fc" !in cols && "lc" !in cols && "hire_date" !in cols
  }

  /** `df[cols]` raises KeyError unless every listed column exists. */
  predicate HasColumns(t: Table, cols: seq<string>) {
    forall c | c in cols :: c in t.columns
  }

  predicate Nameable(x: Row, withLast: bool) {
    NameCell(Get(x, "first_name")) && (withLast ==> NameCell(Get(x, "last_name")))
  }

  predicate AllNameable(s: seq<Row>, withLast: bool) {
    forall x | x in s :: Nameable(x, withLast)
  }

  /** One index entry: the selected columns of `x`, its hire date when the
      script combines one, and the block keys `fc` (and `lc`). */
  function Entry(x: Row, cols: seq<string>, withLast: bool, hireDate: Option<Row -> Cell>): (r: Row)
    requires Fits(cols, withLast) && Nameable(x, withLast)
    ensures forall c | c in cols :: Get(r, c) == Get(x, c)
    ensures Nameable(r, withLast)
    ensures Get(r, "fc") == Str(BlockInitial(Get(r, "first_name")))
    ensures withLast ==> Get(r, "lc") == Str(BlockInitial(Get(r, "last_name")))
    ensures hireDate.Some? ==> Get(r, "hire_date") == hireDate.value(x)
  {
    var p := Project(x, cols);
    var d := if hireDate.Some? then p["hire_date" := hireDate.value(x)] else p;
    var k := d["fc" := Str(BlockInitial(Get(x, "first_name")))];
    if withLast then k["lc" := Str(BlockInitial(Get(x, "last_name")))] else k
  }

  /** How a script de-duplicates one side before `set_index('uid')`. */
  datatype Dedup = ByUid | WholeRow

  lemma {:induction false} KeysPointwise(a: seq<Row>, b: seq<Row>, c: string)
    requires |a| == |b| && forall i | 0 <= i < |a| :: Get(a[i], c) == Get(b[i], c)
    ensures Keys(a, c) == Keys(b, c)
  {
    forall k | k in Keys(a, c) ensures k in Keys(b, c) {
      var x :| x in a && Get(x, c) == k;
      var i :| 0 <= i < |a| && a[i] == x;
      assert b[i] in b;
    }
    forall k | k in Keys(b, c) ensures k in Keys(a, c) {
      var x :| x in b && Get(x, c) == k;
      var i :| 0 <= i < |b| && b[i] == x;
      assert a[i] in a;
    }
  }

  /** No two entries share a uid, as `set_index('uid')` after
      `drop_duplicates(subset=['uid'])` guarantees. */
  predicate UidsDistinct(s: seq<Row>) {
    forall i, j | 0 <= i < j < |s| :: Get(s[i], "uid") != Get(s[j], "uid")
  }

  /** One side of the matcher: entries for `rows`, de-duplicated. */
  function Side(rows: seq<Row>, cols: seq<string>, withLast: bool, hireDate: Option<Row -> Cell>, dedup: Dedup): (r: seq<Row>)
    requires Fits(cols, withLast) && AllNameable(rows, withLast)
    ensures AllNameable(r, withLast)
    ensures forall e | e in r :: Get(e, "fc") == Str(BlockInitial(Get(e, "first_name")))
    ensures withLast ==> forall e | e in r :: Get(e, "lc") == Str(BlockInitial(Get(e, "last_name")))
    ensures Keys(r, "uid") == Keys(rows, "uid")
    ensures dedup == ByUid ==> UidsDistinct(r)
    ensures dedup == WholeRow ==> forall i, j | 0 <= i < j < |r| :: r[i] != r[j]
  {
    var es := seq(|rows|, i requires 0 <= i < |rows| => Entry(rows[i], cols, withLast, hireDate));
    KeysPointwise(es, rows, "uid");
    if dedup == ByUid then
      DedupByUnique(es, "uid");
      DedupBy(es, "uid")
    else
      var d := Distinct(es);
      assert Keys(d, "uid") == Keys(es, "uid") by {
        forall k | k in Keys(es, "uid") ensures k in Keys(d, "uid") {
          var x :| x in es && Get(x, "uid") == k;
          assert x in d;
        }
      }
      d
  }

  /** What a script hands the matcher: the two indexes, the block-key
      columns, the scored columns, the decision threshold and whether it
      asks for clusters instead of pairs. */
  datatype MatchQuery = MatchQuery(left: seq<Row>, right: seq<Row>, block: seq<string>,
                                   scored: seq<string>, lowerBound: real, clusters: bool)

  /** The external matcher: `get_index_pairs_within_thresholds` (or the
      cluster variant) for a query. */
  type Matcher = MatchQuery -> seq<(Cell, Cell)>

  /** Pairs drawn from the two indexes: each pair is (left uid, right uid). */
  predicate FromIndexes(q: MatchQuery, pairs: seq<(Cell, Cell)>) {
    forall p | p in pairs :: p.0 in Keys(q.left, "uid") && p.1 in Keys(q.right, "uid")
  }

  /** Two entries the matcher may compare: equal on every block column. */
  predicate SameBlock(q: MatchQuery, x: Row, y: Row) {
    forall c | c in q.block :: Get(x, c) == Get(y, c)
  }

  // ---------------------------------------------------------------------
  // dict(matches).get(x, x)

  /** The second element of the last pair whose first element is `x`. */
  function LastMatch(pairs: seq<(Cell, Cell)>, x: Cell): (r: Option<Cell>)
    ensures r.None? <==> forall p | p in pairs :: p.0 != x
    ensures r.Some? ==> (x, r.value) in pairs
    decreases |pairs|
  {
    if pairs == [] then None
    else
      var last := pairs[|pairs| - 1];
      assert forall p | p in pairs :: p in pairs[..|pairs| - 1] || p == last;
      if last.0 == x then Some(last.1) else LastMatch(pairs[..|pairs| - 1], x)
  }

  /** Where the last match sits: no later pair has first element `x`. */
  lemma {:induction false} LastMatchAt(pairs: seq<(Cell, Cell)>, x: Cell) returns (k: nat)
    requires LastMatch(pairs, x).Some?
    ensures k < |pairs| && pairs[k] == (x, LastMatch(pairs, x).value)
    ensures forall j | k < j < |pairs| :: pairs[j].0 != x
    decreases |pairs|
  {
    var front := pairs[..|pairs| - 1];
    if pairs[|pairs| - 1].0 == x {
      k := |pairs| - 1;
    } else {
      k := LastMatchAt(front, x);
      assert pairs[k] == front[k];
    }
  }

  /** `dict(matches).get(x, x)` */
  function Lookup(pairs: seq<(Cell, Cell)>, x: Cell): (r: Cell)
    ensures (forall p | p in pairs :: p.0 != x) ==> r == x
    ensures r != x ==> (x, r) in pairs
  {
    match LastMatch(pairs, x)
    case None => x
    case Some(v) => v
  }

  /** On a uid that heads several pairs, the last of them wins. */
  lemma {:induction false} LookupLastWins(pairs: seq<(Cell, Cell)>, i: nat)
    requires i < |pairs|
    requires forall j | i < j < |pairs| :: pairs[j].0 != pairs[i].0
    ensures Lookup(pairs, pairs[i].0) == pairs[i].1
    decreases |pairs|
  {
    if i < |pairs| - 1 {
      var front := pairs[..|pairs| - 1];
      assert front[i] == pairs[i];
      LookupLastWins(front, i);
    }
  }

  /** The dictionary Python builds from `matches`, one pair at a time
      left to right, a later pair overwriting an earlier key. */
  function DictFrom(acc: map<Cell, Cell>, pairs: seq<(Cell, Cell)>): map<Cell, Cell>
    decreases |pairs|
  {
    if pairs == [] then acc else DictFrom(acc[pairs[0].0 := pairs[0].1], pairs[1..])
  }

  function DictGet(d: map<Cell, Cell>, x: Cell): Cell {
    if x in d then d[x] else x
  }

  lemma {:induction false} LastMatchFront(pairs: seq<(Cell, Cell)>, x: Cell)
    requires pairs != []
    ensures LastMatch(pairs, x) ==
      if LastMatch(pairs[1..], x).Some? then LastMatch(pairs[1..], x)
      else if pairs[0].0 == x then Some(pairs[0].1) else None
    decreases |pairs|
  {
    if |pairs| > 1 {
      var front := pairs[..|pairs| - 1];
      LastMatchFront(front, x);
      assert front[1..] == pairs[1..][..|pairs[1..]| - 1];
    }
  }

  lemma {:induction false} DictFromFind(acc: map<Cell, Cell>, pairs: seq<(Cell, Cell)>, x: Cell)
    ensures DictGet(DictFrom(acc, pairs), x) ==
      match LastMatch(pairs, x) case Some(v) => v case None => DictGet(acc, x)
    decreases |pairs|
  {
    if pairs != [] {
      DictFromFind(acc[pairs[0].0 := pairs[0].1], pairs[1..], x);
      LastMatchFront(pairs, x);
    }
  }

  /** `Lookup` is the `get` of the dictionary Python builds. */
  lemma LookupIsDictGet(pairs: seq<(Cell, Cell)>, x: Cell)
    ensures Lookup(pairs, x) == DictGet(DictFrom(map[], pairs), x)
  {
    DictFromFind(map[], pairs, x);
  }

  /** The new `uid` cell of a row. */
  function UidMap(pairs: seq<(Cell, Cell)>): Row -> Cell {
    row => Lookup(pairs, Get(row, "uid"))
  }

  /** `df.uid.map(lambda x: match_dict.get(x, x))` written back to `uid`. */
  function RemapUids(t: Table, pairs: seq<(Cell, Cell)>): (r: Table)
    requires "uid" in t.columns
    ensures r.columns == t.columns && |r.rows| == |t.rows|
    ensures forall i | 0 <= i < |t.rows| :: Get(r.rows[i], "uid") == Lookup(pairs, Get(t.rows[i], "uid"))
    ensures forall i, c | 0 <= i < |t.rows| && c != "uid" :: Get(r.rows[i], c) == Get(t.rows[i], c)
  {
    WithColumn(t, "uid", UidMap(pairs))
  }

  /** `df.loc[:, 'uid'] = df.uid.map(lambda x: match_dict.get(x, x))` on the
      caller's frame. */
  method RemapUid(df: Frame, pairs: seq<(Cell, Cell)>)
    requires "uid" in df.columns
    modifies df
    ensures df.Value() == RemapUids(old(df.Value()), pairs)
  {
    df.SetColumn("uid", UidMap(pairs));
  }
}

=== FILE: order.dfy ===
/** `DataFrame.sort_values(keys)`: the order on cells, lexicographic order on
    rows by a key list, and a sort that produces an ordered permutation. */
module Ordering {
  import opened Tables

  /** Python's `<=` on `str`: code-point lexicographic order. */
  predicate StrLe(a: string, b: string) {
    |a| == 0 || (|b| > 0 && (a[0] < b[0] || (a[0] == b[0] && StrLe(a[1..], b[1..]))))
  }

  lemma {:induction false} StrLeTotal(a: string, b: string)
    ensures StrLe(a, b) || StrLe(b, a)
  {
    if |a| > 0 && |b| > 0 && a[0] == b[0] {
      StrLeTotal(a[1..], b[1..]);
    }
  }

  lemma {:induction false} StrLeTrans(a: string, b: string, c: string)
    requires StrLe(a, b) && StrLe(b, c)
    ensures StrLe(a, c)
  {
    if |a| > 0 && a[0] == b[0] && b[0] == c[0] {
      StrLeTrans(a[1..], b[1..], c[1..]);
    }
  }

  lemma {:induction false} StrLeAntisym(a: string, b: string)
    requires StrLe(a, b) && StrLe(b, a)
    ensures a == b
  {
    if |a| > 0 {
      StrLeAntisym(a[1..], b[1..]);
      assert a == [a[0]] + a[1..] && b == [b[0]] + b[1..];
    }
  }

  /** Numbers sort before strings, and NaN goes last (`na_position='last'`). */
  function Rank(c: Cell): nat {
    match c
    case Int(_) => 0
    case IntegralFloat(_) => 0
    case Str(_) => 1
    case Missing => 2
  }

  function Number(c: Cell): int {
    match c
    case Int(i) => i
    case IntegralFloat(f) => f
    case _ => 0
  }

  predicate CellLe(a: Cell, b: Cell) {
    Rank(a) < Rank(b)
    || (Rank(a) == Rank(b) && (Rank(a) != 0 || Number(a) <= Number(b))
        && (Rank(a) != 1 || StrLe(a.s, b.s)))
  }

  lemma CellLeTotal(a: Cell, b: Cell)
    ensures CellLe(a, b) || CellLe(b, a)
  {
    if a.Str? && b.Str? {
      StrLeTotal(a.s, b.s);
    }
  }

  lemma CellLeTrans(a: Cell, b: Cell, c: Cell)
    requires CellLe(a, b) && CellLe(b, c)
    ensures CellLe(a, c)
  {
    if a.Str? && b.Str? && c.Str? {
      StrLeTrans(a.s, b.s, c.s);
    }
  }

  /** Rows compared by the first key column on which they differ. */
  predicate RowLe(keys: seq<string>, x: Row, y: Row)
    decreases |keys|
  {
    keys == []
    || (var a, b := Get(x, keys[0]), Get(y, keys[0]);
        CellLe(a, b) && (!CellLe(b, a) || RowLe(keys[1..], x, y)))
  }

  lemma {:induction false} RowLeTotal(keys: seq<string>, x: Row, y: Row)
    ensures RowLe(keys, x, y) || RowLe(keys, y, x)
    decreases |keys|
  {
    if keys != [] {
      CellLeTotal(Get(x, keys[0]), Get(y, keys[0]));
      RowLeTotal(keys[1..], x, y);
    }
  }

  lemma {:induction false} RowLeTrans(keys: seq<string>, x: Row, y: Row, z: Row)
    requires RowLe(keys, x, y) && RowLe(keys, y, z)
    ensures RowLe(keys, x, z)
    decreases |keys|
  {
    if keys != [] {
      var a, b, c := Get(x, keys[0]), Get(y, keys[0]), Get(z, keys[0]);
      CellLeTrans(a, b, c);
      if CellLe(c, a) {
        CellLeTrans(b, c, a);
        CellLeTrans(c, a, b);
        RowLeTrans(keys[1..], x, y, z);
      }
    }
  }

  predicate SortedBy(keys: seq<string>, s: seq<Row>) {
    forall i, j | 0 <= i < j < |s| :: RowLe(keys, s[i], s[j])
  }

  /** A row below every row of a sorted sequence can go in front of it. */
  lemma ConsSorted(keys: seq<string>, h: Row, t: seq<Row>)
    requires SortedBy(keys, t) && forall y | y in t :: RowLe(keys, h, y)
    ensures SortedBy(keys, [h] + t)
  {
    forall i, j | 0 <= i < j < |[h] + t| ensures RowLe(keys, ([h] + t)[i], ([h] + t)[j]) {
      assert ([h] + t)[j] == t[j - 1];
      if i > 0 {
        assert ([h] + t)[i] == t[i - 1];
      }
    }
  }

  /** A row not above the head of a sorted sequence is below all of it. */
  lemma BelowHead(keys: seq<string>, x: Row, s: seq<Row>)
    requires SortedBy(keys, s) && (s != [] ==> RowLe(keys, x, s[0]))
    ensures forall y | y in s :: RowLe(keys, x, y)
  {
    forall y | y in s ensures RowLe(keys, x, y) {
      var j :| 0 <= j < |s| && s[j] == y;
      if j > 0 { RowLeTrans(keys, x, s[0], s[j]); }
    }
  }

  /** The head of a sorted sequence stays below everything once `x`, which
      is above it, joins the tail. */
  lemma HeadBelow(keys: seq<string>, x: Row, s: seq<Row>, t: seq<Row>)
    requires SortedBy(keys, s) && s != [] && !RowLe(keys, x, s[0])
    requires multiset(t) == multiset(s[1..]) + multiset{x}
    ensures forall y | y in t :: RowLe(keys, s[0], y)
  {
    RowLeTotal(keys, x, s[0]);
    forall y | y in t ensures RowLe(keys, s[0], y) {
      assert y in multiset(t);
      if y != x {
        assert y in multiset(s[1..]);
        var j :| 0 <= j < |s[1..]| && s[1..][j] == y;
        assert s[j + 1] == y;
      }
    }
  }

  /** Places `x` before the first row of the sorted `s` that is not below it. */
  function Insert(keys: seq<string>, x: Row, s: seq<Row>): (r: seq<Row>)
    requires SortedBy(keys, s)
    ensures SortedBy(keys, r)
    ensures multiset(r) == multiset(s) + multiset{x}
  {
    if s == [] || RowLe(keys, x, s[0]) then
      BelowHead(keys, x, s);
      ConsSorted(keys, x, s);
      [x] + s
    else
      var t := Insert(keys, x, s[1..]);
      HeadBelow(keys, x, s, t);
      ConsSorted(keys, s[0], t);
      assert s == [s[0]] + s[1..];
      [s[0]] + t
  }

  /** `sort_values(keys)`: an ordered permutation of the rows. */
  function SortBy(keys: seq<string>, s: seq<Row>): (r: seq<Row>)
    ensures SortedBy(keys, r)
    ensures multiset(r) == multiset(s)
  {
    if s == [] then []
    else
      assert s == [s[0]] + s[1..];
      Insert(keys, s[0], SortBy(keys, s[1..]))
  }

  /** `df.sort_values(keys)` */
  function Sort(t: Table, keys: seq<string>): (r: Table)
    ensures r.columns == t.columns
    ensures SortedBy(keys, r.rows) && multiset(r.rows) == multiset(t.rows)
  {
    Table(t.columns, SortBy(keys, t.rows))
  }
}

=== FILE: rosters.dfy ===
/** The shape the university roster scripts share: keep the rows of the
    statewide roster whose agency is one exact value, then rewrite that
    value in place with a literal (not regular-expression) replace-all. */
module Rosters {
  import opened Text
  import opened Tables

  predicate AtAgency(x: Row, code: string) {
    Get(x, "agency") == Str(code)
  }

  /** The row test `df.agency == code`; a missing agency never passes. */
  function AgencyIs(code: string): Row -> bool {
    x => AtAgency(x, code)
  }

  /** `extract_roster(df)`: `df[df.agency == code]`; `df.agency` raises
      without an `agency` column. */
  function ExtractRoster(t: Table, code: string): (r: Table)
    requires "agency" in t.columns
    ensures r.columns == t.columns && |r.rows| <= |t.rows|
  {
    Filter(t, AgencyIs(code))
  }

  /** The rows kept are exactly the rows whose agency is `code`, in their
      order: the rows with that agency from two parts of the roster are
      the kept rows of each part, one after the other. */
  lemma ExtractRosterSpec(t: Table, code: string)
    requires "agency" in t.columns
    ensures forall x :: x in ExtractRoster(t, code).rows <==> x in t.rows && AtAgency(x, code)
    ensures forall i | 0 <= i < |ExtractRoster(t, code).rows| :: AtAgency(ExtractRoster(t, code).rows[i], code)
    ensures forall a, b | t.rows == a + b :: ExtractRoster(t, code).rows == Keep(a, AgencyIs(code)) + Keep(b, AgencyIs(code))
  {
    var r := ExtractRoster(t, code);
    forall x ensures x in r.rows <==> x in t.rows && AtAgency(x, code) {
      KeepHas(t.rows, AgencyIs(code), x);
    }
    forall i | 0 <= i < |r.rows| ensures AtAgency(r.rows[i], code) {
      assert r.rows[i] in r.rows;
    }
    forall a, b | t.rows == a + b
      ensures r.rows == Keep(a, AgencyIs(code)) + Keep(b, AgencyIs(code))
    {
      KeepAppend(a, b, AgencyIs(code));
    }
  }

  /** `agency.str.replace(pattern, name, regex=False)` on one cell. */
  function RenamedAgency(c: Cell, pattern: string, name: string): Cell {
    if c.Str? then Str(ReplaceAll(c.s, pattern, name)) else Missing
  }

  function AgencyRenamed(pattern: string, name: string): Row -> Cell {
    x => RenamedAgency(Get(x, "agency"), pattern, name)
  }

  /** `clean_agency(df)` */
  method CleanAgency(df: Frame, pattern: string, name: string)
    requires "agency" in df.columns
    modifies df
    ensures df.Value() == WithColumn(old(df.Value()), "agency", AgencyRenamed(pattern, name))
  {
    df.SetColumn("agency", AgencyRenamed(pattern, name));
  }

  /** Only the agency changes, and it changes only where it holds the
      pattern; an agency that is exactly the pattern becomes the name. */
  lemma CleanAgencySpec(t: Table, pattern: string, name: string, i: nat)
    requires |pattern| > 0 && i < |t.rows|
    ensures var r := WithColumn(t, "agency", AgencyRenamed(pattern, name)); var x, y := t.rows[i], r.rows[i];
      && |r.rows| == |t.rows|
      && (forall c | c != "agency" :: Get(y, c) == Get(x, c))
      && (Get(x, "agency").Str? && !Contains(Get(x, "agency").s, pattern) ==> Get(y, "agency") == Get(x, "agency"))
      && (Get(x, "agency") == Str(pattern) ==> Get(y, "agency") == Str(name))
      && (!Get(x, "agency").Str? ==> Get(y, "agency") == Missing)
  {
    var x := t.rows[i];
    if Get(x, "agency").Str? && !Contains(Get(x, "agency").s, pattern) {
      ReplaceAllAbsent(Get(x, "agency").s, pattern, name);
    }
    if Get(x, "agency") == Str(pattern) {
      ReplaceAllWhole(pattern, name);
    }
  }

  /** `y` is a row of the roster with agency `code`, but for its agency. */
  ghost predicate FromRoster(t: Table, code: string, y: Row) {
    exists x | x in t.rows && AtAgency(x, code) :: forall c | c != "agency" :: Get(y, c) == Get(x, c)
  }

  /** `clean()`: the roster extracted, then its agency rewritten. */
  function Roster(t: Table, code: string, pattern: string, name: string): Table
    requires "agency" in t.columns
  {
    WithColumn(ExtractRoster(t, code), "agency", AgencyRenamed(pattern, name))
  }

  /** Every row of the result comes from a row of the roster with agency
      `code`, carries the rewritten `code` as its agency and keeps every
      other cell; there is one for each such row. */
  lemma RosterSpec(t: Table, code: string, pattern: string, name: string)
    requires "agency" in t.columns
    ensures var r := Roster(t, code, pattern, name);
      && |r.rows| == |Keep(t.rows, AgencyIs(code))|
      && (forall i | 0 <= i < |r.rows| :: Get(r.rows[i], "agency") == Str(ReplaceAll(code, pattern, name)))
      && (forall i | 0 <= i < |r.rows| :: FromRoster(t, code, r.rows[i]))
  {
    var e := ExtractRoster(t, code);
    ExtractRosterSpec(t, code);
    forall i | 0 <= i < |e.rows| ensures FromRoster(t, code, Roster(t, code, pattern, name).rows[i]) {
      assert e.rows[i] in e.rows;
    }
  }

  /** A pattern that starts the agency, with a tail too short to hold
      another, is replaced once. */
  lemma ReplacedPrefix(pattern: string, tail: string, name: string)
    requires |pattern| > 0 && |tail| < |pattern|
    ensures ReplaceAll(pattern + tail, pattern, name) == name + tail
  {
    ReplaceAllAtFront(pattern, tail, name);
  }
}

=== FILE: sequences.dfy ===
/** Replacing each element of a sequence by a sequence, in order, and the
    bookkeeping of a loop that does it in place: each element to be
    replaced is found at its original position shifted by the number of
    elements the earlier replacements added. */
module Sequences {

  /** Each element of `s` replaced by `f` of it. */
  function FlatMap<T>(s: seq<T>, f: T -> seq<T>): seq<T>
    decreases |s|
  {
    if s == [] then [] else f(s[0]) + FlatMap(s[1..], f)
  }

  /** `f` leaves the elements at positions `lo` to `hi` (excluded) alone. */
  ghost predicate FixedOn<T>(s: seq<T>, f: T -> seq<T>, lo: int, hi: int) {
    forall k | lo <= k < hi && 0 <= k < |s| :: f(s[k]) == [s[k]]
  }

  /** The replacement works element by element. */
  lemma {:induction false} FlatMapAppend<T>(a: seq<T>, b: seq<T>, f: T -> seq<T>)
    ensures FlatMap(a + b, f) == FlatMap(a, f) + FlatMap(b, f)
    decreases |a|
  {
    if a == [] {
      assert a + b == b;
    } else {
      assert (a + b)[1..] == a[1..] + b;
      FlatMapAppend(a[1..], b, f);
    }
  }

  /** Elements that `f` leaves alone come out unchanged. */
  lemma {:induction false} FlatMapFixed<T>(s: seq<T>, f: T -> seq<T>)
    requires FixedOn(s, f, 0, |s|)
    ensures FlatMap(s, f) == s
    decreases |s|
  {
    if s != [] {
      assert f(s[0]) == [s[0]];
      forall k | 0 <= k < |s| - 1 ensures f(s[1..][k]) == [s[1..][k]] {
        assert s[1..][k] == s[k + 1];
      }
      FlatMapFixed(s[1..], f);
    }
  }

  /** Moving from position `p` to a later `idx` over elements `f` leaves
      alone, and then over the element at `idx`. */
  lemma FlatMapStep<T>(src: seq<T>, f: T -> seq<T>, p: nat, idx: nat)
    requires p <= idx < |src| && FixedOn(src, f, p, idx)
    ensures FlatMap(src[..p], f) + src[p..] == FlatMap(src[..idx], f) + src[idx..]
    ensures FlatMap(src[..idx + 1], f) == FlatMap(src[..idx], f) + f(src[idx])
  {
    var front, mid := src[..p], src[p..idx];
    assert src[..idx] == front + mid;
    FlatMapAppend(front, mid, f);
    forall k | 0 <= k < |mid| ensures f(mid[k]) == [mid[k]] {
      assert mid[k] == src[p + k];
    }
    FlatMapFixed(mid, f);
    assert src[p..] == mid + src[idx..];
    var upto := src[..idx];
    assert src[..idx + 1] == upto + [src[idx]];
    FlatMapAppend(upto, [src[idx]], f);
    assert FlatMap([src[idx]], f) == f(src[idx]) + FlatMap([], f);
  }

  /** The state of the loop once the elements before `p` are replaced:
      `cur` holds their replacements followed by the rest of `src`, and
      `i` is how many elements the replacements added. */
  ghost predicate Done<T>(src: seq<T>, f: T -> seq<T>, p: nat, cur: seq<T>, i: int) {
    p <= |src| && cur == FlatMap(src[..p], f) + src[p..]
    && i + p == |FlatMap(src[..p], f)|
  }

  lemma DoneStart<T>(src: seq<T>, f: T -> seq<T>)
    ensures Done(src, f, 0, src, 0)
  {
    assert src[..0] == [] && src[0..] == src;
  }

  lemma At<T>(before: seq<T>, rest: seq<T>)
    requires |rest| > 0
    ensures (before + rest)[|before|] == rest[0]
  {
  }

  /** Replacing the element right after `before` by `mid`. */
  lemma Splice<T>(before: seq<T>, rest: seq<T>, mid: seq<T>)
    requires |rest| > 0
    ensures var s := before + rest;
      s[..|before|] + mid + s[|before| + 1..] == before + mid + rest[1..]
  {
    var s := before + rest;
    assert s[..|before|] == before;
    assert s[|before| + 1..] == rest[1..];
  }

  /** The next element to replace, `src[idx]`, is at `idx + i` in `cur`. */
  lemma DoneFound<T>(src: seq<T>, f: T -> seq<T>, p: nat, idx: nat, cur: seq<T>, i: int)
    requires Done(src, f, p, cur, i)
    requires p <= idx < |src| && FixedOn(src, f, p, idx)
    ensures 0 <= idx + i < |cur| && cur[idx + i] == src[idx]
  {
    FlatMapStep(src, f, p, idx);
    FlatMapAppend(src[..p], src[p..idx], f);
    assert src[..idx] == src[..p] + src[p..idx];
    var before, rest := FlatMap(src[..idx], f), src[idx..];
    assert |before| == idx + i by {
      var mid := src[p..idx];
      forall k | 0 <= k < |mid| ensures f(mid[k]) == [mid[k]] {
        assert mid[k] == src[p + k];
      }
      FlatMapFixed(mid, f);
    }
    At(before, rest);
  }

  /** Replacing it moves the loop state past `idx`. */
  lemma DoneSpliced<T>(src: seq<T>, f: T -> seq<T>, p: nat, idx: nat, cur: seq<T>, i: int, out: seq<T>)
    requires Done(src, f, p, cur, i)
    requires p <= idx < |src| && FixedOn(src, f, p, idx)
    requires 0 <= idx + i < |cur| && cur[idx + i] == src[idx]
    requires out == cur[..idx + i] + f(src[idx]) + cur[idx + i + 1..]
    ensures Done(src, f, idx + 1, out, i + |f(src[idx])| - 1)
  {
    FlatMapStep(src, f, p, idx);
    var before, rest := FlatMap(src[..idx], f), src[idx..];
    assert cur == before + rest;
    DoneFound(src, f, p, idx, cur, i);
    assert |before| == idx + i;
    Splice(before, rest, f(src[idx]));
    assert rest[1..] == src[idx + 1..];
  }

  /** Once the elements from `p` on are all left alone, `cur` is the whole
      replacement. */
  lemma DoneFinished<T>(src: seq<T>, f: T -> seq<T>, p: nat, cur: seq<T>, i: int)
    requires Done(src, f, p, cur, i) && FixedOn(src, f, p, |src|)
    ensures cur == FlatMap(src, f)
  {
    var front, back := src[..p], src[p..];
    assert src == front + back;
    FlatMapAppend(front, back, f);
    forall k | 0 <= k < |back| ensures f(back[k]) == [back[k]] {
      assert back[k] == src[p + k];
    }
    FlatMapFixed(back, f);
  }
}

=== FILE: tables.dfy ===
/** A pandas DataFrame as the scripts use it: an ordered list of column names
    and a sequence of rows, each row a map from column name to cell. */
module Tables {
  import opened Text

  /** One cell of an object column. `IntegralFloat(f)` is a float64 whose
      value is the integer `f` (`27.0`); NaN is `Missing`. */
  datatype Cell = Missing | Str(s: string) | Int(i: int) | IntegralFloat(f: int)

  /** A row; a column the row has no entry for reads as NaN. */
  type Row = map<string, Cell>

  datatype Table = Table(columns: seq<string>, rows: seq<Row>)

  function Get(r: Row, c: string): Cell {
    if c in r then r[c] else Missing
  }

  /** `df[cols]` for one row: every listed column, NaN where the row has
      no entry, so that an absent cell and a NaN cell project alike. */
  function Project(r: Row, cols: seq<string>): (p: Row)
    ensures forall c | c in cols :: Get(p, c) == Get(r, c)
    ensures forall c | c in p :: c in cols
  {
    map c | c in cols :: Get(r, c)
  }

  /** Two rows project to the same row exactly when they read alike, NaN
      for NaN, on every listed column: the equality `drop_duplicates` uses. */
  lemma ProjectAlike(x: Row, y: Row, cols: seq<string>)
    ensures Project(x, cols) == Project(y, cols) <==> forall c | c in cols :: Get(x, c) == Get(y, c)
  {
    if forall c | c in cols :: Get(x, c) == Get(y, c) {
      var p, q := Project(x, cols), Project(y, cols);
      assert p.Keys == q.Keys == set c | c in cols;
      forall c | c in p ensures p[c] == q[c] {
        assert Get(p, c) == Get(q, c);
      }
    }
  }

  /** A name cell as the scripts read it: a string or NaN. */
  predicate NameCell(c: Cell) { c.Str? || c.Missing? }

  /** `series.str.<f>()`: NaN and non-string cells give NaN. */
  function OnStr(c: Cell, f: string -> string): Cell {
    if c.Str? then Str(f(c.s)) else Missing
  }

  /** `series.fillna(v)` */
  function FillNa(c: Cell, v: Cell): Cell {
    if c.Missing? then v else c
  }

  /** Column list after `df.loc[:, c] = …`: a new column goes last. */
  function AddColumn(columns: seq<string>, c: string): seq<string> {
    if c in columns then columns else columns + [c]
  }

  /** `df.loc[:, c] = f(row)` for every row. */
  function WithColumn(t: Table, c: string, f: Row -> Cell): (r: Table)
    ensures r.columns == AddColumn(t.columns, c) && |r.rows| == |t.rows|
    ensures forall i | 0 <= i < |t.rows| :: r.rows[i] == t.rows[i][c := f(t.rows[i])]
  {
    Table(AddColumn(t.columns, c), seq(|t.rows|, i requires 0 <= i < |t.rows| => t.rows[i][c := f(t.rows[i])]))
  }

  /** `df.loc[:, "data_production_year"] = year` followed by
      `df.loc[:, "agency"] = agency`. */
  function Stamped(t: Table, year: string, agency: string): Table {
    WithColumn(WithColumn(t, "data_production_year", _ => Str(year)), "agency", _ => Str(agency))
  }

  /** `df.loc[i, c] = v` for the row at position `i`. */
  function WithCell(t: Table, i: nat, c: string, v: Cell): (r: Table)
    requires i < |t.rows|
    ensures r.columns == AddColumn(t.columns, c) && |r.rows| == |t.rows|
    ensures Get(r.rows[i], c) == v
    ensures forall j, d | 0 <= j < |t.rows| && (j != i || d != c) :: Get(r.rows[j], d) == Get(t.rows[j], d)
  {
    Table(AddColumn(t.columns, c), t.rows[i := t.rows[i][c := v]])
  }

  /** Every row carries the year and the agency, and nothing else changes. */
  lemma StampedSpec(t: Table, year: string, agency: string)
    ensures var r := Stamped(t, year, agency);
      && |r.rows| == |t.rows|
      && (forall c | c in t.columns :: c in r.columns)
      && "data_production_year" in r.columns && "agency" in r.columns
      && (forall i | 0 <= i < |r.rows| :: Get(r.rows[i], "data_production_year") == Str(year) && Get(r.rows[i], "agency") == Str(agency))
      && (forall i, c | 0 <= i < |r.rows| && c != "data_production_year" && c != "agency" :: Get(r.rows[i], c) == Get(t.rows[i], c))
  {
  }

  /** `df.fillna("")` over the frame's columns. */
  function FillBlank(t: Table): Table {
    Table(t.columns, seq(|t.rows|, i requires 0 <= i < |t.rows| => FillRow(t.rows[i], t.columns)))
  }

  function FillRow(r: Row, columns: seq<string>): Row {
    map c | c in columns :: FillNa(Get(r, c), Str(""))
  }

  /** `df.drop(columns=cs)` */
  function DropColumns(t: Table, cs: set<string>): (r: Table)
    ensures |r.rows| == |t.rows|
    ensures forall c | c in r.columns :: c in t.columns && c !in cs
    ensures forall c | c in t.columns && c !in cs :: c in r.columns
    ensures forall i, c | 0 <= i < |t.rows| && c !in cs :: Get(r.rows[i], c) == Get(t.rows[i], c)
    ensures forall i, c | 0 <= i < |t.rows| && c in cs :: Get(r.rows[i], c) == Missing
  {
    forall c | c in t.columns && c !in cs ensures c in Keep(t.columns, c => c !in cs) {
      KeepHas(t.columns, c => c !in cs, c);
    }
    Table(Keep(t.columns, c => c !in cs),
          seq(|t.rows|, i requires 0 <= i < |t.rows| => map c | c in t.rows[i] && c !in cs :: t.rows[i][c]))
  }

  /** Row `i` of a table without the columns `cs`, stated about a row `y`
      known to be row `i` of the input. */
  lemma DroppedRow(t: Table, cs: set<string>, i: nat, y: Row)
    requires i < |t.rows| && t.rows[i] == y
    ensures forall c | c !in cs :: Get(DropColumns(t, cs).rows[i], c) == Get(y, c)
    ensures forall c | c in cs :: Get(DropColumns(t, cs).rows[i], c) == Missing
  {
  }

  /** Row `i` of a filled table without the columns `cs`: a kept column of
      the table holds its old cell, `''` in place of a missing one. */
  lemma FilledDroppedRow(t: Table, cs: set<string>, i: nat, c: string)
    requires i < |t.rows| && c in t.columns && c !in cs
    ensures Get(DropColumns(FillBlank(t), cs).rows[i], c) == FillNa(Get(t.rows[i], c), Str(""))
  {
    var f := FillBlank(t);
    assert f.rows[i] == FillRow(t.rows[i], t.columns);
    DroppedRow(f, cs, i, f.rows[i]);
  }

  /** The elements of `s` satisfying `p`, in order (`df[mask]`, list
      comprehensions with a condition). */
  function Keep<T>(s: seq<T>, p: T -> bool): (r: seq<T>)
    ensures |r| <= |s|
    ensures forall x | x in r :: x in s && p(x)
  {
    if s == [] then []
    else if p(s[0]) then [s[0]] + Keep(s[1..], p)
    else Keep(s[1..], p)
  }

  lemma {:induction false} KeepHas<T>(s: seq<T>, p: T -> bool, x: T)
    ensures x in Keep(s, p) <==> x in s && p(x)
  {
    if s != [] {
      KeepHas(s[1..], p, x);
    }
  }

  /** `Keep` keeps every occurrence of an element satisfying `p` and none
      of any other. */
  lemma {:induction false} KeepCount<T>(s: seq<T>, p: T -> bool, x: T)
    ensures multiset(Keep(s, p))[x] == if p(x) then multiset(s)[x] else 0
  {
    if s != [] {
      KeepCount(s[1..], p, x);
      assert s == [s[0]] + s[1..];
    }
  }

  lemma {:induction false} KeepAppend<T>(a: seq<T>, b: seq<T>, p: T -> bool)
    ensures Keep(a + b, p) == Keep(a, p) + Keep(b, p)
  {
    if a != [] {
      assert (a + b)[1..] == a[1..] + b;
      KeepAppend(a[1..], b, p);
    } else {
      assert a + b == b;
    }
  }

  lemma {:induction false} KeepAll<T>(s: seq<T>, p: T -> bool)
    requires forall x | x in s :: p(x)
    ensures Keep(s, p) == s
  {
    if s != [] {
      KeepAll(s[1..], p);
    }
  }

  lemma {:induction false} KeepNone<T>(s: seq<T>, p: T -> bool)
    requires forall x | x in s :: !p(x)
    ensures Keep(s, p) == []
  {
    if s != [] {
      KeepNone(s[1..], p);
    }
  }

  lemma {:induction false} KeepDistinct<T>(s: seq<T>, p: T -> bool)
    requires forall i, j | 0 <= i < j < |s| :: s[i] != s[j]
    ensures forall i, j | 0 <= i < j < |Keep(s, p)| :: Keep(s, p)[i] != Keep(s, p)[j]
  {
    if s != [] {
      KeepDistinct(s[1..], p);
      assert s[0] !in s[1..];
      KeepHas(s[1..], p, s[0]);
    }
  }

  /** `df[mask].reset_index(drop=True)`: the rows where `keep` holds, in
      their original order. */
  function Filter(t: Table, keep: Row -> bool): (r: Table)
    ensures r.columns == t.columns
    ensures r.rows == Keep(t.rows, keep)
  {
    Table(t.columns, Keep(t.rows, keep))
  }

  /** `s.drop_duplicates()`: the first occurrence of each element, in order. */
  function Distinct<T(==)>(s: seq<T>): (r: seq<T>)
    ensures forall i, j | 0 <= i < j < |r| :: r[i] != r[j]
    ensures forall x | x in s :: x in r
    ensures forall x | x in r :: x in s
    ensures |r| <= |s|
    decreases |s|
  {
    if s == [] then []
    else
      var d := Distinct(s[..|s| - 1]);
      var x := s[|s| - 1];
      assert forall y | y in s :: y in s[..|s| - 1] || y == x;
      if x in d then d else d + [x]
  }

  lemma {:induction false} DistinctOfDistinct<T>(s: seq<T>)
    requires forall i, j | 0 <= i < j < |s| :: s[i] != s[j]
    ensures Distinct(s) == s
    decreases |s|
  {
    if s != [] {
      DistinctOfDistinct(s[..|s| - 1]);
      assert s[|s| - 1] !in s[..|s| - 1];
      assert s[..|s| - 1] + [s[|s| - 1]] == s;
    }
  }

  function Keys(s: seq<Row>, c: string): set<Cell> {
    set x | x in s :: Get(x, c)
  }

  /** `df.drop_duplicates(subset=[c])`: the first row of each value of `c`
      (NaN counts as one value), in order. */
  function DedupBy(s: seq<Row>, c: string): (r: seq<Row>)
    ensures forall x | x in r :: x in s
    ensures Keys(r, c) == Keys(s, c)
    ensures |r| <= |s|
    decreases |s|
  {
    if s == [] then []
    else
      var p := s[..|s| - 1];
      var d := DedupBy(p, c);
      var x := s[|s| - 1];
      assert forall y | y in s :: y in p || y == x;
      assert Keys(s, c) == Keys(p, c) + {Get(x, c)};
      if Get(x, c) in Keys(d, c) then d else d + [x]
  }

  /** After `DedupBy` no two rows share a value of `c`. */
  lemma {:induction false} DedupByUnique(s: seq<Row>, c: string)
    ensures forall i, j | 0 <= i < j < |DedupBy(s, c)| :: Get(DedupBy(s, c)[i], c) != Get(DedupBy(s, c)[j], c)
    decreases |s|
  {
    if s != [] {
      var p := s[..|s| - 1];
      var x := s[|s| - 1];
      var d := DedupBy(p, c);
      DedupByUnique(p, c);
      assert DedupBy(s, c) == if Get(x, c) in Keys(d, c) then d else d + [x];
      if Get(x, c) !in Keys(d, c) {
        forall i | 0 <= i < |d| ensures Get(d[i], c) != Get(x, c) {
          assert Get(d[i], c) in Keys(d, c);
        }
      }
    }
  }

  /** `x` is the first row of `s` holding its value of `c`. */
  ghost predicate FirstOfKey(s: seq<Row>, c: string, x: Row) {
    exists i | 0 <= i < |s| :: s[i] == x && forall j | 0 <= j < i :: Get(s[j], c) != Get(s[i], c)
  }

  lemma FirstOfKeyExtend(p: seq<Row>, c: string, y: Row, x: Row)
    requires FirstOfKey(p, c, y)
    ensures FirstOfKey(p + [x], c, y)
  {
    var i :| 0 <= i < |p| && p[i] == y && forall j | 0 <= j < i :: Get(p[j], c) != Get(p[i], c);
    var s := p + [x];
    assert forall j | 0 <= j <= i :: s[j] == p[j];
  }

  lemma FirstOfKeyLast(p: seq<Row>, c: string, x: Row)
    requires Get(x, c) !in Keys(p, c)
    ensures FirstOfKey(p + [x], c, x)
  {
    var s := p + [x];
    forall j | 0 <= j < |p| ensures Get(s[j], c) != Get(x, c) {
      assert s[j] == p[j] && p[j] in p;
    }
    assert s[|p|] == x;
  }

  /** Every row `DedupBy` keeps is the first of its key. */
  lemma {:induction false} DedupByFirst(s: seq<Row>, c: string)
    ensures forall k | 0 <= k < |DedupBy(s, c)| :: FirstOfKey(s, c, DedupBy(s, c)[k])
    decreases |s|
  {
    if s != [] {
      var p := s[..|s| - 1];
      var x := s[|s| - 1];
      var d := DedupBy(p, c);
      DedupByFirst(p, c);
      assert s == p + [x];
      assert DedupBy(s, c) == if Get(x, c) in Keys(d, c) then d else d + [x];
      forall k | 0 <= k < |d| ensures FirstOfKey(s, c, d[k]) {
        FirstOfKeyExtend(p, c, d[k], x);
      }
      if Get(x, c) !in Keys(d, c) {
        FirstOfKeyLast(p, c, x);
      }
    }
  }

  /** A pandas frame that the scripts change in place (`df.loc[:, c] = …`). */
  class Frame {
    var columns: seq<string>
    var rows: seq<Row>

    function Value(): Table
      reads this
    {
      Table(columns, rows)
    }

    constructor (t: Table)
      ensures Value() == t
    {
      columns := t.columns;
      rows := t.rows;
    }

    /** `df.loc[i, c] = v` */
    method SetCell(i: nat, c: string, v: Cell)
      requires i < |rows|
      modifies this
      ensures Value() == WithCell(old(Value()), i, c, v)
    {
      var t := WithCell(Value(), i, c, v);
      columns, rows := t.columns, t.rows;
    }

    /** `df.loc[:, c] = f(df)` */
    method SetColumn(c: string, f: Row -> Cell)
      modifies this
      ensures Value() == WithColumn(old(Value()), c, f)
    {
      var t := WithColumn(Value(), c, f);
      columns, rows := t.columns, t.rows;
    }
  }
}

=== FILE: text.dfy ===
/** Python string primitives that the cleaning and matching scripts use, on
    ASCII text: strip, lower, literal replace-all, split and prefix tests. */
module Text {

  datatype Option<T> = None | Some(value: T)

  /** The ASCII characters for which Python's `str.isspace()` holds; these are
      what `str.strip()` removes and what the regex class `\s` matches. */
  const Whitespace: set<char> :=
    {' ', '\t', '\n', '\r', '\U{0B}', '\U{0C}', '\U{1C}', '\U{1D}', '\U{1E}', '\U{1F}'}

  predicate IsUpper(c: char) { 'A' <= c <= 'Z' }

  predicate IsLowerOrDigit(c: char) { 'a' <= c <= 'z' || '0' <= c <= '9' }

  predicate IsDigit(c: char) { '0' <= c <= '9' }

  /** The regex class `\w` restricted to ASCII. */
  predicate IsWordChar(c: char) { IsUpper(c) || IsLowerOrDigit(c) || c == '_' }

  function LowerChar(c: char): char {
    if IsUpper(c) then (c as int + 32) as char else c
  }

  /** `str.lower()` on ASCII letters. */
  function Lower(s: string): string {
    seq(|s|, i requires 0 <= i < |s| => LowerChar(s[i]))
  }

  /** `s.lstrip(cs)` */
  function LStrip(s: string, cs: set<char>): string
    decreases |s|
  {
    if |s| > 0 && s[0] in cs then LStrip(s[1..], cs) else s
  }

  /** `s.rstrip(cs)` */
  function RStrip(s: string, cs: set<char>): string
    decreases |s|
  {
    if |s| > 0 && s[|s| - 1] in cs then RStrip(s[..|s| - 1], cs) else s
  }

  /** `s.strip(cs)` */
  function StripChars(s: string, cs: set<char>): string {
    LStrip(RStrip(s, cs), cs)
  }

  /** `s.strip()` */
  function Strip(s: string): string {
    StripChars(s, Whitespace)
  }

  /** `s[:1]` */
  function Initial(s: string): string {
    if |s| == 0 then "" else s[..1]
  }

  predicate StartsWith(s: string, p: string) {
    |p| <= |s| && s[..|p|] == p
  }

  predicate EndsWith(s: string, p: string) {
    |p| <= |s| && s[|s| - |p|..] == p
  }

  /** `p in s` for a pattern `p`. */
  predicate Contains(s: string, p: string) {
    exists i | 0 <= i <= |s| :: StartsWith(s[i..], p)
  }

  /** `s.replace(p, r)`: every non-overlapping occurrence of `p`, found left to
      right, is replaced by `r`; the empty pattern matches between all
      characters and at both ends. */
  function ReplaceAll(s: string, p: string, r: string): string
    decreases |s|
  {
    if |p| == 0 then
      if s == [] then r else r + [s[0]] + ReplaceAll(s[1..], p, r)
    else if |s| < |p| then s
    else if s[..|p|] == p then r + ReplaceAll(s[|p|..], p, r)
    else [s[0]] + ReplaceAll(s[1..], p, r)
  }

  /** Position of the first `c` in `s`. */
  function IndexOf(s: string, c: char): (i: nat)
    requires c in s
    ensures i < |s| && s[i] == c && c !in s[..i]
  {
    if s[0] == c then 0 else IndexOf(s[1..], c) + 1
  }

  function Count(s: string, c: char): nat {
    if s == [] then 0 else (if s[0] == c then 1 else 0) + Count(s[1..], c)
  }

  /** `s.split(c)` for a one-character separator. */
  function SplitChar(s: string, c: char): seq<string>
    decreases |s|
  {
    if c !in s then [s]
    else
      var i := IndexOf(s, c);
      [s[..i]] + SplitChar(s[i + 1..], c)
  }

  /** `c.join(parts)` */
  function Join(parts: seq<string>, c: char): string {
    if |parts| == 0 then ""
    else if |parts| == 1 then parts[0]
    else parts[0] + [c] + Join(parts[1..], c)
  }

  // ---------------------------------------------------------------------
  // Strip

  lemma {:induction false} LStripShape(s: string, cs: set<char>)
    ensures exists k | 0 <= k <= |s| :: LStrip(s, cs) == s[k..] && forall j | 0 <= j < k :: s[j] in cs
    ensures |LStrip(s, cs)| > 0 ==> LStrip(s, cs)[0] !in cs
    decreases |s|
  {
    if |s| > 0 && s[0] in cs {
      LStripShape(s[1..], cs);
      var k :| 0 <= k <= |s[1..]| && LStrip(s[1..], cs) == s[1..][k..] && forall j | 0 <= j < k :: s[1..][j] in cs;
      assert LStrip(s, cs) == s[k + 1..];
      assert forall j | 0 <= j < k + 1 :: s[j] in cs by {
        forall j | 0 <= j < k + 1 ensures s[j] in cs {
          if j > 0 { assert s[j] == s[1..][j - 1]; }
        }
      }
    } else {
      assert LStrip(s, cs) == s[0..];
    }
  }

  lemma TakeTake<T>(s: seq<T>, n: nat, k: nat)
    requires k <= n <= |s|
    ensures s[..n][..k] == s[..k]
  {
  }

  lemma {:induction false} RStripShape(s: string, cs: set<char>)
    ensures exists k | 0 <= k <= |s| :: RStrip(s, cs) == s[..k] && forall j | k <= j < |s| :: s[j] in cs
    ensures |RStrip(s, cs)| > 0 ==> RStrip(s, cs)[|RStrip(s, cs)| - 1] !in cs
    decreases |s|
  {
    if |s| > 0 && s[|s| - 1] in cs {
      var t := s[..|s| - 1];
      RStripShape(t, cs);
      var k :| 0 <= k <= |t| && RStrip(t, cs) == t[..k] && forall j | k <= j < |t| :: t[j] in cs;
      assert RStrip(s, cs) == RStrip(t, cs);
      TakeTake(s, |s| - 1, k);
      forall j | k <= j < |s| ensures s[j] in cs {
        if j < |t| { assert s[j] == t[j]; }
      }
    } else {
      assert RStrip(s, cs) == s[..|s|];
    }
  }

  /** Where `s.strip(cs)` starts and ends in `s`. */
  lemma StripBounds(s: string, cs: set<char>) returns (a: nat, b: nat)
    ensures a <= b <= |s| && StripChars(s, cs) == s[a..b]
    ensures forall j | 0 <= j < a :: s[j] in cs
    ensures forall j | b <= j < |s| :: s[j] in cs
    ensures a < b ==> s[a] !in cs && s[b - 1] !in cs
  {
    RStripShape(s, cs);
    var t := RStrip(s, cs);
    b :| 0 <= b <= |s| && t == s[..b] && forall j | b <= j < |s| :: s[j] in cs;
    LStripShape(t, cs);
    a :| 0 <= a <= |t| && LStrip(t, cs) == t[a..] && forall j | 0 <= j < a :: t[j] in cs;
    forall j | 0 <= j < a ensures s[j] in cs {
      assert s[j] == t[j];
    }
    assert t[a..] == s[a..b];
    if a < b {
      assert t[a..][0] == s[a];
      assert t[|t| - 1] == s[b - 1];
    }
  }

  /** `s.strip(cs)` is a slice of `s` whose two ends are not in `cs`, and only
      characters of `cs` were cut. */
  lemma StripCharsShape(s: string, cs: set<char>)
    ensures var r := StripChars(s, cs);
      && (|r| > 0 ==> r[0] !in cs && r[|r| - 1] !in cs)
      && exists a, b | 0 <= a <= b <= |s| :: r == s[a..b]
    ensures StripChars(s, cs) == "" <==> forall j | 0 <= j < |s| :: s[j] in cs
  {
    var a, b := StripBounds(s, cs);
    var r := StripChars(s, cs);
    if a < b {
      assert r[0] == s[a] && r[|r| - 1] == s[b - 1];
      assert s[a] !in cs;
    } else {
      forall j | 0 <= j < |s| ensures s[j] in cs {
        if j >= a { assert j >= b; }
      }
    }
  }

  /** Stripping a string whose two ends are not in `cs` changes nothing. */
  lemma StripCharsNoop(s: string, cs: set<char>)
    requires |s| > 0 ==> s[0] !in cs && s[|s| - 1] !in cs
    ensures StripChars(s, cs) == s
  {
  }

  // ---------------------------------------------------------------------
  // Literal replace-all

  /** A character absent from the subject and from the replacement is absent
      from the result. */
  lemma {:induction false} ReplaceAllKeepsOut(s: string, p: string, r: string, c: char)
    requires c !in s && c !in r
    ensures c !in ReplaceAll(s, p, r)
    decreases |s|
  {
    if |p| == 0 {
      if s != [] { ReplaceAllKeepsOut(s[1..], p, r, c); }
    } else if |s| < |p| {
    } else if s[..|p|] == p {
      ReplaceAllKeepsOut(s[|p|..], p, r, c);
    } else {
      ReplaceAllKeepsOut(s[1..], p, r, c);
    }
  }

  /** Replacing every `c` by a text without `c` leaves no `c`. */
  lemma {:induction false} ReplaceAllRemovesChar(s: string, c: char, r: string)
    requires c !in r
    ensures c !in ReplaceAll(s, [c], r)
    decreases |s|
  {
    if |s| < 1 {
    } else if s[..1] == [c] {
      ReplaceAllRemovesChar(s[1..], c, r);
    } else {
      assert s[0] != c by { assert s[..1][0] == s[0]; }
      ReplaceAllRemovesChar(s[1..], c, r);
    }
  }

  /** Without an occurrence of a non-empty pattern, replace-all is the identity. */
  lemma {:induction false} ReplaceAllAbsent(s: string, p: string, r: string)
    requires |p| > 0 && !Contains(s, p)
    ensures ReplaceAll(s, p, r) == s
    decreases |s|
  {
    if |s| >= |p| {
      assert !StartsWith(s[0..], p);
      assert !Contains(s[1..], p) by {
        forall i | 0 <= i <= |s[1..]| ensures !StartsWith(s[1..][i..], p) {
          assert s[1..][i..] == s[i + 1..];
        }
      }
      ReplaceAllAbsent(s[1..], p, r);
    }
  }

  /** A subject that starts with the pattern has its first occurrence replaced
      there. */
  lemma ReplaceAllAtFront(p: string, t: string, r: string)
    requires |p| > 0
    ensures ReplaceAll(p + t, p, r) == r + ReplaceAll(t, p, r)
  {
    assert (p + t)[..|p|] == p;
    assert (p + t)[|p|..] == t;
  }

  /** A value that is exactly the pattern becomes exactly the replacement. */
  lemma ReplaceAllWhole(p: string, r: string)
    requires |p| > 0
    ensures ReplaceAll(p, p, r) == r
  {
    ReplaceAllAtFront(p, "", r);
    assert p + "" == p;
  }

  /** A subject shorter than the pattern cannot contain it. */
  lemma ShortNoContains(s: string, p: string)
    requires |s| < |p|
    ensures !Contains(s, p)
  {
  }

  /** Containing a longer pattern implies containing each of its prefixes. */
  lemma ContainsPrefixOf(t: string, long: string, short: string)
    requires StartsWith(long, short) && Contains(t, long)
    ensures Contains(t, short)
  {
    var i :| 0 <= i <= |t| && StartsWith(t[i..], long);
    assert t[i..][..|short|] == long[..|short|];
    assert StartsWith(t[i..], short);
  }

  /** When a replacement can neither contain the pattern nor form an occurrence
      together with the text on either side of it, no occurrence survives a
      replace-all. */
  ghost predicate Separated(p: string, r: string) {
    && |p| > 0
    && !Contains(r, p)
    // no non-empty proper prefix of `p` ends `r` (occurrence starting inside `r`)
    && (forall k | 0 < k < |p| && k <= |r| :: !EndsWith(r, p[..k]))
    // no non-empty proper suffix of `p` is compatible with the start of `r`
    && (forall j | 0 < j < |p| :: !StartsWith(r, p[j..]) && !StartsWith(p[j..], r))
  }

  lemma StartsWithConcat(x: string, y: string, q: string)
    requires !StartsWith(x, q) && !StartsWith(q, x)
    ensures !StartsWith(x + y, q)
  {
    if |q| <= |x| {
      assert (x + y)[..|q|] == x[..|q|];
    } else if |q| <= |x + y| {
      assert (x + y)[..|q|][..|x|] == x;
    }
  }

  lemma {:induction false} AlignedSuffix(s: string, p: string, r: string, j: nat)
    requires Separated(p, r) && 0 < j < |p|
    ensures StartsWith(ReplaceAll(s, p, r), p[j..]) ==> StartsWith(s, p[j..])
    decreases |s|
  {
    var out := ReplaceAll(s, p, r);
    var q := p[j..];
    if |s| < |p| {
    } else if s[..|p|] == p {
      StartsWithConcat(r, ReplaceAll(s[|p|..], p, r), q);
    } else {
      var rest := ReplaceAll(s[1..], p, r);
      assert out == [s[0]] + rest;
      if StartsWith(out, q) {
        assert s[0] == q[0] by { assert out[..|q|][0] == q[0]; }
        if j + 1 < |p| {
          AlignedSuffix(s[1..], p, r, j + 1);
          assert q[1..] == p[j + 1..];
          assert rest[..|q| - 1] == out[..|q|][1..];
          assert StartsWith(rest, p[j + 1..]);
          assert s[..|q|] == [s[0]] + s[1..][..|q| - 1];
        } else {
          assert s[..|q|] == [s[0]];
        }
      }
    }
  }

  lemma ConsStartsWith(a: char, rest: string, p: string)
    requires |p| > 0
    ensures StartsWith([a] + rest, p) <==> a == p[0] && StartsWith(rest, p[1..])
  {
    if StartsWith([a] + rest, p) {
      assert ([a] + rest)[..|p|] == [a] + rest[..|p| - 1];
      assert p == [p[0]] + p[1..];
    }
    if a == p[0] && StartsWith(rest, p[1..]) {
      assert ([a] + rest)[..|p|] == [a] + rest[..|p| - 1];
      assert p == [p[0]] + p[1..];
    }
  }

  lemma Straddle(r: string, rest: string, i: nat, p: string)
    requires i < |r| < i + |p|
    ensures StartsWith((r + rest)[i..], p) ==> EndsWith(r, p[..|r| - i])
  {
    var k := |r| - i;
    if StartsWith((r + rest)[i..], p) {
      assert (r + rest)[i..][..k] == r[i..];
      assert p[..k] == (r + rest)[i..][..|p|][..k];
    }
  }

  /** No occurrence of the pattern survives a replace-all by a separated
      replacement. */
  lemma {:induction false} ReplaceAllClears(s: string, p: string, r: string)
    requires Separated(p, r)
    ensures !Contains(ReplaceAll(s, p, r), p)
    decreases |s|
  {
    var out := ReplaceAll(s, p, r);
    if |s| < |p| {
      ShortNoContains(s, p);
    } else if s[..|p|] == p {
      var rest := ReplaceAll(s[|p|..], p, r);
      ReplaceAllClears(s[|p|..], p, r);
      assert out == r + rest;
      forall i | 0 <= i <= |out| ensures !StartsWith(out[i..], p) {
        if i >= |r| {
          assert out[i..] == rest[i - |r|..];
        } else if |r| - i >= |p| {
          assert out[i..][..|p|] == r[i..][..|p|];
        } else {
          Straddle(r, rest, i, p);
        }
      }
    } else {
      var rest := ReplaceAll(s[1..], p, r);
      ReplaceAllClears(s[1..], p, r);
      assert out == [s[0]] + rest;
      ConsStartsWith(s[0], rest, p);
      ConsStartsWith(s[0], s[1..], p);
      assert s == [s[0]] + s[1..];
      if |p| > 1 {
        AlignedSuffix(s[1..], p, r, 1);
      }
      forall i | 1 <= i <= |out| ensures !StartsWith(out[i..], p) {
        assert out[i..] == rest[i - 1..];
      }
      assert out[0..] == out;
    }
  }

  /** A pattern one of whose characters is absent from `s` does not occur. */
  lemma CharNotContains(s: string, p: string, i: nat)
    requires i < |p| && p[i] !in s
    ensures !Contains(s, p)
  {
    forall j | 0 <= j <= |s| ensures !StartsWith(s[j..], p) {
      if j + |p| <= |s| {
        assert s[j + i] in s;
        assert s[j..][..|p|][i] == s[j + i];
      }
    }
  }

  /** A text without `short` has no occurrence of anything starting with it. */
  lemma ExtensionAbsent(t: string, long: string, short: string)
    requires StartsWith(long, short) && !Contains(t, short)
    ensures !Contains(t, long)
  {
    forall i | 0 <= i <= |t| ensures !StartsWith(t[i..], long) {
      assert !StartsWith(t[i..], short);
      if |long| <= |t[i..]| {
        assert t[i..][..|long|][..|short|] == t[i..][..|short|];
      }
    }
  }

  /** `s.str.replace(p1, r1).str.replace(p2, r2)…`: an ordered list of literal
      replace-alls, the first rule applied first. */
  function ApplyRules(s: string, rules: seq<(string, string)>): string
    decreases |rules|
  {
    if rules == [] then s else ApplyRules(ReplaceAll(s, rules[0].0, rules[0].1), rules[1..])
  }

  lemma {:induction false} ApplyRulesAppend(s: string, a: seq<(string, string)>, b: seq<(string, string)>)
    ensures ApplyRules(s, a + b) == ApplyRules(ApplyRules(s, a), b)
    decreases |a|
  {
    if a != [] {
      assert (a + b)[1..] == a[1..] + b;
      ApplyRulesAppend(ReplaceAll(s, a[0].0, a[0].1), a[1..], b);
    } else {
      assert a + b == b;
    }
  }

  /** A character that neither the text nor any replacement has never
      appears. */
  lemma {:induction false} ApplyRulesKeepsOut(s: string, rules: seq<(string, string)>, c: char)
    requires c !in s && forall k | 0 <= k < |rules| :: c !in rules[k].1
    ensures c !in ApplyRules(s, rules)
    decreases |rules|
  {
    if rules != [] {
      ReplaceAllKeepsOut(s, rules[0].0, rules[0].1, c);
      ApplyRulesKeepsOut(ReplaceAll(s, rules[0].0, rules[0].1), rules[1..], c);
    }
  }

  /** A rule whose pattern no longer occurs when its turn comes can be
      removed from the list. */
  lemma DeadRule(s: string, rules: seq<(string, string)>, k: nat)
    requires k < |rules| && |rules[k].0| > 0 && !Contains(ApplyRules(s, rules[..k]), rules[k].0)
    ensures ApplyRules(s, rules) == ApplyRules(s, rules[..k] + rules[k + 1..])
  {
    assert rules == rules[..k] + rules[k..];
    ApplyRulesAppend(s, rules[..k], rules[k..]);
    ApplyRulesAppend(s, rules[..k], rules[k + 1..]);
    ReplaceAllAbsent(ApplyRules(s, rules[..k]), rules[k].0, rules[k].1);
    assert rules[k..][1..] == rules[k + 1..];
  }

  /** Lower-casing introduces no character other than a lower-case letter. */
  lemma LowerKeepsOut(s: string, c: char)
    requires c !in s && !('a' <= c <= 'z')
    ensures c !in Lower(s)
  {
    forall i | 0 <= i < |s| ensures Lower(s)[i] != c {
      assert s[i] in s;
    }
  }

  /** Stripping only removes characters. */
  lemma StripKeepsOut(s: string, c: char)
    requires c !in s
    ensures c !in Strip(s)
  {
    StripCharsShape(s, Whitespace);
    var a, b :| 0 <= a <= b <= |s| && Strip(s) == s[a..b];
    forall i | 0 <= i < b - a ensures s[a..b][i] != c {
      assert s[a + i] in s;
    }
  }

  // ---------------------------------------------------------------------
  // Split

  /** `c.join(s.split(c)) == s`, every part is free of `c`, and there is one
      part more than there are separators. */
  lemma {:induction false} SplitCharJoin(s: string, c: char)
    ensures Join(SplitChar(s, c), c) == s
    ensures |SplitChar(s, c)| == Count(s, c) + 1
    ensures forall k | 0 <= k < |SplitChar(s, c)| :: c !in SplitChar(s, c)[k]
    decreases |s|
  {
    if c in s {
      var i := IndexOf(s, c);
      var tail := SplitChar(s[i + 1..], c);
      SplitCharJoin(s[i + 1..], c);
      assert SplitChar(s, c) == [s[..i]] + tail;
      assert s == s[..i] + [c] + s[i + 1..];
      CountSplit(s, i, c);
    } else {
      CountAbsent(s, c);
    }
  }

  lemma {:induction false} CountAbsent(s: string, c: char)
    requires c !in s
    ensures Count(s, c) == 0
    decreases |s|
  {
    if s != [] { CountAbsent(s[1..], c); }
  }

  lemma {:induction false} CountSplit(s: string, i: nat, c: char)
    requires i < |s| && s[i] == c && c !in s[..i]
    ensures Count(s, c) == 1 + Count(s[i + 1..], c)
    decreases i
  {
    if i > 0 {
      assert s[0] != c by { assert s[..i][0] == s[0]; }
      assert s[1..][..i - 1] == s[..i][1..];
      CountSplit(s[1..], i - 1, c);
      assert s[1..][i..] == s[i + 1..];
    }
  }

  /** The piece of `s.split(c)` at position `j` of `n`, with the whitespace
      next to each separator cut off. */
  function TrimPart(part: string, j: nat, n: nat): string {
    var l := if j > 0 then LStrip(part, Whitespace) else part;
    if j + 1 < n then RStrip(l, Whitespace) else l
  }

  /** `re.split(r"\s*c\s*", s)`: the split on `c` with the whitespace around
      each separator absorbed into it. */
  function SplitAbsorbing(s: string, c: char): (r: seq<string>)
    ensures |r| == Count(s, c) + 1
    ensures forall j | 0 <= j < |r| :: c !in r[j]
    ensures c !in s ==> r == [s]
  {
    var parts := SplitChar(s, c);
    SplitCharJoin(s, c);
    var r := seq(|parts|, j requires 0 <= j < |parts| => TrimPart(parts[j], j, |parts|));
    forall j | 0 <= j < |r| ensures c !in r[j] {
      TrimPartKeepsOut(parts[j], j, |parts|, c);
    }
    r
  }

  lemma LStripKeepsOut(s: string, cs: set<char>, c: char)
    requires c !in s
    ensures c !in LStrip(s, cs)
  {
    LStripShape(s, cs);
    var k :| 0 <= k <= |s| && LStrip(s, cs) == s[k..] && forall j | 0 <= j < k :: s[j] in cs;
    forall i | 0 <= i < |s| - k ensures s[k..][i] != c {
      assert s[k + i] in s;
    }
  }

  lemma RStripKeepsOut(s: string, cs: set<char>, c: char)
    requires c !in s
    ensures c !in RStrip(s, cs)
  {
    RStripShape(s, cs);
    var k :| 0 <= k <= |s| && RStrip(s, cs) == s[..k] && forall j | k <= j < |s| :: s[j] in cs;
    forall i | 0 <= i < k ensures s[..k][i] != c {
      assert s[i] in s;
    }
  }

  lemma TrimPartKeepsOut(part: string, j: nat, n: nat, c: char)
    requires c !in part
    ensures c !in TrimPart(part, j, n)
  {
    var l := if j > 0 then LStrip(part, Whitespace) else part;
    if j > 0 { LStripKeepsOut(part, Whitespace, c); }
    if j + 1 < n { RStripKeepsOut(l, Whitespace, c); }
  }

  /** Without whitespace there is nothing to absorb: the pieces are those of
      `s.split(c)` and joining them gives `s` back. */
  lemma SplitAbsorbingPlain(s: string, c: char)
    requires forall i | 0 <= i < |s| :: s[i] !in Whitespace
    ensures SplitAbsorbing(s, c) == SplitChar(s, c)
    ensures Join(SplitAbsorbing(s, c), c) == s
  {
    var parts := SplitChar(s, c);
    SplitCharJoin(s, c);
    forall j | 0 <= j < |parts| ensures TrimPart(parts[j], j, |parts|) == parts[j] {
      PartsAreSlices(s, c, j);
      forall i | 0 <= i < |parts[j]| ensures parts[j][i] !in Whitespace {
        var k :| 0 <= k < |s| && s[k] == parts[j][i];
      }
      TrimPartPlain(parts[j], j, |parts|);
    }
    assert SplitAbsorbing(s, c) == parts;
  }

  /** A piece without whitespace is not trimmed. */
  lemma TrimPartPlain(part: string, j: nat, n: nat)
    requires forall i | 0 <= i < |part| :: part[i] !in Whitespace
    ensures TrimPart(part, j, n) == part
  {
    if |part| > 0 {
      assert part[0] !in Whitespace && part[|part| - 1] !in Whitespace;
    }
  }

  /** Every piece of `s.split(c)` is made of characters of `s`. */
  lemma {:induction false} PartsAreSlices(s: string, c: char, j: nat)
    requires j < |SplitChar(s, c)|
    ensures forall i | 0 <= i < |SplitChar(s, c)[j]| :: SplitChar(s, c)[j][i] in s
    decreases |s|
  {
    if c in s {
      var k := IndexOf(s, c);
      if j > 0 {
        PartsAreSlices(s[k + 1..], c, j - 1);
        forall i | 0 <= i < |SplitChar(s, c)[j]| ensures SplitChar(s, c)[j][i] in s {
          assert SplitChar(s, c)[j][i] in s[k + 1..];
        }
      } else {
        forall i | 0 <= i < k ensures s[..k][i] in s {
          assert s[i] in s;
        }
      }
    }
  }

  /** How far the regular expression `.*` (any character but a newline)
      reaches from the start of `s`. */
  function LineLength(s: string): (n: nat)
    ensures n <= |s|
    decreases |s|
  {
    if s != [] && s[0] != '\n' then 1 + LineLength(s[1..]) else 0
  }

  /** The reach holds no newline and stops only at one or at the end. */
  lemma {:induction false} LineLengthSpec(s: string)
    ensures forall i | 0 <= i < LineLength(s) :: s[i] != '\n'
    ensures LineLength(s) < |s| ==> s[LineLength(s)] == '\n'
    decreases |s|
  {
    if s != [] && s[0] != '\n' {
      LineLengthSpec(s[1..]);
    }
  }

  // ---------------------------------------------------------------------
  // Decimal integers

  predicate AllDigits(s: string) {
    forall i | 0 <= i < |s| :: IsDigit(s[i])
  }

  function DigitChar(d: nat): char
    requires d < 10
  {
    ('0' as int + d) as char
  }

  /** `str(n)` for a natural number. */
  function NatToDecimal(n: nat): (s: string)
    ensures |s| > 0 && AllDigits(s)
  {
    if n < 10 then [DigitChar(n)] else NatToDecimal(n / 10) + [DigitChar(n % 10)]
  }

  /** `str(n)` for an integer. */
  function IntToDecimal(n: int): string {
    if n < 0 then "-" + NatToDecimal(-n) else NatToDecimal(n)
  }

  function DigitsValue(s: string): nat
    requires AllDigits(s)
  {
    if s == [] then 0 else DigitsValue(s[..|s| - 1]) * 10 + (s[|s| - 1] as int - '0' as int)
  }

  /** `int(s)` on an optional `-` followed by decimal digits; anything else
      is not a number. */
  function ParseInt(s: string): Option<int> {
    if |s| > 1 && s[0] == '-' && AllDigits(s[1..]) then Some(-(DigitsValue(s[1..]) as int))
    else if |s| > 0 && AllDigits(s) then Some(DigitsValue(s))
    else None
  }

  lemma {:induction false} NatDecimalValue(n: nat)
    ensures DigitsValue(NatToDecimal(n)) == n
  {
    if n >= 10 {
      NatDecimalValue(n / 10);
      var s := NatToDecimal(n / 10) + [DigitChar(n % 10)];
      assert s[..|s| - 1] == NatToDecimal(n / 10);
    }
  }

  /** Rendering an integer and reading it back gives the integer again. */
  lemma DecimalRoundTrip(n: int)
    ensures ParseInt(IntToDecimal(n)) == Some(n)
    ensures '.' !in IntToDecimal(n)
  {
    if n < 0 {
      NatDecimalValue(-n);
      assert IntToDecimal(n)[1..] == NatToDecimal(-n);
    } else {
      NatDecimalValue(n);
    }
  }
}
